=== FILE: README.md ===
# Ballistica engine core, modelled in Dafny

This project models the sequential bookkeeping at the heart of the Ballistica
game engine (the engine behind BombSquad). Each component is a record of
counters, queues, maps and flags, and each operation is a pure transition
function over that record:

- `Input`: the input-device registry, with slots that are reused lowest-first.
  It also covers per-name device numbering backed by a reservation table,
  the permanent and temporary input locks with their 10-second watchdog,
  the set of held keys and the single tracked touch.
- `Graphics`, `GraphicsConfig` and `GraphicsMath` cover the logic-thread side
  of the renderer:
  - the frame-def recycle pool (capped at 5) and the frame counter;
  - the mesh create/destroy hand-off;
  - the two screen-message queues, which are trimmed by age and by count;
  - the fade state machine;
  - the parsing of config strings;
  - the reflection-type names;
  - blotch vertex and index emission;
  - the safe-colour and shadow-density helpers;
  - the pixel-to-virtual mapping.
- `EventLoop`: the per-cycle semantics of the engine's event loops.
  - Thread messages live in a FIFO queue that is drained by swapping it out.
  - Pause, resume and shutdown are messages.
  - Runnables are deferred to the next pass.
  - Overflow is logged at 1000 queued messages and is fatal past 10000.
- `GraphicsServer`: the graphics-thread side of the renderer.
  - Frame defs pass through a single slot.
  - A render-hold counter gates drawing.
  - Quality requests are resolved and clamped.
  - Compressed texture types are kept in a bitmask.
  - The screen resolution and virtual resolution are tracked.
- `Logic`: the logic subsystem's once-only lifecycle flags and the headless
  sleep clamp. It also covers the smoothing of the display-time increment:
  a 15-sample ring buffer whose mean drops the first minimum and the first
  maximum, followed by a trailing dead-band update.
- `Console` and `UI` cover the developer console (its state cycle, command
  history and line cap), the UI lock counter and menu-ownership arbitration.
- `AppAdapter` and `AppAdapterSDL` cover the app's pause and resume handling
  and resize-draw suppression. They also cover the auto-vsync hysteresis, the
  slow-frame counter, the SDL joystick index map and mouse normalisation.
- `CorePlatform` and `BasePlatform` are string and decision helpers:
  - the legacy user agent and the device account id;
  - memoised capability queries and the clipboard guards;
  - broadcast addresses;
  - the purchase-id filter, URL routing, the cursor position and the cached
    public device UUID.
- `SoundtrackBrowser` covers the soundtrack browser window: list ordering,
  selection, delete, duplicate naming and saved-state restore.
- `AccountV2` covers the v2 account subsystem's login and auto-sign-in state
  machine.
- `PCommands2` covers the build tool's generation of the monolithic module
  registration header, the `wsl_path_to_win` argument handling, the
  prefab-library check and the archive naming.

The shared modules are small and are reused by the others:

- `Wrappers` holds `Option` and `Result`.
- `Seqs` trims a sequence to its newest or oldest entries.
- `Strings` holds string helpers: digits, replace, strip, lower-case, sorting
  and joining.
- `BaseTypes` holds the engine's quality and compression enums.

Floats are modelled as reals. Times are integers in milliseconds or
microseconds, as in the source. Object identity (devices, frame defs, meshes,
Python calls) is a `nat`. Everything the code asks of an unseen collaborator
becomes a parameter of the function that asks:

- the renderer's automatic quality choices;
- `kTVBorder` and the base virtual resolution;
- the thread-message safety threshold;
- md5 and the login-id hash;
- the `copyOfText` translation and soundtrack display names;
- whether a path exists, and `wslpath`;
- the platform's clipboard and touch-screen answers;
- the `LANG` variable.

## Model

| member | source | states |
|---|---|---|
| Input.GetInputDevice | src/ballistica/base/input/input.cc:78-83 | a device comes back exactly when the id is in range and its slot is occupied, and in a well-formed registry that device's own index is the id |
| Input.UsedNumbers | src/ballistica/base/input/input.cc:115-148 | a number counts as taken exactly when a live device with the same raw name holds it, or (for a device with an identifier) a reservation under that name maps to it |
| Input.LeastFreeFrom | src/ballistica/base/input/input.cc:115-161 | the counting-up search returns a number not taken, at or above the start, with every number between the start and it taken |
| Input.GetNewNumberedIdentifier | src/ballistica/base/input/input.cc:97-162 | a reserved number for (name, identifier) comes back unchanged with the table untouched; otherwise the result is the least n >= 1 not in use, and it is reserved only when the identifier is non-empty |
| Input.ValidNumberingIsFunctional | src/ballistica/base/input/input.cc:97-162 | the numbering rule determines both the number and the resulting reservation table uniquely |
| Input.FirstEmptySlot | src/ballistica/base/input/input.cc:305-321 | the chosen slot is the lowest empty one, or one past the end when every slot is full |
| Input.AddInputDevice | src/ballistica/base/input/input.cc:296-330 | the device lands in the lowest empty slot (appending when none is empty), its index is that slot, every other slot is unchanged, and its number follows the numbering rule |
| Input.FindSlot | src/ballistica/base/input/input.cc:377-399 | the scan finds the first slot holding the device, or reports that no slot from the start onwards holds it |
| Input.RemoveInputDevice | src/ballistica/base/input/input.cc:370-401 | removing an unregistered device fails with "Input::RemoveInputDevice: invalid device provided"; otherwise exactly its slot is cleared, the vector keeps its length and the reservations are untouched |
| Input.AddPreservesWellFormed | src/ballistica/base/input/input.cc:296-330 | adding a new device keeps every live device at its own index and no device in two slots |
| Input.RemovePreservesWellFormed | src/ballistica/base/input/input.cc:370-401 | removal keeps the registry well formed |
| Input.RemoveUnregisters | src/ballistica/base/input/input.cc:377-400 | after removal the device is in no slot |
| Input.AddThenGet | src/ballistica/base/input/input.cc:305-321 | looking up the index an added device was given returns that device |
| Input.ReconnectKeepsNumber | src/ballistica/base/input/input.cc:105-113 | a device with an identifier that disconnects and reconnects gets back the number it had |
| Input.CountLocalActive | src/ballistica/base/input/input.cc:464-476 | the count of local, non-keyboard, non-touch, non-UI-only devices used within the last 60000 ms is bounded by the slot count and is positive exactly when one such device exists |
| Input.GetLocalActiveInputDeviceCount | src/ballistica/base/input/input.cc:451-479 | the count is recomputed only when the millisecond clock has moved since the last check, and is cached otherwise |
| Input.CountIsMemoisedPerMillisecond | src/ballistica/base/input/input.cc:456-460 | within one millisecond a second query returns the cached count even if the registry changed |
| Input.HaveManyLocalActiveInputDevices | src/ballistica/base/input/input.h:104-106 | holds exactly when the (cached) local active count is above 1 |
| Input.IsInputLocked | src/ballistica/base/input/input.h:63-65 | input is locked exactly when the temporary or the permanent count is non-zero |
| Input.LockAllInput | src/ballistica/base/input/input.cc:662-681 | a permanent lock bumps its count and records its label; a temp lock bumps its count, stamps the start time only on the 0 to 1 transition, and logs into a history capped at 10 entries |
| Input.UnlockEntry | src/ballistica/base/input/input.cc:686-689 | the corrected log line ends with the label followed by " time " and the app time |
| Input.UnlockEntryNamesLabel | src/ballistica/base/input/input.cc:686-689 | every corrected unlock log line contains its label |
| Input.UnlockEntryAsWrittenDropsLabel | src/ballistica/base/input/input.cc:686-689 | the log line as written records a permanent unlock labelled "menu" at time 5 exactly like an unlabelled one, with no time |
| Input.UnlockAllInput | src/ballistica/base/input/input.cc:683-727 | the unlock is logged with the corrected line of the Findings (history capped at 10); the count drops by one clamped at 0, that kind's label lists are cleared when it reaches 0, and the other kind is untouched |
| Input.LockThenUnlockRestoresCounts | src/ballistica/base/input/input.cc:662-727 | a lock followed by an unlock of the same kind restores both counts |
| Input.StepDisplayTime | src/ballistica/base/input/input.cc:600-637 | a temp lock held more than 10000 ms is released and its labels cleared, with permanent locks untouched; every 249 ms the idle time resets to 0 if input was active and otherwise grows by 249 ms |
| Input.WatchdogWaitsTenSeconds | src/ballistica/base/input/input.cc:606-608 | a temp lock taken from zero survives every step up to 10000 ms after it was taken |
| Input.WatchdogReleasesTempLocks | src/ballistica/base/input/input.cc:606-615 | once the watchdog fires, input stays locked exactly when a permanent lock is held |
| Input.HandleKeyPress | src/ballistica/base/input/input.cc:910-938 | a press while locked is ignored; a captured press leaves the held set alone; otherwise a held key is a repeat and a new key joins the held set |
| Input.HandleKeyRelease | src/ballistica/base/input/input.cc:1082-1112 | a release of an unheld key is a duplicate and ignored; otherwise the key leaves the held set, even while input is locked |
| Input.PressReleaseRestoresHeld | src/ballistica/base/input/input.cc:932-938 | pressing a new key and releasing it restores the held set, whatever the locks do in between |
| Input.RepeatPressIsIdempotent | src/ballistica/base/input/input.cc:932-935 | pressing a held key again reports a repeat and changes nothing |
| Input.HandleTouchEvent | src/ballistica/base/input/input.cc:1407-1466 | while locked nothing happens; a down adopts the touch only when none is tracked; moves are forwarded only for the tracked touch; an up or cancel of the tracked touch, or any overall one, clears it with a mouse-up |
| Input.TouchDownUpIsClick | src/ballistica/base/input/input.cc:1451-1466 | a touch that goes down with none tracked and then up produces exactly a mouse-down and a mouse-up, and leaves nothing tracked |
| Graphics.GetEmptyFrameDef | src/ballistica/base/graphics/graphics.cc:962-975 | the most recently recycled def is reused when the pool is non-empty, otherwise a fresh id is allocated; either way the id is below the allocation counter and the pool stays valid |
| Graphics.ReturnCompletedFrameDef | src/ballistica/base/graphics/graphics.cc:1563-1566 | a rendered def is appended to the delete list and nothing else changes |
| Graphics.Kept | src/ballistica/base/graphics/graphics.cc:977-991 | the number of returned defs recycled never exceeds the number returned |
| Graphics.RecycleOrDelete | src/ballistica/base/graphics/graphics.cc:977-991 | returned defs are recycled in order while the pool has room, and the rest are deleted |
| Graphics.ClearFrameDefDeleteList | src/ballistica/base/graphics/graphics.cc:977-991 | the delete list empties, every returned def is either recycled or deleted, and a pool of at most 5 stays at most 5 |
| Graphics.AddMeshDataCreate | src/ballistica/base/graphics/graphics.cc:1568-1576 | the mesh joins the pending create list and nothing else changes |
| Graphics.AddMeshDataDestroy | src/ballistica/base/graphics/graphics.cc:1578-1586 | the mesh joins the pending destroy list and nothing else changes |
| Graphics.BuildAndPushFrameDef | src/ballistica/base/graphics/graphics.cc:1110-1244 | the frame takes the counter's value and the counter advances by one; elapsed time is the time since the last frame capped at 50 ms; the pending mesh lists move into the def and empty, as do the blotch buffers; the building flag is false afterwards |
| Graphics.FrameNumbersAreConsecutive | src/ballistica/base/graphics/graphics.cc:1116-1117 | two successive builds get consecutive frame numbers |
| Graphics.ReturnedDefIsReused | src/ballistica/base/graphics/graphics.cc:962-991 | a def returned after one build is recycled when the next frame is built, and the frame after that reuses it |
| Graphics.DropOlderThan | src/ballistica/base/graphics/graphics.cc:500-515 | the filter never lengthens a queue, and a queue with nothing older than the cutoff comes back unchanged |
| Graphics.DropOlderThanMembers | src/ballistica/base/graphics/graphics.cc:500-515 | a message survives the filter exactly when it was in the queue and was created at or after the cutoff |
| Graphics.TrimKeepsRecentLast | src/ballistica/base/graphics/graphics.cc:499-521 | a queue whose newest message is within the 5000 ms lifetime still ends with that message after the trim, for any cap of at least one |
| Graphics.TrimScreenMessages | src/ballistica/base/graphics/graphics.cc:499-521 | at most the cap remains; after 5000 ms of app time nothing older than 5000 ms survives; before that only the oldest are dropped to meet the cap |
| Graphics.AddTopScreenMessage | src/ballistica/base/graphics/graphics.cc:908-919 | the message is appended at the back with the current time; its start height is -40 or 25 below the previous entry, clamped to [-100, -40] |
| Graphics.AddBottomScreenMessage | src/ballistica/base/graphics/graphics.cc:919-921 | the message is appended at the back with the current time and the earlier entries are untouched |
| Graphics.Reset | src/ballistica/base/graphics/graphics.cc:925-937 | the fade level and start reset to 0 and the top queue empties; the rest of the fade state is kept |
| Graphics.NewMessageSurvivesTrim | src/ballistica/base/graphics/graphics.cc:499-521 | a message just added survives the next trim as its newest entry |
| Graphics.DropAppended | src/ballistica/base/graphics/graphics.cc:500-515 | filtering a queue with a message added at the back filters the older part alone, then keeps the new message exactly when it was created at or after the cutoff |
| Graphics.FadeScreen | src/ballistica/base/graphics/graphics.cc:993-1011 | any pending end-call is scheduled first and replaced by the new one; the fade restarts at 1 with the direction and duration given |
| Graphics.UnstickFade | src/ballistica/base/graphics/graphics.cc:1346-1355 | a fade stuck faded-out for more than 15000 ms past its end is force-restarted as a 1000 ms fade-in from now, and any other fade is left alone |
| Graphics.DrawFades | src/ballistica/base/graphics/graphics.cc:1342-1378 | at most one end-call is scheduled per frame; it is the pending one, scheduled only when the fade reaches 0, and then cleared; the fade level stays in [0, 1] |
| Graphics.EndCallRunsAtMostOnce | src/ballistica/base/graphics/graphics.cc:1358-1378 | over any sequence of frames a fade's end-call is scheduled at most once, and never when none was pending |
| Graphics.FetchOverlayNodeZDepth | src/ballistica/base/graphics/graphics.h:235-238 | reading the overlay depth returns it and marks it as fetched |
| Graphics.PreNodeDraw | src/ballistica/base/graphics/graphics.h:242 | the fetched mark is cleared and the depth kept |
| Graphics.PostNodeDraw | src/ballistica/base/graphics/graphics.h:243-247 | the depth is multiplied by 0.99 exactly when it was fetched since the last `PreNodeDraw` |
| Graphics.NodeDrawAdvancesDepthOnlyWhenFetched | src/ballistica/base/graphics/graphics.h:235-247 | a node that reads the depth pushes later nodes closer, and a node that does not leaves it unchanged |
| Graphics.DefaultsAreConsistent | src/ballistica/base/graphics/graphics.h:405-437 | a new graphics object numbers frames from 1, is not mid-build, starts faded out, has a valid frame-def pool and has a shadow range that satisfies `SetShadowRange`'s ordering |
| GraphicsConfig.TextureQualityFromConfig | src/ballistica/base/graphics/graphics.cc:113-130 | "Auto", "High" and "Medium" map to their requests, and every other string maps to Low |
| GraphicsConfig.TextureQualityRoundTrip | src/ballistica/base/graphics/graphics.cc:113-130 | every texture request is recovered from its config name |
| GraphicsConfig.GraphicsQualityFromConfig | src/ballistica/base/graphics/graphics.cc:132-151 | "Higher", "High", "Medium" and "Low" map to their requests, and every other string maps to Auto |
| GraphicsConfig.GraphicsQualityRoundTrip | src/ballistica/base/graphics/graphics.cc:132-151 | every graphics request is recovered from its config name |
| GraphicsConfig.VSyncFromConfig | src/ballistica/base/graphics/graphics.cc:184-201 | "Auto" gives (on, auto), "Always" gives (on, not auto), and anything else gives (off, off) |
| GraphicsConfig.VSyncRoundTrip | src/ballistica/base/graphics/graphics.cc:184-201 | each of the three settings (auto, always, never) read back from its config name is the same setting |
| GraphicsConfig.StringFromReflectionType | src/ballistica/base/graphics/graphics.cc:1977-2005 | every reflection type has a name, and parsing that name gives the type back |
| GraphicsConfig.ReflectionTypeFromString | src/ballistica/base/graphics/graphics.cc:2007-2028 | parsing succeeds exactly for the seven names and the empty string (which means none); anything else fails with "invalid reflection type: '<s>'" |
| GraphicsConfig.ReflectionNameRoundTrip | src/ballistica/base/graphics/graphics.cc:1977-2028 | every parseable string is that type's name, except "" which names none |
| GraphicsConfig.CubeMapFromReflectionType | src/ballistica/base/graphics/graphics.cc:1957-1975 | every type except none has a cube map, and none throws |
| GraphicsConfig.CubeMapInjective | src/ballistica/base/graphics/graphics.cc:1957-1975 | different reflection types use different cube maps |
| GraphicsMath.ScaleToTarget | src/ballistica/base/graphics/graphics.cc:872-879 | a colour darker than the target is scaled and clamped so that each channel is at most 1; a bright enough colour is unchanged |
| GraphicsMath.GreyPassesIdleAtOrBelowOne | src/ballistica/base/graphics/graphics.cc:886-896 | the grey-redistribution loop never changes a colour whose luma is at most 1 |
| GraphicsMath.GreyPassesSettleAfterOne | src/ballistica/base/graphics/graphics.cc:886-896 | the loop's first pass already settles, so four passes equal one, and a colour brighter than 1 comes out of it with every channel at most 1 |
| GraphicsMath.GetSafeColor | src/ballistica/base/graphics/graphics.cc:868-897 | a colour too dark or too bright comes back with every channel at most 1; any other colour comes back unchanged |
| GraphicsMath.SafeColorKeepsUnitColors | src/ballistica/base/graphics/graphics.cc:868-897 | a colour with channels in [0, 1] that already meets the target is untouched |
| GraphicsMath.SafeColorHitsTarget | src/ballistica/base/graphics/graphics.cc:872-879 | when scaling needs no clamping, the result has exactly the target luma |
| GraphicsMath.SetShadowRange | src/ballistica/base/graphics/graphics.cc:305-313 | the four bounds are stored, given the ordering the source asserts |
| GraphicsMath.GetShadowDensity | src/ballistica/base/graphics/graphics.cc:315-331 | the density is in [0, 1]; it is 0 below the lower band's bottom and at or above the upper band's top, and 1 between the two bands |
| GraphicsMath.ShadowDensityRisesThroughLowerBand | src/ballistica/base/graphics/graphics.cc:315-325 | below the upper band, density never decreases with height |
| GraphicsMath.PixelToVirtual | src/ballistica/base/graphics/graphics.h:252-269 | without the TV border, the mapping is the linear scale virtual/pixel |
| GraphicsMath.TVBorderEdges | src/ballistica/base/graphics/graphics.h:253-258 | with the TV border, pixel 0 maps to -0.5 * border * virtual and the full width maps to (1 + 0.5 * border) * virtual |
| GraphicsMath.CentreMapsToCentre | src/ballistica/base/graphics/graphics.h:252-269 | with or without the border, the centre pixel maps to the virtual centre |
| GraphicsMath.DoDrawBlotchAsWritten | src/ballistica/base/graphics/graphics.cc:1661-1737 | as written: 4 vertices and 6 indices are appended, with the indices truncated to 16 bits |
| GraphicsMath.BlotchIndexWrapsAsWritten | src/ballistica/base/graphics/graphics.cc:1669-1736 | with 65533 vertices queued the guard passes, yet one new index wraps to 0 and names an old vertex |
| GraphicsMath.DoDrawBlotch | src/ballistica/base/graphics/graphics.cc:1661-1737 | 4 corner vertices with the blotch's position, size and colour are appended, plus 6 indices that each name a new corner and fit in 16 bits; earlier data is untouched |
| GraphicsMath.BlotchTrianglesCoverQuad | src/ballistica/base/graphics/graphics.cc:1661-1737 | the six new indices use all four corners, with uv (0,0), (0,65535), (65535,0) and (65535,65535) |
| EventLoop.PushThreadMessage | src/ballistica/shared/foundation/event_loop.cc:515-578 | the message goes to the back of the queue; more than 10000 queued is fatal with the thread's name; crossing 1000 logs once |
| EventLoop.OverflowLoggedOnce | src/ballistica/shared/foundation/event_loop.cc:524-567 | after an overflow log, further pushes do not log again |
| EventLoop.PushLocalRunnable | src/ballistica/shared/foundation/event_loop.cc:700-703 | the runnable is appended to the runnable list |
| EventLoop.PushRunnable | src/ballistica/shared/foundation/event_loop.cc:721-730 | on the loop's own thread the runnable goes straight onto the runnable list, and from elsewhere it is queued as a message |
| EventLoop.PushRunnableSynchronous | src/ballistica/shared/foundation/event_loop.cc:732-759 | calling it from the loop's own thread is an error (it would deadlock); otherwise a runnable message carrying its completion flag is queued |
| EventLoop.PushSetPaused | src/ballistica/shared/foundation/event_loop.cc:184-190 | a pause or resume message is queued and the paused flag does not change until it is processed |
| EventLoop.CheckPushSafety | src/ballistica/shared/foundation/event_loop.cc:761-772 | safe exactly when the relevant count is below the threshold: runnables on the own thread, messages otherwise |
| EventLoop.Quit | src/ballistica/shared/foundation/event_loop.cc:453-457 | only a loop wrapping the main thread is marked done |
| EventLoop.NextWait | src/ballistica/shared/foundation/event_loop.cc:192-255 | single-cycle mode never waits, and neither do pending messages or unpaused runnables; a paused loop with no messages waits for one; a timed wait happens only when unpaused with active timers, for the time to the next expiry |
| EventLoop.GetThreadMessages | src/ballistica/shared/foundation/event_loop.cc:335-345 | the whole queue is handed over in order and the shared queue is left empty |
| EventLoop.HandleMessage | src/ballistica/shared/foundation/event_loop.cc:292-317 | pause requires not paused and resume requires paused; each runs its callbacks and flips the flag (pause also resets the counter); shutdown sets done; a runnable joins the runnable list |
| EventLoop.ProcessMessages | src/ballistica/shared/foundation/event_loop.cc:286-322 | handling a batch leaves the queue, what has run and the timers alone, and a shutdown in the batch leaves the loop done |
| EventLoop.RunnablesKeepArrivalOrder | src/ballistica/shared/foundation/event_loop.cc:286-322 | a batch of runnable messages lands on the runnable list in arrival order |
| EventLoop.ShutdownDiscardsRest | src/ballistica/shared/foundation/event_loop.cc:296-299 | everything queued behind a shutdown in the same batch is discarded unprocessed |
| EventLoop.RunAll | src/ballistica/shared/foundation/event_loop.cc:658-686 | every runnable in the swapped-out batch runs in order, and exactly their completion flags are set |
| EventLoop.RunPendingRunnables | src/ballistica/shared/foundation/event_loop.cc:658-686 | every pending runnable runs once, in order, after those already run, and its completion flag is set; runnables they queue wait for the next pass; the queue and flags are untouched |
| EventLoop.Cycle | src/ballistica/shared/foundation/event_loop.cc:279-333 | a cycle drains the message queue; an unpaused loop runs its timers once, and a paused loop runs no timers and no runnables |
| EventLoop.ExitsAfterCycle | src/ballistica/shared/foundation/event_loop.cc:319-331 | `Run_` leaves after a cycle that set done, or after any cycle in single-cycle mode |
| EventLoop.SynchronousRunnableCompletes | src/ballistica/shared/foundation/event_loop.cc:732-759 | one cycle after a synchronous push from another thread, the runnable has run and its completion flag is set |
| EventLoop.PushedRunnableRunsNextCycle | src/ballistica/shared/foundation/event_loop.cc:721-730 | a runnable pushed to an idle running loop, from its own thread or another, runs in the next cycle, and the runnables it pushes wait for a later cycle |
| EventLoop.SafePushSucceeds | src/ballistica/shared/foundation/event_loop.cc:761-772 | when `CheckPushSafety` allows a cross-thread push at a threshold of at most 10000, that push cannot hit the fatal queue limit |
| EventLoop.PushWakesLoop | src/ballistica/shared/foundation/event_loop.cc:192-255 | after any successful push the loop does not wait: a queued message always means work |
| EventLoop.QuitEndsRun | src/ballistica/shared/foundation/event_loop.cc:453-457 | a quit main-thread loop leaves `Run_` after its next cycle, and quitting any other loop changes nothing |
| EventLoop.PausedLoopRunsNothing | src/ballistica/shared/foundation/event_loop.cc:286-327 | while paused, a cycle still drains messages but runs no runnables or timers |
| GraphicsServer.SetFrameDef | src/ballistica/base/graphics/graphics_server.cc:50-62 | only an empty slot can be filled, and only the slot changes |
| GraphicsServer.GetRenderFrameDef | src/ballistica/base/graphics/graphics_server.cc:64-118 | without a renderer or while paused nothing is taken; otherwise the def is taken and the slot emptied |
| GraphicsServer.SlotRoundTrip | src/ballistica/base/graphics/graphics_server.cc:50-118 | handing a def over and taking it back returns it and leaves the server as it was |
| GraphicsServer.SetRenderHold | src/ballistica/base/graphics/graphics_server.cc:37-40 | the hold count goes up by one and nothing else changes |
| GraphicsServer.RemoveRenderHold | src/ballistica/base/graphics/graphics_server.cc:843-852 | the hold count goes down by one, clamped (with an error) at 0 |
| GraphicsServer.RenderHoldNeverNegative | src/ballistica/base/graphics/graphics_server.cc:37-40 | a non-negative hold count stays non-negative under both operations |
| GraphicsServer.HoldThenRemoveRestores | src/ballistica/base/graphics/graphics_server.cc:37-40 | setting a hold and then removing it restores the server |
| GraphicsServer.RemoveFirst | src/ballistica/base/graphics/graphics_server.cc:121-135 | erasing removes exactly one occurrence of the mesh, when there is one |
| GraphicsServer.RunFrameDefMeshUpdates | src/ballistica/base/graphics/graphics_server.cc:121-135 | the live meshes become the old ones plus the def's creates, minus its destroys, as multisets |
| GraphicsServer.RemoveEach | src/ballistica/base/graphics/graphics_server.cc:128-134 | erasing each destroyed mesh in turn removes them all, as multisets |
| GraphicsServer.TryRender | src/ballistica/base/graphics/graphics_server.cc:169-192 | mesh updates always run for a fetched def and the def is returned; rendering happens exactly when a def was fetched, a screen target exists and the hold is 0 |
| GraphicsServer.RenderedDefReturnsToPool | src/ballistica/base/graphics/graphics_server.cc:169-192 | a def handed to the server is rendered and comes back to the logic thread's delete list |
| GraphicsServer.GraphicsQualityFor | src/ballistica/base/graphics/graphics_server.cc:441-472 | explicit requests map to the same-named quality and auto defers to the renderer; the result is clamped to medium without high-quality support |
| GraphicsServer.TextureQualityFor | src/ballistica/base/graphics/graphics_server.cc:474-495 | explicit requests map to the same-named quality, auto defers to the renderer, and an unhandled value maps to low |
| GraphicsServer.FilterQualityRequest | src/ballistica/base/graphics/graphics_server.cc:282-287 | when high quality is known to be unsupported, any request above medium becomes medium; otherwise the request is unchanged |
| GraphicsServer.AutoRequestBecomesMediumWithoutHighSupport | src/ballistica/base/graphics/graphics_server.cc:282-287 | because auto is declared after medium, the filter turns auto into medium |
| GraphicsServer.FilterAgreesWithClamp | src/ballistica/base/graphics/graphics_server.cc:282-287 | when the renderer's auto choice is at least medium, filtering first and clamping later choose the same quality as clamping alone |
| GraphicsServer.ApplyQualities | src/ballistica/base/graphics/graphics_server.cc:384-495 | the requests are recorded, both qualities are resolved and marked set, and a render hold is taken |
| GraphicsServer.CompressionMask | src/ballistica/base/graphics/graphics_server.cc:645-652 | bit `1 << t` is set exactly for the listed types, and no other bit is set |
| GraphicsServer.SetTextureCompressionTypes | src/ballistica/base/graphics/graphics_server.cc:645-652 | the mask is reset and holds exactly the listed types; it is marked set and nothing else changes |
| GraphicsServer.SetScreenHeadless | src/ballistica/base/graphics/graphics_server.cc:296-307 | headless, both qualities are low and set, the compression mask is empty and set, and the initial-screen notice goes out only the first time |
| GraphicsServer.NoteInitialScreen | src/ballistica/base/graphics/graphics_server.cc:373-377 | the initial-screen flag is raised and the notice is reported exactly when it was not yet raised |
| GraphicsServer.InitialScreenNoticeOnce | src/ballistica/base/graphics/graphics_server.cc:373-377 | a second screen never reports the initial-screen notice again |
| GraphicsServer.CalcVirtualRes | src/ballistica/base/graphics/graphics_server.cc:527-538 | one axis equals the base resolution, the aspect ratio is the physical one, and neither axis falls below its base |
| GraphicsServer.SetScreenResolution | src/ballistica/base/graphics/graphics_server.cc:554-578 | an unchanged target does nothing; otherwise the resolution is stored, the virtual resolution is recomputed (the base itself in VR) and a size change is pushed |
| GraphicsServer.ResolutionChangeIsIdempotent | src/ballistica/base/graphics/graphics_server.cc:554-559 | setting the same resolution twice pushes a single size change |
| Logic.CompleteAppBootstrapping | src/ballistica/base/logic/logic.cc:106-111 | bootstrapping may complete only once, and completing it sets only that flag |
| Logic.Shutdown | src/ballistica/base/logic/logic.cc:209-217 | the first call starts shutting down and runs the app-shutdown hook; later calls do nothing |
| Logic.ShutdownIsIdempotent | src/ballistica/base/logic/logic.cc:209-217 | shutting down twice is the same as shutting down once, with the hook run at most once |
| Logic.CompleteShutdown | src/ballistica/base/logic/logic.cc:245-252 | completing the shutdown fails unless shutting down and not yet completed; otherwise it marks completion |
| Logic.ShutdownCompletesOnce | src/ballistica/base/logic/logic.cc:245-252 | completion needs shutdown to have begun, and a second completion fails even after another shutdown call |
| Logic.PendingWorkTimerLength | src/ballistica/base/logic/logic.cc:561-581 | without a timer nothing changes; otherwise the length is 1 with pending loads and -1 without |
| Logic.PendingWorkTimerRecordsLoads | src/ballistica/base/logic/logic.cc:571-580 | with a timer, the length is positive (keep working) exactly when loads are pending, so the two states never share a length |
| Logic.HeadlessSleep | src/ballistica/base/logic/logic.cc:391-413 | the requested step is clamped to [1000, 500000] us, and the timer length is the step divided by 1000, truncated to whole ms |
| Logic.HeadlessSleepIdempotent | src/ballistica/base/logic/logic.cc:395-398 | clamping a step that is already clamped changes nothing |
| Logic.HeadlessSleepMonotone | src/ballistica/base/logic/logic.cc:395-412 | a longer requested step never gives a shorter step or a shorter timer length |
| Logic.FirstMaxIndex | src/ballistica/base/logic/logic.cc:461-475 | the scan finds the first position holding the largest sample |
| Logic.FirstMinIndex | src/ballistica/base/logic/logic.cc:461-475 | the scan finds the first position holding the smallest sample |
| Logic.Kept | src/ballistica/base/logic/logic.cc:481-495 | skipping two positions keeps one sample fewer for each distinct skipped position |
| Logic.Trimmed | src/ballistica/base/logic/logic.cc:461-496 | 13 samples are averaged, or 14 exactly when the first minimum and first maximum coincide; all lie between the overall extremes |
| Logic.MeanBetweenExtremes | src/ballistica/base/logic/logic.cc:477-496 | the mean of the kept samples lies between their smallest and largest |
| Logic.TrimmedMean | src/ballistica/base/logic/logic.cc:477-496 | the average lies between the kept samples' extremes and so between the whole buffer's extremes |
| Logic.SteadySamplesAverageToThemselves | src/ballistica/base/logic/logic.cc:461-496 | when every sample is the same, the average is that value |
| Logic.RecordSample | src/ballistica/base/logic/logic.cc:443-455 | the first sample fills all 15 slots and starts the index at 0; later samples overwrite the current slot and advance the index mod 15 |
| Logic.RingOverwritesOldest | src/ballistica/base/logic/logic.cc:451-454 | the next sample does not overwrite the one just recorded: it lands in the following slot |
| Logic.UseAverage | src/ballistica/base/logic/logic.cc:497-509 | the average is used only when it is non-zero; for a positive mean, exactly when the kept samples' spread is under half of it |
| Logic.Trail | src/ballistica/base/logic/logic.cc:525-540 | the increment moves only when `used` is more than 3% of the average away from it, and then by exactly the excess towards `used` |
| Logic.TrailSettles | src/ballistica/base/logic/logic.cc:525-540 | trailing twice towards the same value moves no further than trailing once |
| Logic.TruncateToInt | src/ballistica/base/logic/logic.cc:556 | the conversion of a double to an integer truncates toward zero |
| Logic.UpdateDisplayTimeForFrameDraw | src/ballistica/base/logic/logic.cc:416-558 | the first call only records the app time; later calls record the interval in the ring and trail the increment; display time then advances by the increment and the integer microseconds follow it |
| Logic.SteadyFramesKeepIncrement | src/ballistica/base/logic/logic.cc:416-558 | at a steady frame rate that matches the increment, the increment never moves |
| Logic.UpdateDisplayTimeForHeadlessMode | src/ballistica/base/logic/logic.cc:361-381 | headless display time equals app time, the increment is the difference from the previous time, and the float values follow the integers |
| Logic.HeadlessIncrementsTelescope | src/ballistica/base/logic/logic.cc:371-381 | two headless steps advance display time by the sum of their increments |
| Console.ToggleState | src/ballistica/base/ui/console.cc:180-195 | the state cycles Inactive to Mini to Full to Inactive, and the transition restarts |
| Console.ToggleCycleHasLengthThree | src/ballistica/base/ui/console.cc:180-195 | three toggles return to the starting state, and one toggle always changes it |
| Console.CppRem | src/ballistica/base/ui/console.cc:93-105 | C++ `%` truncates, so the remainder takes the sign of the dividend |
| Console.RecallHistory | src/ballistica/base/ui/console.cc:87-110 | an empty history changes nothing; otherwise the position moves by one and the input becomes the entry at (pos - 1) % size (C++ remainder), or stays when no entry matches |
| Console.Enter | src/ballistica/base/ui/console.cc:111-133 | with input disabled nothing changes; otherwise the input is pushed to the front of a history capped at 100, the position resets, the input clears, and "clear" empties the lines instead of running |
| Console.HandleKeyPress | src/ballistica/base/ui/console.cc:47-152 | the activate keys always toggle and are consumed; other keys are ignored while inactive and consumed while active |
| Console.DeleteLast | src/ballistica/base/ui/console.cc:76-86 | backspace removes exactly the last code point of a non-empty input |
| Console.HandleTextEditing | src/ballistica/base/ui/console.cc:197-210 | text is taken and appended exactly when the console is active and the text is not a backtick |
| Console.HandleKeyRelease | src/ballistica/base/ui/console.cc:212-220 | a release is consumed exactly for the activate keys or while the console is active |
| Console.PressAndReleaseAgree | src/ballistica/base/ui/console.cc:47-152 | a key's release is consumed exactly when its press was, except that an Escape closing a full console is consumed on press and its release passes through |
| Console.TypeThenDeleteRestores | src/ballistica/base/ui/console.cc:76-86 | typing a character and deleting it restores the input |
| Console.EnterThenUpRecallsCommand | src/ballistica/base/ui/console.cc:87-133 | the command just entered is the first one Up brings back |
| Console.DownAtStartKeepsInput | src/ballistica/base/ui/console.cc:93-105 | Down at the start of a history of three or more gives a negative remainder, which matches no entry and leaves the input alone |
| Console.AppendLinesKeepsNewest | src/ballistica/base/ui/console.cc:233-241 | appending lines one at a time with the cap applied each time keeps the newest 80 lines overall |
| Console.Print | src/ballistica/base/ui/console.cc:225-242 | every piece but the last becomes a completed line (keeping the newest 80), and the last piece becomes the open line |
| UI.InitialScale | src/ballistica/base/ui/ui.cc:19-46 | "small", "medium" and "large" in the override force that scale; anything else falls through to medium on VR or TV and to the platform's scale otherwise |
| UI.ScaleOverrideRoundTrip | src/ballistica/base/ui/ui.cc:19-46 | naming any scale in the override yields exactly that scale, marked forced, whatever the device |
| UI.UnknownOverrideIgnored | src/ballistica/base/ui/ui.cc:19-46 | an override naming no scale behaves as no override at all |
| UI.MainMenuVisible | src/ballistica/base/ui/ui.cc:90-95 | a main menu is visible only when the widget layer exists and shows one |
| UI.SendWidgetMessage | src/ballistica/base/ui/ui.cc:211-216 | without the widget layer the answer is 0 (false); otherwise it is the layer's answer |
| UI.NoWidgetLayerIsInert | src/ballistica/base/ui/ui.cc:90-95 | without the widget layer no menu shows, every widget message answers false, and a device asking for the menu gets nothing and changes nothing |
| UI.AcquireUILock | src/ballistica/base/ui/ui.cc:176-184 | the lock count goes up; taking a write lock while the count is non-zero is flagged as an error |
| UI.ReleaseUILock | src/ballistica/base/ui/ui.cc:186-192 | the lock count goes down, clamped (with an error) at 0 |
| UI.NestedLocksBalance | src/ballistica/base/ui/ui.cc:176-192 | inside a lock a read lock is legal and a write lock is not, and releasing both restores the count |
| UI.SetUIInputDevice | src/ballistica/base/ui/ui.cc:167-174 | the owner changes and its last-use time is now |
| UI.OnAppResume | src/ballistica/base/ui/ui.cc:76-79 | after a resume nobody owns the menu |
| UI.GetWidgetForInput | src/ballistica/base/ui/ui.cc:235-280 | there is no widget while no main menu is visible; a device may drive the menu when it has no owner (or its owner has been disconnected, since the owner is held by a weak reference), when it is already the owner, when the owner has been idle for more than 30000 ms, or when few local devices are active; a refusal returns nothing and sounds the error at most once per 5000 ms |
| UI.LiveOwner | src/ballistica/base/ui/ui.h:118 | the owner reads as nobody once its device is no longer connected, and as itself while it is |
| UI.DisconnectedOwnerYields | src/ballistica/base/ui/ui.cc:256-269 | once the owner's device is gone, the next device to ask gets the menu and becomes the owner |
| UI.OwnerHoldsMenuForThirtySeconds | src/ballistica/base/ui/ui.cc:256-269 | with many local devices active, another device gets the menu exactly when more than 30000 ms have passed since the owner's last use or the owner is no longer connected |
| UI.RejectSoundIsRateLimited | src/ballistica/base/ui/ui.cc:270-280 | two refusals within 5000 ms sound the error at most once |
| AppAdapter.OnAppPause | src/ballistica/base/app_adapter/app_adapter.cc:128-143 | the event loops are paused and the pause hook runs once |
| AppAdapter.OnAppResume | src/ballistica/base/app_adapter/app_adapter.cc:145-171 | the loops resume and the resume time is recorded; `should_pause` is consumed, and a menu press is pushed only if it was set and no main menu is visible |
| AppAdapter.UpdatePauseResume | src/ballistica/base/app_adapter/app_adapter.cc:112-126 | afterwards the paused state equals the requested one, and the hooks run only on real transitions |
| AppAdapter.PauseApp | src/ballistica/base/app_adapter/app_adapter.cc:173-218 | needs no pending pause request; the app ends requested-paused and paused, and the pause hook runs only if it was running |
| AppAdapter.ResumeApp | src/ballistica/base/app_adapter/app_adapter.cc:220-236 | needs a pending pause request; the app ends unpaused, and the resume hook runs only if it was paused |
| AppAdapter.PauseResumeRunsEachHookOnce | src/ballistica/base/app_adapter/app_adapter.cc:173-236 | a pause followed by a resume runs each hook exactly once |
| AppAdapter.ShouldPauseIsConsumed | src/ballistica/base/app_adapter/app_adapter.cc:162-170 | a second resume never pushes another menu press |
| AppAdapter.FirstStop | src/ballistica/base/app_adapter/app_adapter.cc:188-216 | finds the first poll at which no loop is still pausing or 2000 ms have passed |
| AppAdapter.WaitForPause | src/ballistica/base/app_adapter/app_adapter.cc:188-216 | the wait completes only after a look within 2000 ms of the start finds no loop still pausing, and it times out only after a look at 2000 ms or more |
| AppAdapter.WaitEndsAtFirstStop | src/ballistica/base/app_adapter/app_adapter.cc:180-218 | the wait completes if the first stopping poll is within 2000 ms with no loop still pausing; otherwise it times out and reports the count seen just before |
| AppAdapter.DrawFrame | src/ballistica/base/app_adapter/app_adapter.cc:59-85 | without a renderer nothing is drawn; a resize draw always renders and records its time; another draw renders only 33 ms (1000/30) or more after the last resize draw |
| AppAdapter.ResizeSuppressesDrawsFor33Millisecs | src/ballistica/base/app_adapter/app_adapter.cc:59-85 | a draw d ms after a resize draw renders exactly when d >= 33 |
| AppAdapterSDL.Smooth | src/ballistica/base/app_adapter/app_adapter_sdl.cc:465-472 | the 0.95/0.05 running average of frame rate stays within [0, 1000] for real frame gaps, and a zero gap is infinite |
| AppAdapterSDL.UpdateAutoVSync | src/ballistica/base/app_adapter/app_adapter_sdl.cc:461-527 | with vsync on, frames of 25 ms or more while the smoothed rate is above 55 fps count up and the tenth turns it off (on mac it always turns off); with vsync off, frames of 20 ms or less count up and the 60th turns it on (never on mac) |
| AppAdapterSDL.SetAutoVSync | src/ballistica/base/app_adapter/app_adapter_sdl.cc:529-538 | enabling auto forces vsync on, and disabling it leaves vsync as it was |
| AppAdapterSDL.EnablingAutoStartsOn | src/ballistica/base/app_adapter/app_adapter_sdl.cc:465-538 | setting the same auto mode twice is setting it once, and after turning auto on (off the mac) vsync survives any run of frames too short to collect ten bad ones |
| AppAdapterSDL.VSyncOffNeedsTenBadFrames | src/ballistica/base/app_adapter/app_adapter_sdl.cc:465-503 | fewer than ten bad frames in total can never turn vsync off |
| AppAdapterSDL.FastFramesReenableVSync | src/ballistica/base/app_adapter/app_adapter_sdl.cc:504-526 | a run of fast frames that brings the good count to exactly 60 turns vsync back on, and not one frame earlier |
| AppAdapterSDL.MacVSyncStaysOff | src/ballistica/base/app_adapter/app_adapter_sdl.cc:504-526 | on mac, vsync that is off stays off whatever the frame times |
| AppAdapterSDL.AfterSwap | src/ballistica/base/app_adapter/app_adapter_sdl.cc:426-440 | a frame of 50 ms or more counts as slow and any other resets the count; exceeding 10 resets it and sends exactly one too-slow call, and every other swap sends none |
| AppAdapterSDL.SlowFrameCountStaysBounded | src/ballistica/base/app_adapter/app_adapter_sdl.cc:426-440 | the slow-frame count never exceeds 10, each swap sends at most one too-slow call, and a swap that sends one resets the count |
| AppAdapterSDL.ElevenSlowFramesActOnce | src/ballistica/base/app_adapter/app_adapter_sdl.cc:426-440 | eleven slow frames in a row send exactly one too-slow call and reset the count |
| AppAdapterSDL.SlowRunCounts | src/ballistica/base/app_adapter/app_adapter_sdl.cc:426-440 | a run of slow frames adds one to the count per frame until it passes 10 |
| AppAdapterSDL.AddSDLInputDevice | src/ballistica/base/app_adapter/app_adapter_sdl.cc:576-589 | the map grows to index + 1 (new slots empty) and the device sits at its index; other slots are unchanged |
| AppAdapterSDL.FindJoystick | src/ballistica/base/app_adapter/app_adapter_sdl.cc:632-641 | finds a joystick with that non-negative SDL id exactly when the map holds one, preferring the first slot |
| AppAdapterSDL.RemoveSDLInputDevice | src/ballistica/base/app_adapter/app_adapter_sdl.cc:591-604 | looks the joystick up by SDL id, clears the slot when the index is in range, and logs an error otherwise |
| AppAdapterSDL.RouteJoystickEvent | src/ballistica/base/app_adapter/app_adapter_sdl.cc:26-49 | an event whose index is out of range or whose slot is empty is ignored; otherwise it goes to a joystick with that id |
| AppAdapterSDL.AddedJoystickReceivesEvents | src/ballistica/base/app_adapter/app_adapter_sdl.cc:576-641 | after adding a joystick at its SDL id, its events reach it |
| AppAdapterSDL.RemovedJoystickIsIgnored | src/ballistica/base/app_adapter/app_adapter_sdl.cc:576-641 | after adding and then removing a joystick, its events are ignored |
| AppAdapterSDL.NormalizeMouse | src/ballistica/base/app_adapter/app_adapter_sdl.cc:55-81 | coordinates become x / width and 1 - y / height, landing in [0, 1] for points on the window |
| AppAdapterSDL.NormalizeMouseRoundTrip | src/ballistica/base/app_adapter/app_adapter_sdl.cc:55-81 | normalising loses nothing: scaling back by the window size gives the pixel position, and the other way round |
| CorePlatform.GetLocale | src/ballistica/core/platform/core_platform.cc:407-418 | `LANG` when it is set, "en_US" otherwise |
| CorePlatform.GetLocaleKeepsSetting | src/ballistica/core/platform/core_platform.cc:407-418 | different `LANG` settings give different locales, and an unset `LANG` reads exactly like one set to "en_US" |
| CorePlatform.Ask | src/ballistica/core/platform/core_platform.cc:445-451 | the platform is asked only the first time, and the cached answer is returned afterwards |
| CorePlatform.AskedOnce | src/ballistica/core/platform/core_platform.cc:1075-1082 | two queries make one platform call and give the same answer |
| CorePlatform.ClipboardHasText | src/ballistica/core/platform/core_platform.cc:1084-1090 | false whenever the clipboard is unsupported, and the platform's answer otherwise |
| CorePlatform.ClipboardSetText | src/ballistica/core/platform/core_platform.cc:1092-1099 | throws "ClipboardSetText called with no clipboard support." when unsupported, and otherwise leaves the clipboard holding the text |
| CorePlatform.ClipboardGetText | src/ballistica/core/platform/core_platform.cc:1101-1108 | throws "ClipboardGetText called with no clipboard support." when unsupported; with support, throws "Error fetching clipboard contents." when SDL hands back no text (core_platform.cc:1143-1150), and returns the clipboard's text otherwise |
| CorePlatform.ClipboardRoundTrip | src/ballistica/core/platform/core_platform.cc:1092-1150 | with support, reading after writing gives back the text written, even from a clipboard SDL could not read before; without support the write and the read each throw their own message |
| CorePlatform.Subplatform | src/ballistica/core/platform/core_platform.cc:568-593 | headless builds give "HdlS"; the fallback "TstB" comes exactly when no build flag matches; the tag is non-empty ASCII |
| CorePlatform.StripNonAscii | src/ballistica/core/platform/core_platform.cc:609-610 | the result is ASCII, no longer than the input, and equal to it when it was already ASCII |
| CorePlatform.LegacyUserAgent | src/ballistica/core/platform/core_platform.cc:560-612 | the user agent is pure ASCII |
| CorePlatform.UserAgentNamesStore | src/ballistica/core/platform/core_platform.cc:560-612 | with an ASCII engine version and locale, the user agent starts with the app name, version and subplatform tag and ends with the locale |
| CorePlatform.DeviceV1AccountID | src/ballistica/core/platform/core_platform.cc:693-701 | "S-" plus the uuid when headless, and "L-" plus the uuid otherwise |
| CorePlatform.AccountIdsAreDistinct | src/ballistica/core/platform/core_platform.cc:693-701 | different (headless, uuid) pairs give different account ids |
| CorePlatform.Broadcast | src/ballistica/core/platform/core_platform.cc:933-939 | the broadcast address agrees with the address on the network bits and has every host bit set |
| CorePlatform.BroadcastAddrs | src/ballistica/core/platform/core_platform.cc:916-948 | one address per IPv4 interface, skipping interfaces with no address or another family: the address at position "number of IPv4 interfaces before i" is interface i's broadcast, so the list follows interface order |
| CorePlatform.BroadcastAddrsAgree | src/ballistica/core/platform/core_platform.cc:916-948 | the list equals the broadcasts of the interfaces concatenated from the back, an independent definition of the same loop |
| BasePlatform.FilterPurchaseItem | src/ballistica/base/platform/base_platform.cc:210-223 | on Amazon builds exactly the six consumable ids gain "_c", and every other id (and every id elsewhere) passes unchanged |
| BasePlatform.FilterIsIdempotent | src/ballistica/base/platform/base_platform.cc:210-223 | filtering an already-filtered id changes nothing |
| BasePlatform.FilteredIdsRecoverItem | src/ballistica/base/platform/base_platform.cc:210-223 | distinct consumable ids stay distinct after filtering |
| BasePlatform.OpenURL | src/ballistica/base/platform/base_platform.cc:240-250 | VR mode routes the URL to the in-app viewer, and anything else routes it to the system |
| BasePlatform.GetCursorPosition | src/ballistica/base/platform/base_platform.cc:301-313 | (0, 0) without the input subsystem, and the input's cursor otherwise |
| BasePlatform.GetPublicDeviceUUID | src/ballistica/base/platform/base_platform.cc:180-208 | a cached non-empty value is returned without hashing; otherwise the hash of the inputs, the OS version and the shuffle string is computed and cached |
| BasePlatform.UuidIsStableOnceComputed | src/ballistica/base/platform/base_platform.cc:180-208 | once computed, the value no longer changes even if the OS version does |
| SoundtrackBrowser.Listing | assets/src/ba_data/python/bastd/ui/soundtrack/browser.py:392-398 | the default comes first, followed by the stored names (as a multiset) sorted by their lower-cased form; names with the same lower-cased form keep the dict's order, as Python's stable sort does |
| SoundtrackBrowser.TiesKeepConfigOrder | assets/src/ba_data/python/bastd/ui/soundtrack/browser.py:396-398 | names that differ only in case (`Rock`, `rock`) are listed exactly in the dict's order |
| Strings.SortBy | assets/src/ba_data/python/bastd/ui/soundtrack/browser.py:396-397 | the result is ordered by key and is a permutation of the input, and the elements sharing any one key appear in their input order (a stable sort) |
| SoundtrackBrowser.LastRowNamed | assets/src/ba_data/python/bastd/ui/soundtrack/browser.py:401-414 | the row chosen for a name is its last occurrence, and there is none when the name is absent |
| SoundtrackBrowser.RefreshSelection | assets/src/ba_data/python/bastd/ui/soundtrack/browser.py:384-436 | a requested name selects its last row; otherwise the old index is kept exactly when it is still in range; with no old index the last row carrying the old name is selected; with nothing to keep nothing is selected |
| SoundtrackBrowser.EveryStoredSoundtrackIsListed | assets/src/ba_data/python/bastd/ui/soundtrack/browser.py:392-398 | every stored soundtrack has a row |
| SoundtrackBrowser.Select | assets/src/ba_data/python/bastd/ui/soundtrack/browser.py:313-328 | the selection is recorded; the config is committed only when the name differs from the current soundtrack and changing is allowed |
| SoundtrackBrowser.ReselectDoesNotCommit | assets/src/ba_data/python/bastd/ui/soundtrack/browser.py:321-324 | selecting the same name again commits nothing more |
| SoundtrackBrowser.EditOrDelete | assets/src/ba_data/python/bastd/ui/soundtrack/browser.py:246-265 | without pro nothing proceeds; with nothing selected nothing happens; the default is refused; any other selection proceeds |
| SoundtrackBrowser.DoDelete | assets/src/ba_data/python/bastd/ui/soundtrack/browser.py:233-244 | the selected name is removed, the selected index is clamped to the remaining count, and the config is committed |
| SoundtrackBrowser.DefaultIsNeverDeleted | assets/src/ba_data/python/bastd/ui/soundtrack/browser.py:256-260 | the default soundtrack can never be deleted or edited |
| SoundtrackBrowser.StripCopyNumber | assets/src/ba_data/python/bastd/ui/soundtrack/browser.py:295-297 | trailing digits and spaces are stripped; a name made only of them raises IndexError |
| SoundtrackBrowser.CandidatesDiffer | assets/src/ba_data/python/bastd/ui/soundtrack/browser.py:298-307 | different counters give different candidate names |
| SoundtrackBrowser.FirstFree | assets/src/ba_data/python/bastd/ui/soundtrack/browser.py:298-307 | the search stops at the first counter whose candidate is not already a name |
| SoundtrackBrowser.DuplicateName | assets/src/ba_data/python/bastd/ui/soundtrack/browser.py:298-307 | the chosen name is new, and it is the first candidate ("stem", then "stem 2", "stem 3", ...) not already taken |
| SoundtrackBrowser.FreshStemIsUsedAsIs | assets/src/ba_data/python/bastd/ui/soundtrack/browser.py:298-307 | an untaken stem is used without a number |
| SoundtrackBrowser.DuplicateStem | assets/src/ba_data/python/bastd/ui/soundtrack/browser.py:286-302 | a name without the copy word is wrapped in the copy template; a name with it has its copy number stripped (IndexError when nothing is left) and is re-wrapped only if the copy word went with the number |
| SoundtrackBrowser.DuplicateSoundtrack | assets/src/ba_data/python/bastd/ui/soundtrack/browser.py:267-311 | needs pro; with a selection it adds a new name holding a copy of the selected soundtrack (an empty one for the default), raising KeyError or IndexError as the source does |
| SoundtrackBrowser.DuplicateKeepsOriginals | assets/src/ba_data/python/bastd/ui/soundtrack/browser.py:267-311 | duplicating never changes or removes an existing soundtrack |
| SoundtrackBrowser.SaveState | assets/src/ba_data/python/bastd/ui/soundtrack/browser.py:472-491 | each selectable widget is saved under a name that restores it, except Back, whose name restores the scroll list |
| SoundtrackBrowser.RestoreState | assets/src/ba_data/python/bastd/ui/soundtrack/browser.py:493-511 | the Back button is never restored, and no saved state gives the scroll list |
| SoundtrackBrowser.SaveRestoreRoundTrip | assets/src/ba_data/python/bastd/ui/soundtrack/browser.py:472-511 | restoring a saved selection gives back the widget, except that Back comes back as the scroll list |
| AccountV2.CompleteInitialLogin | assets/src/ba_data/python/ba/_accountv2.py:368-371 | the initial-login flag becomes true, and the notice fires only on its first setting (also the path taken from the two other triggers) |
| AccountV2.OnPrimaryAccountChanged | assets/src/ba_data/python/ba/_accountv2.py:82-126 | no account changes nothing; an account without a workspace completes the initial login; a workspace load starts (and is marked started) only before initial login completes and only once; otherwise the account is only told it waits for the next launch, and nothing else changes |
| AccountV2.RecordImplicitState | assets/src/ba_data/python/ba/_accountv2.py:169-235 | an unknown adapter with a login raises KeyError; otherwise the stored state is the hash of the login id (or none) and the changed flag is set exactly when it differs from before |
| AccountV2.UpdateAutoSignIn | assets/src/ba_data/python/ba/_accountv2.py:248-319 | a pending change with no adapter signs out; with an adapter it signs in, but only when connected; auto sign-in happens at most once and only when connected, signed out everywhere and an adapter exists |
| AccountV2.OnImplicitLoginStateChanged | assets/src/ba_data/python/ba/_accountv2.py:169-238 | records the state, then runs the auto-sign-in update |
| AccountV2.RepeatedStateIsNoChange | assets/src/ba_data/python/ba/_accountv2.py:189-235 | reporting the same login state twice raises no change the second time |
| AccountV2.OnImplicitSignInCompleted | assets/src/ba_data/python/ba/_accountv2.py:344-366 | credentials are applied exactly when the sign-in succeeded and the app is still connected and signed out; a failure is ignored |
| AccountV2.OnExplicitSignInCompleted | assets/src/ba_data/python/ba/_accountv2.py:321-342 | a failure shows an error, and a success applies the credentials it carries |
| AccountV2.ExplicitSignInTakesPrecedence | assets/src/ba_data/python/ba/_accountv2.py:321-366 | both completions store the same credentials for a success, but only an explicit one always does: once credentials are set, a late implicit result is dropped |
| AccountV2.UpdateKeepsValid | assets/src/ba_data/python/ba/_accountv2.py:248-319 | the auto-sign-in update keeps the once-only bookkeeping consistent |
| AccountV2.StepKeepsValid | assets/src/ba_data/python/ba/_accountv2.py:82-371 | every event keeps the once-only bookkeeping consistent |
| AccountV2.OnceOnlyActions | assets/src/ba_data/python/ba/_accountv2.py:82-371 | over any run of events the initial-login notice fires at most once, at most one workspace load starts, and at most one automatic sign-in happens |
| AccountV2.WorkspacelessAccountCompletesLogin | assets/src/ba_data/python/ba/_accountv2.py:121-126 | signing in to an account without a workspace leaves the initial login completed with its notice fired exactly once, and starts no workspace load |
| AccountV2.StepAfterLogin | assets/src/ba_data/python/ba/_accountv2.py:97-126 | after the initial login has completed, no event undoes it, fires the notice again or starts a workspace load |
| AccountV2.NoWorkspaceLoadAfterLogin | assets/src/ba_data/python/ba/_accountv2.py:97-126 | over any run of events after the initial login, no workspace load starts and the notice does not fire again |
| AccountV2.InitialIsValid | assets/src/ba_data/python/ba/_accountv2.py:32-52 | a fresh subsystem satisfies the once-only bookkeeping |
| PCommands2.InitName | tools/batools/pcommands2.py:34-37 | "DoPyInit__baplus" for `_baplus` and "PyInit_" + name otherwise |
| PCommands2.InitNamesDiffer | tools/batools/pcommands2.py:34-37 | different modules get different init names |
| PCommands2.SortedModules | tools/batools/pcommands2.py:32 | the module names sorted, each one kept |
| PCommands2.GenMonolithicRegisterModules | tools/batools/pcommands2.py:13-120 | fails with "Expected 1 arg." exactly when the argument count is not 3; otherwise the header starts with the license and guard lines and ends with the namespace and guard close |
| PCommands2.GeneratedEndsWithOneNewline | tools/batools/pcommands2.py:107-116 | the generated text ends with exactly one newline |
| PCommands2.ForwarderIffBaplus | tools/batools/pcommands2.py:47-70 | the `PyInit__baplus` forwarding block is present exactly when `_baplus` is among the modules |
| PCommands2.EveryModuleIsRegistered | tools/batools/pcommands2.py:39-45 | every module gets an extern declaration and a registration line |
| PCommands2.ParseWslArgsFrom | tools/batools/pcommands2.py:500-532 | the flags are recognised anywhere, and anything else is the path; a second path or no path is an error |
| PCommands2.ParseWslArgs | tools/batools/pcommands2.py:495-532 | no arguments is an error; otherwise the flags are exactly the ones given |
| PCommands2.ParseFindsTheOnePath | tools/batools/pcommands2.py:500-532 | parsing succeeds exactly when one non-flag argument is given, and that argument is the path |
| PCommands2.EscapeByCharacter | tools/batools/pcommands2.py:539-541 | escaping doubles each backslash and keeps every other character |
| PCommands2.UnescapeEscape | tools/batools/pcommands2.py:539-541 | escaping loses nothing: it can be undone |
| PCommands2.EscapeKeepsTrailingBackslash | tools/batools/pcommands2.py:534-542 | an output ending in a backslash still ends in one after escaping |
| PCommands2.WslPathToWin | tools/batools/pcommands2.py:491-542 | a bad command line prints the error marker; so do a failing `--create`, a missing path without `--create` and a failing converter; otherwise the output is the converter's stripped output with a backslash appended exactly when the path ends in '/' and the output lacks one, and with `--escape` it is that value with every backslash doubled (an escaped string that reads back to it through `Unescape`); a path ending in '/' gives an output ending in '\' |
| PCommands2.WslOutcomeUnique | tools/batools/pcommands2.py:522-542 | the stated outcome leaves no choice: for given arguments and environment at most one output meets it, with or without `--escape` |
| PCommands2.UpdateCmakePrefabLib | tools/batools/pcommands2.py:258-301 | needs exactly 3 arguments, a buildtype in {standard, server} and a mode in {debug, release}; the library is copied when it is missing or older than the built one, to a path under the mode |
| PCommands2.ArchiveUnstrippedLibs | tools/batools/pcommands2.py:313-321 | a command line without exactly two arguments fails with "Expected 2 args; src-dir and dst-dir", a missing source directory fails with "Source dir not found: '<src>'", and otherwise the archived names are those of the built ABIs in table order |
| PCommands2.ArchivedLibs | tools/batools/pcommands2.py:304-339 | the list holds exactly the `libmain_<abishort>.so` names of the built ABIs: every built ABI is listed, every listed name belongs to a built ABI, and the names follow the ABI table's order without repeats |
| PCommands2.ArchivedFrom | tools/batools/pcommands2.py:324-331 | from a given table position on, the loop lists exactly the archives of the built ABIs, in table order without repeats |
| PCommands2.ArchivedStep | tools/batools/pcommands2.py:324-331 | one loop iteration, putting the current ABI's archive (if built) before the later ones, keeps the list in table order and made of built ABIs only |
| PCommands2.PrefabTargetsDistinct | tools/batools/pcommands2.py:273-282 | two accepted command lines for one platform that differ in build type or mode never target the same library file |
| PCommands2.PrefabCopySettles | tools/batools/pcommands2.py:291-301 | once the library is copied (the copy being at least as new as the build), the next run for the same build finds nothing to copy and names the same target |
| PCommands2.SeparatorAddedUnique | tools/batools/pcommands2.py:534-538 | the trailing-separator rule leaves exactly one possible output for a given path and converter output |
| PCommands2.ArchiveNamesDistinct | tools/batools/pcommands2.py:324-331 | different ABIs get different archive names |

## Left out

- Threads, mutexes, condition variables and the GIL are not modelled. That
  covers thread start-up, synchronous-call handshakes and the spin-wait in
  `GetRenderFrameDef`. Each event loop is modelled one cycle at a time, and
  a blocking wait is an explicit outcome.
- Rendering, GL and SDL calls, and overlay layout are left out. So are
  `DrawRadialMeter`, camera matrices, gyro smoothing and the progress bar.
  They are drawing, not bookkeeping.
- I/O is left out:
  - the uuid and cvar files, `mkdir`, `getifaddrs` and environment reads;
  - subprocesses and file copies in the build tools;
  - config commits, which are only counted.
- Python calls, app-mode delegates, assets, audio, text metrics and `Lstr`
  evaluation are left out. md5, `BreakUpString` and `UTF8FromUnicode` become
  parameters or inputs.
- Floats are reals. The source's `1 - 0.95f` smoothing weight is the exact
  0.05, and no property claims IEEE equality.
- Strings are sequences of code points. `isdigit` and `lower` are the ASCII
  versions, and the valid-UTF-8 cleaning in `AddScreenMessage` is left out.
- Constants that are not defined in the source shown become parameters:
  - `kTVBorder` and `kBaseVirtualResX`/`kBaseVirtualResY`;
  - `kThreadMessageSafetyThreshold`;
  - the renderer's automatic quality choices.
- `Input.UpdateInputDeviceCounts` is left out: its controller flags and
  achievement pushes go to Python. `ProcessStressTesting` and the stress-test
  CSV are left out because they rely on `rand()` and file output.
- Mouse, joystick and text input beyond the held-key set and the single
  touch are left out, because they forward to unseen widgets and devices.
- AppAdapter.WaitForPause: the 1 ms sleep-and-poll loop becomes a sequence of
  (time, still-pausing count) observations.
- Input.UnlockAllInput: it logs the corrected line `UnlockEntry`, with the
  label and time for both kinds of unlock. The line as written logs a bare
  "permanent unlock: " for a permanent unlock (see Findings). That line is
  `UnlockEntryAsWritten`, and no state transition uses it.
- UI.GetWidgetForInput: whether a device is still connected is the `live`
  set, a parameter. Device removal itself belongs to the input layer.
- EventLoop.PushThreadMessage: the source keeps its "logged the overflow" flag
  in a function-local static, shared by all loops. The model keeps it per
  loop.
- AppAdapterSDL.AfterSwap: the "too slow" log message and the timing warning
  in `DoSwap_` are left out.
- AppAdapterSDL.UpdateAutoVSync: one build is fixed, and mac vs. non-mac is a
  parameter. The other `#if` branches across the core are not modelled.
- GraphicsServer.CalcVirtualRes, GraphicsMath.PixelToVirtual and
  AppAdapterSDL.NormalizeMouse require positive resolutions, because the
  source divides by them.
- SoundtrackBrowser.Listing: the soundtracks dict's iteration order is an
  input sequence. Sorting compares names lower-cased on ASCII letters only, and
  it is stable like Python's sort, so names with equal lower-cased forms keep
  that order.
  The case where the browser's own dict is not the config's dict is left out.
- PCommands2.GenMonolithicRegisterModules: the `textwrap.dedent` and `strip`
  result of the header template is written out as constant text. The
  featureset discovery is an input list of module names.
- PCommands2.WslPathToWin: `os.makedirs`, the existence check and the
  `wslpath` subprocess are parameters. The logged traceback is left out.
- PCommands2.ArchiveUnstrippedLibs: removing and re-creating the destination
  directory and copying the libraries are file system effects and are left
  out; the model lists the names copied. A failing `rm` or `cp` subprocess
  is not modelled.
- CorePlatform.ClipboardGetText: the SDL clipboard is an input, `None` when
  `SDL_GetClipboardText` returns null.
- AccountV2: login adapters, cloud calls and the Game Center flow are
  parameters or left out. The login-id hash is a parameter.
- CorePlatform.LegacyUserAgent: the build number, OS version, device name and
  TV flag are inputs.
- BasePlatform.GetPublicDeviceUUID: md5 is the `hash` parameter, and the
  inputs it hashes are a given sequence.
- Files not modelled:
  - `network_writer.cc` (written against a `Thread` API that is not part of
    this model);
  - `material_context.cc` (reference-count effects on an unseen dynamics
    object);
  - `ui_v1_python.cc` (Python bindings);
  - `app_adapter_vr.cc` and `app_adapter_headless.*` (plumbing);
  - the declaration-only headers, whose enums and constants are used as data.

## Findings

| source | as written | input that shows it | evidently intended | confidence | as-written member | corrected member |
|---|---|---|---|---|---|---|
| src/ballistica/base/input/input.cc:686-689 | `permanent ? "permanent unlock: " : "temp unlock: " + label + " time " + now` (the conditional binds looser than `+`) | a permanent unlock labelled "menu" at time 5 logs just "permanent unlock: " | both kinds of unlock log their label and time, as `LockAllInput` does for locks | high, not executed | Input.UnlockEntryAsWrittenDropsLabel | Input.UnlockEntryNamesLabel |
| src/ballistica/base/graphics/graphics.cc:1669-1736 | asserts only `verts.size() < 65536`, then stores `count + 1 .. count + 3` in `uint16_t` indices | 65533 vertices already queued: the fifth new index wraps to 0 | the guard leaves room for all four new vertices (`size() + 4 <= 65536`) | medium, not executed | GraphicsMath.BlotchIndexWrapsAsWritten | GraphicsMath.BlotchTrianglesCoverQuad |

=== FILE: account_v2.dfy ===
/**
 * `AccountV2Subsystem`'s login state machine: once-only completion of the
 * initial login, the one-shot workspace load, the stored implicit-login
 * states and automatic sign-in. Cloud connectivity, the v1 account state,
 * credential storage and md5 are parameters; sign-in requests and
 * sign-outs are recorded rather than performed.
 */
module AccountV2 {
  import opened Wrappers

  /** A login back-end, named by its `LoginType` value. */
  type LoginType = string

  datatype SignInKind = ExplicitSignIn | ImplicitSignIn

  /** A sign-in asked of an adapter, with the completion callback it was given. */
  datatype SignInRequest = SignInRequest(adapter: LoginType, kind: SignInKind)

  /** What the rest of the app reports when the subsystem asks. */
  datatype Env = Env(connected: bool, signedInV1: bool, haveCredentials: bool)

  datatype Accounts = Accounts(
    adapters: set<LoginType>,
    initialLoginCompleted: bool,
    initialLoginNotices: nat,
    kickedOffWorkspaceLoad: bool,
    workspaceLoads: nat,
    deferredWorkspaceWarnings: nat,
    implicitAdapter: Option<LoginType>,
    implicitStateChanged: bool,
    canDoAutoSignIn: bool,
    implicitStates: map<LoginType, Option<string>>,
    signIns: seq<SignInRequest>,
    signOuts: nat)

  function Initial(adapters: set<LoginType>): Accounts {
    Accounts(adapters, false, 0, false, 0, 0, None, false, true, map[], [], 0)
  }

  // ---------------------------------------------------------- initial login

  /** The three places that finish the initial login: only the first one counts. */
  function CompleteInitialLogin(s: Accounts): (r: Accounts)
    ensures r.initialLoginCompleted
    ensures r.initialLoginNotices == s.initialLoginNotices + (if s.initialLoginCompleted then 0 else 1)
  {
    if s.initialLoginCompleted then s
    else s.(initialLoginCompleted := true, initialLoginNotices := s.initialLoginNotices + 1)
  }

  /** A primary account: `None` for signed out; otherwise its workspace id, if any. */
  datatype Primary = Primary(workspaceId: Option<string>)

  /**
   * `on_primary_account_changed`: a sign-out does nothing; an account with
   * a workspace starts the workspace load only before the initial login
   * completes and only once, and otherwise is told it waits for the next
   * launch; an account without one completes the initial login.
   */
  function OnPrimaryAccountChanged(s: Accounts, account: Option<Primary>): (r: Accounts)
    ensures account.None? ==> r == s
    ensures r.workspaceLoads == s.workspaceLoads + (if account.Some? && account.value.workspaceId.Some?
      && !s.initialLoginCompleted && !s.kickedOffWorkspaceLoad then 1 else 0)
    ensures r.signIns == s.signIns && r.canDoAutoSignIn == s.canDoAutoSignIn
    ensures account.Some? && account.value.workspaceId.None? ==> r == CompleteInitialLogin(s)
    ensures r.kickedOffWorkspaceLoad <==>
      (s.kickedOffWorkspaceLoad || (account.Some? && account.value.workspaceId.Some? && !s.initialLoginCompleted))
    ensures account.Some? && account.value.workspaceId.Some? && (s.initialLoginCompleted || s.kickedOffWorkspaceLoad) ==>
      r == s.(deferredWorkspaceWarnings := s.deferredWorkspaceWarnings + 1)
  {
    if account.None? then s
    else if account.value.workspaceId.Some? then
      if !s.initialLoginCompleted && !s.kickedOffWorkspaceLoad then
        s.(kickedOffWorkspaceLoad := true, workspaceLoads := s.workspaceLoads + 1)
      else s.(deferredWorkspaceWarnings := s.deferredWorkspaceWarnings + 1)
    else CompleteInitialLogin(s)
  }

  // -------------------------------------------------------- implicit logins

  /**
   * The first half of `on_implicit_login_state_changed`: record which
   * adapter is implicitly signed in and the hash of its login id, and flag
   * a change when the stored value differs from the previous one. A state
   * for an unknown login type raises `KeyError` before anything changes.
   */
  function RecordImplicitState(s: Accounts, loginType: LoginType, loginId: Option<string>,
                               hash: string -> string): (r: Result<Accounts>)
    ensures r.Failure? <==> loginId.Some? && loginType !in s.adapters
    ensures r.Success? ==>
      var prev := if loginType in s.implicitStates then s.implicitStates[loginType] else None;
      var stored := if loginId.Some? then Some(hash(loginId.value)) else None;
      r.value.implicitStates == s.implicitStates[loginType := stored]
      && r.value.implicitAdapter == (if loginId.Some? then Some(loginType) else None)
      && (r.value.implicitStateChanged <==> s.implicitStateChanged || prev != stored)
  {
    if loginId.Some? && loginType !in s.adapters then Failure("KeyError")
    else
      var prev := if loginType in s.implicitStates then s.implicitStates[loginType] else None;
      var stored := if loginId.Some? then Some(hash(loginId.value)) else None;
      var s1 := s.(implicitAdapter := if loginId.Some? then Some(loginType) else None,
                   implicitStates := s.implicitStates[loginType := stored]);
      Success(if prev != stored then s1.(implicitStateChanged := true) else s1)
  }

  /**
   * `_update_auto_sign_in`: first answer a pending implicit change (sign
   * out at once when no adapter is signed in, or sign in explicitly when
   * connected), then try the one automatic sign-in.
   */
  function UpdateAutoSignIn(s: Accounts, env: Env): (r: Accounts)
    ensures s.implicitStateChanged && s.implicitAdapter.None? ==>
      r.signOuts == s.signOuts + 1 && !r.implicitStateChanged && !r.canDoAutoSignIn && r.signIns == s.signIns
    ensures s.implicitStateChanged && s.implicitAdapter.Some? && env.connected ==>
      r.signIns == s.signIns + [SignInRequest(s.implicitAdapter.value, ExplicitSignIn)]
      && !r.implicitStateChanged && !r.canDoAutoSignIn && r.signOuts == s.signOuts
    ensures !(s.implicitStateChanged && (s.implicitAdapter.None? || env.connected)) ==>
      r.signOuts == s.signOuts && r.implicitStateChanged == s.implicitStateChanged
      && (s.canDoAutoSignIn && env.connected && !env.signedInV1 && !env.haveCredentials && s.implicitAdapter.Some? ==>
            r.signIns == s.signIns + [SignInRequest(s.implicitAdapter.value, ImplicitSignIn)] && !r.canDoAutoSignIn)
      && (!(s.canDoAutoSignIn && env.connected && !env.signedInV1 && !env.haveCredentials && s.implicitAdapter.Some?) ==>
            r.signIns == s.signIns && r.canDoAutoSignIn == s.canDoAutoSignIn)
    ensures r.initialLoginCompleted == s.initialLoginCompleted && r.initialLoginNotices == s.initialLoginNotices
    ensures r.adapters == s.adapters && r.implicitAdapter == s.implicitAdapter
  {
    var s1 :=
      if !s.implicitStateChanged then s
      else if s.implicitAdapter.None? then
        s.(signOuts := s.signOuts + 1, implicitStateChanged := false, canDoAutoSignIn := false)
      else if env.connected then
        s.(signIns := s.signIns + [SignInRequest(s.implicitAdapter.value, ExplicitSignIn)],
           implicitStateChanged := false, canDoAutoSignIn := false)
      else s;
    if !s1.canDoAutoSignIn then s1
    else if env.connected && !env.signedInV1 && !env.haveCredentials && s1.implicitAdapter.Some? then
      s1.(canDoAutoSignIn := false, signIns := s1.signIns + [SignInRequest(s1.implicitAdapter.value, ImplicitSignIn)])
    else s1
  }

  /** `on_implicit_login_state_changed`: record the state, then consider signing in or out. */
  function OnImplicitLoginStateChanged(s: Accounts, loginType: LoginType, loginId: Option<string>,
                                       hash: string -> string, env: Env): (r: Result<Accounts>)
    ensures r.Failure? <==> RecordImplicitState(s, loginType, loginId, hash).Failure?
    ensures r.Success? ==> r.value == UpdateAutoSignIn(RecordImplicitState(s, loginType, loginId, hash).value, env)
  {
    match RecordImplicitState(s, loginType, loginId, hash)
    case Failure(e) => Failure(e)
    case Success(s1) => Success(UpdateAutoSignIn(s1, env))
  }

  /** Reporting the same implicit login twice flags no change the second time. */
  lemma RepeatedStateIsNoChange(s: Accounts, loginType: LoginType, loginId: Option<string>, hash: string -> string)
    requires RecordImplicitState(s, loginType, loginId, hash).Success?
    ensures var s1 := RecordImplicitState(s, loginType, loginId, hash).value.(implicitStateChanged := false);
      var s2 := RecordImplicitState(s1, loginType, loginId, hash);
      s2.Success? && !s2.value.implicitStateChanged
  {
  }

  // ------------------------------------------------------ sign-in results

  /**
   * `_on_implicit_sign_in_completed`: errors are ignored, and the
   * credentials are stored only if the app is still connected and still
   * signed out. `None` stands for an exception.
   */
  function OnImplicitSignInCompleted(result: Option<string>, env: Env): (r: Option<string>)
    ensures r.Some? <==> result.Some? && env.connected && !env.signedInV1 && !env.haveCredentials
    ensures r.Some? ==> r == result
  {
    if result.Some? && env.connected && !env.signedInV1 && !env.haveCredentials then result else None
  }

  datatype ExplicitOutcome = ShowError | SetCredentials(credentials: string)

  /** `_on_explicit_sign_in_completed`: errors are shown; otherwise the credentials are stored unconditionally. */
  function OnExplicitSignInCompleted(result: Option<string>): (r: ExplicitOutcome)
    ensures r.ShowError? <==> result.None?
    ensures r.SetCredentials? ==> r.credentials == result.value
  {
    if result.None? then ShowError else SetCredentials(result.value)
  }

  /**
   * The two completions agree on what a successful result stores, but only
   * an explicit one overrides: once credentials are set (say by an explicit
   * sign-in), a late implicit result is dropped.
   */
  lemma ExplicitSignInTakesPrecedence(credentials: string, implicitResult: Option<string>, env: Env)
    ensures OnImplicitSignInCompleted(Some(credentials), env).Some? ==>
      OnExplicitSignInCompleted(Some(credentials)) == SetCredentials(OnImplicitSignInCompleted(Some(credentials), env).value)
    ensures OnExplicitSignInCompleted(Some(credentials)).SetCredentials?
    ensures OnImplicitSignInCompleted(implicitResult, env.(haveCredentials := true)).None?
  {
  }

  // ------------------------------------------------------------ sequences

  /** The callbacks the subsystem receives. */
  datatype Event =
    | PrimaryAccountChanged(account: Option<Primary>)
    | NoInitialPrimaryAccount
    | SetActiveWorkspaceCompleted
    | ImplicitLoginStateChanged(loginType: LoginType, loginId: Option<string>)
    | CloudConnectivityChanged

  /** One callback; an exception leaves the state as it was. */
  function Step(s: Accounts, e: Event, env: Env, hash: string -> string): Accounts {
    match e
    case PrimaryAccountChanged(a) => OnPrimaryAccountChanged(s, a)
    case NoInitialPrimaryAccount => CompleteInitialLogin(s)
    case SetActiveWorkspaceCompleted => CompleteInitialLogin(s)
    case ImplicitLoginStateChanged(t, id) =>
      (match OnImplicitLoginStateChanged(s, t, id, hash, env)
       case Success(s1) => s1
       case Failure(_) => s)
    case CloudConnectivityChanged => UpdateAutoSignIn(s, env)
  }

  function Run(s: Accounts, events: seq<Event>, envs: seq<Env>, hash: string -> string): Accounts
    requires |envs| == |events|
    decreases |events|
  {
    if events == [] then s else Run(Step(s, events[0], envs[0], hash), events[1..], envs[1..], hash)
  }

  function CountImplicit(reqs: seq<SignInRequest>): nat
    decreases |reqs|
  {
    if reqs == [] then 0
    else CountImplicit(reqs[..|reqs| - 1]) + (if reqs[|reqs| - 1].kind == ImplicitSignIn then 1 else 0)
  }

  /** The facts every reachable state keeps. */
  predicate Valid(s: Accounts) {
    s.initialLoginNotices == (if s.initialLoginCompleted then 1 else 0)
    && s.workspaceLoads == (if s.kickedOffWorkspaceLoad then 1 else 0)
    && CountImplicit(s.signIns) <= 1
    && (s.canDoAutoSignIn ==> CountImplicit(s.signIns) == 0)
  }

  lemma CountImplicitAppend(reqs: seq<SignInRequest>, x: SignInRequest)
    ensures CountImplicit(reqs + [x]) == CountImplicit(reqs) + (if x.kind == ImplicitSignIn then 1 else 0)
  {
    assert (reqs + [x])[..|reqs|] == reqs;
  }

  lemma UpdateKeepsValid(s: Accounts, env: Env)
    requires Valid(s)
    ensures Valid(UpdateAutoSignIn(s, env))
  {
    var s1 :=
      if !s.implicitStateChanged then s
      else if s.implicitAdapter.None? then
        s.(signOuts := s.signOuts + 1, implicitStateChanged := false, canDoAutoSignIn := false)
      else if env.connected then
        s.(signIns := s.signIns + [SignInRequest(s.implicitAdapter.value, ExplicitSignIn)],
           implicitStateChanged := false, canDoAutoSignIn := false)
      else s;
    if s.implicitStateChanged && s.implicitAdapter.Some? && env.connected {
      CountImplicitAppend(s.signIns, SignInRequest(s.implicitAdapter.value, ExplicitSignIn));
    }
    assert Valid(s1);
    if s1.canDoAutoSignIn && s1.implicitAdapter.Some? {
      CountImplicitAppend(s1.signIns, SignInRequest(s1.implicitAdapter.value, ImplicitSignIn));
    }
  }

  lemma StepKeepsValid(s: Accounts, e: Event, env: Env, hash: string -> string)
    requires Valid(s)
    ensures Valid(Step(s, e, env, hash))
  {
    match e {
      case PrimaryAccountChanged(a) => PrimaryChangeKeepsValid(s, a);
      case NoInitialPrimaryAccount => CompleteKeepsValid(s);
      case SetActiveWorkspaceCompleted => CompleteKeepsValid(s);
      case ImplicitLoginStateChanged(t, id) => ImplicitChangeKeepsValid(s, t, id, hash, env);
      case CloudConnectivityChanged => UpdateKeepsValid(s, env);
    }
  }

  lemma CompleteKeepsValid(s: Accounts)
    requires Valid(s)
    ensures Valid(CompleteInitialLogin(s))
  {
  }

  lemma PrimaryChangeKeepsValid(s: Accounts, account: Option<Primary>)
    requires Valid(s)
    ensures Valid(OnPrimaryAccountChanged(s, account))
  {
    if account.Some? && account.value.workspaceId.None? {
      CompleteKeepsValid(s);
    }
  }

  lemma ImplicitChangeKeepsValid(s: Accounts, loginType: LoginType, loginId: Option<string>,
                                 hash: string -> string, env: Env)
    requires Valid(s)
    ensures var r := OnImplicitLoginStateChanged(s, loginType, loginId, hash, env);
      r.Success? ==> Valid(r.value)
  {
    var rec := RecordImplicitState(s, loginType, loginId, hash);
    if rec.Success? {
      assert Valid(rec.value);
      UpdateKeepsValid(rec.value, env);
    }
  }

  /**
   * Over any sequence of callbacks, the initial login is announced at most
   * once, the workspace load starts at most once, and automatic sign-in is
   * attempted at most once.
   */
  lemma {:induction false} OnceOnlyActions(s: Accounts, events: seq<Event>, envs: seq<Env>, hash: string -> string)
    requires Valid(s) && |envs| == |events|
    ensures var r := Run(s, events, envs, hash);
      Valid(r) && r.initialLoginNotices <= 1 && r.workspaceLoads <= 1 && CountImplicit(r.signIns) <= 1
    decreases |events|
  {
    if events != [] {
      StepKeepsValid(s, events[0], envs[0], hash);
      OnceOnlyActions(Step(s, events[0], envs[0], hash), events[1..], envs[1..], hash);
    }
  }

  /**
   * Signing in to an account without a workspace completes the initial
   * login, firing the notice unless it had fired already.
   */
  lemma WorkspacelessAccountCompletesLogin(s: Accounts, env: Env, hash: string -> string)
    requires Valid(s)
    ensures var r := Step(s, PrimaryAccountChanged(Some(Primary(None))), env, hash);
      r.initialLoginCompleted && r.initialLoginNotices == 1 && r.workspaceLoads == s.workspaceLoads
  {
  }

  /** No event undoes a completed initial login, fires its notice again or starts a workspace load. */
  lemma StepAfterLogin(s: Accounts, e: Event, env: Env, hash: string -> string)
    requires s.initialLoginCompleted
    ensures var r := Step(s, e, env, hash);
      r.initialLoginCompleted && r.initialLoginNotices == s.initialLoginNotices && r.workspaceLoads == s.workspaceLoads
  {
    if e.ImplicitLoginStateChanged? {
      var rec := RecordImplicitState(s, e.loginType, e.loginId, hash);
      if rec.Success? {
        assert rec.value.initialLoginCompleted && rec.value.workspaceLoads == s.workspaceLoads
          && rec.value.initialLoginNotices == s.initialLoginNotices;
      }
    }
  }

  /**
   * Once the initial login has completed, an account with a workspace is only
   * told it waits for the next launch: over any later run of events no
   * workspace load starts and the notice does not fire again.
   */
  lemma {:induction false} NoWorkspaceLoadAfterLogin(s: Accounts, events: seq<Event>, envs: seq<Env>,
                                                     hash: string -> string)
    requires s.initialLoginCompleted && |envs| == |events|
    ensures var r := Run(s, events, envs, hash);
      r.initialLoginCompleted && r.initialLoginNotices == s.initialLoginNotices && r.workspaceLoads == s.workspaceLoads
    decreases |events|
  {
    if events != [] {
      StepAfterLogin(s, events[0], envs[0], hash);
      NoWorkspaceLoadAfterLogin(Step(s, events[0], envs[0], hash), events[1..], envs[1..], hash);
    }
  }

  lemma InitialIsValid(adapters: set<LoginType>)
    ensures Valid(Initial(adapters))
  {
  }
}

=== FILE: app_adapter.dfy ===
/**
 * `AppAdapter`'s pause/resume bookkeeping and its frame-draw gate. The
 * event loops, networking and UI it notifies are reduced to counters and
 * flags; the clock and what the UI shows are parameters.
 */
module AppAdapter {

  datatype Adapter = Adapter(
    pauseRequested: bool,
    paused: bool,
    loopsPaused: bool,
    pauseHookRuns: nat,
    resumeHookRuns: nat,
    lastResumeTime: int,
    shouldPause: bool,
    menuPresses: nat,
    lastResizeDrawTime: int)

  const ResizeSuppressMillisecs := 1000 / 30

  /** `OnAppPause_`: every event loop is paused (networking is told too). */
  function OnAppPause(a: Adapter): (r: Adapter)
    ensures r == a.(loopsPaused := true, pauseHookRuns := a.pauseHookRuns + 1)
  {
    a.(loopsPaused := true, pauseHookRuns := a.pauseHookRuns + 1)
  }

  /**
   * `OnAppResume_` at app time `now`: the loops restart, and a pending
   * `should_pause` is consumed, pressing the menu if no main menu shows.
   */
  function OnAppResume(a: Adapter, now: int, menuVisible: bool): (r: Adapter)
    ensures !r.loopsPaused && r.lastResumeTime == now && r.resumeHookRuns == a.resumeHookRuns + 1
    ensures !r.shouldPause
    ensures r.menuPresses == a.menuPresses + (if a.shouldPause && !menuVisible then 1 else 0)
    ensures r.pauseRequested == a.pauseRequested && r.paused == a.paused && r.pauseHookRuns == a.pauseHookRuns
  {
    var b := a.(lastResumeTime := now, loopsPaused := false, resumeHookRuns := a.resumeHookRuns + 1);
    if b.shouldPause then
      b.(shouldPause := false, menuPresses := if menuVisible then b.menuPresses else b.menuPresses + 1)
    else b
  }

  /** `UpdatePauseResume_`: brings `paused` in line with the request, running a hook only on a real change. */
  function UpdatePauseResume(a: Adapter, now: int, menuVisible: bool): (r: Adapter)
    ensures r.paused == a.pauseRequested && r.pauseRequested == a.pauseRequested
    ensures a.paused == a.pauseRequested ==> r == a
    ensures !a.paused && a.pauseRequested ==> r == OnAppPause(a).(paused := true)
    ensures a.paused && !a.pauseRequested ==> r == OnAppResume(a, now, menuVisible).(paused := false)
  {
    if a.paused then
      if !a.pauseRequested then OnAppResume(a, now, menuVisible).(paused := false) else a
    else
      if a.pauseRequested then OnAppPause(a).(paused := true) else a
  }

  /** `PauseApp`'s state change: only legal while no pause is requested. */
  function PauseApp(a: Adapter, now: int, menuVisible: bool): (r: Adapter)
    requires !a.pauseRequested
    ensures r.pauseRequested && r.paused
    ensures r.pauseHookRuns == a.pauseHookRuns + (if a.paused then 0 else 1)
  {
    UpdatePauseResume(a.(pauseRequested := true), now, menuVisible)
  }

  /** `ResumeApp`'s state change: only legal while a pause is requested. */
  function ResumeApp(a: Adapter, now: int, menuVisible: bool): (r: Adapter)
    requires a.pauseRequested
    ensures !r.pauseRequested && !r.paused
    ensures r.resumeHookRuns == a.resumeHookRuns + (if a.paused then 1 else 0)
  {
    UpdatePauseResume(a.(pauseRequested := false), now, menuVisible)
  }

  /** A pause and resume from a settled state run exactly one hook each and restart the loops. */
  lemma PauseResumeRunsEachHookOnce(a: Adapter, t1: int, t2: int, menuVisible: bool)
    requires !a.pauseRequested && !a.paused
    ensures var b := ResumeApp(PauseApp(a, t1, menuVisible), t2, menuVisible);
      !b.paused && !b.loopsPaused
      && b.pauseHookRuns == a.pauseHookRuns + 1 && b.resumeHookRuns == a.resumeHookRuns + 1
  {
  }

  /** The menu is pressed on a resume at most once per `should_pause`. */
  lemma ShouldPauseIsConsumed(a: Adapter, t1: int, t2: int)
    ensures var b := OnAppResume(a, t1, false);
      OnAppResume(b, t2, false).menuPresses == b.menuPresses
  {
  }

  // ---------------------------------------------------- waiting for loops

  datatype PauseWait = Completed | TimedOut(stillPausing: nat)

  const MaxPauseMillisecs := 2000

  function Abs(x: int): nat { if x < 0 then -x else x }

  /** A look at the clock and the count that ends `PauseApp`'s wait: time up, or nothing still pausing. */
  predicate Stops(start: int, poll: (int, nat)) {
    Abs(poll.0 - start) >= MaxPauseMillisecs || poll.1 == 0
  }

  /** The looks the environment supplies end with one that stops the wait. */
  predicate EndsWait(start: int, polls: seq<(int, nat)>) {
    |polls| > 0 && Stops(start, polls[|polls| - 1])
  }

  /** The first look, from `i` on, that stops the wait. */
  function FirstStop(start: int, polls: seq<(int, nat)>, i: nat): (k: nat)
    requires i < |polls| && EndsWait(start, polls)
    ensures i <= k < |polls| && Stops(start, polls[k])
    ensures forall j | i <= j < k :: !Stops(start, polls[j])
    decreases |polls| - i
  {
    if Stops(start, polls[i]) then i else FirstStop(start, polls, i + 1)
  }

  /**
   * `PauseApp`'s wait from look `i` on, given the clock and the count of
   * event loops still pausing at each look: done as soon as none are,
   * timing out (and reporting the count last seen) once 2000 ms have passed.
   */
  function WaitForPause(start: int, polls: seq<(int, nat)>, i: nat, lastCount: nat): (r: PauseWait)
    requires i < |polls| && EndsWait(start, polls)
    ensures r.Completed? ==>
      exists k | i <= k < |polls| :: polls[k].1 == 0 && Abs(polls[k].0 - start) < MaxPauseMillisecs
    ensures r.TimedOut? ==> exists k | i <= k < |polls| :: Abs(polls[k].0 - start) >= MaxPauseMillisecs
    decreases |polls| - i
  {
    var (t, n) := polls[i];
    if Abs(t - start) >= MaxPauseMillisecs then TimedOut(lastCount)
    else if n == 0 then Completed
    else WaitForPause(start, polls, i + 1, n)
  }

  /**
   * The wait completes exactly when the first stopping look is within the
   * 2000 ms; otherwise the error reports the count seen just before it.
   */
  lemma {:induction false} WaitEndsAtFirstStop(start: int, polls: seq<(int, nat)>, i: nat, lastCount: nat)
    requires i < |polls| && EndsWait(start, polls)
    ensures var k := FirstStop(start, polls, i);
      WaitForPause(start, polls, i, lastCount)
      == if Abs(polls[k].0 - start) < MaxPauseMillisecs then Completed
         else TimedOut(if k == i then lastCount else polls[k - 1].1)
    decreases |polls| - i
  {
    if !Stops(start, polls[i]) {
      WaitEndsAtFirstStop(start, polls, i + 1, polls[i].1);
    }
  }

  // ------------------------------------------------------------- drawing

  /**
   * `DrawFrame` at app time `now`: nothing without a renderer; a resize
   * draw records its time; an ordinary draw within 33 ms (1000/30) of the
   * last resize draw is skipped. Returns the adapter and whether it rendered.
   */
  function DrawFrame(a: Adapter, hasRenderer: bool, duringResize: bool, now: int): (r: (Adapter, bool))
    ensures !hasRenderer ==> r == (a, false)
    ensures hasRenderer && duringResize ==> r == (a.(lastResizeDrawTime := now), true)
    ensures hasRenderer && !duringResize ==> r.0 == a && (r.1 <==> now - a.lastResizeDrawTime >= ResizeSuppressMillisecs)
  {
    if !hasRenderer then (a, false)
    else if duringResize then (a.(lastResizeDrawTime := now), true)
    else if now - a.lastResizeDrawTime < ResizeSuppressMillisecs then (a, false)
    else (a, true)
  }

  /** After a resize draw, ordinary draws resume exactly 33 ms later. */
  lemma ResizeSuppressesDrawsFor33Millisecs(a: Adapter, t: int, d: int)
    requires d >= 0
    ensures var (b, _) := DrawFrame(a, true, true, t);
      DrawFrame(b, true, false, t + d).1 <==> d >= 33
  {
  }
}

=== FILE: app_adapter_sdl.dfy ===
/**
 * The SDL app adapter's frame-pacing logic (automatic v-sync with
 * hysteresis, the slow-frame counter), its joystick index map and its
 * mouse-coordinate normalisation. The GL context, SDL itself and the
 * background-dynamics thread are reduced to flags and counters; whether
 * the build is for macOS is a parameter.
 */
module AppAdapterSDL {
  import opened Wrappers

  // ------------------------------------------------------------ v-sync

  /** A frame rate as a float sees it: `1000 / 0` is infinite. */
  datatype Fps = Finite(value: real) | Infinite

  predicate Above(f: Fps, x: real) {
    f.Infinite? || f.value > x
  }

  datatype VSync = VSync(auto: bool, enabled: bool, averageFps: Fps, goodFrames: nat, badFrames: nat)

  const InitialVSync := VSync(false, true, Finite(60.0), 0, 0)

  const BadFrameMillisecs := 1000 / 40
  const GoodFrameMillisecs := 1000 / 50
  const BadFramesToDisable := 10
  const GoodFramesToEnable := 60

  /** The smoothed frame rate after a frame of `diff` ms (weights 0.95 and 0.05). */
  function Smooth(avg: Fps, diff: int): (r: Fps)
    ensures diff == 0 ==> r == Infinite
    ensures avg.Infinite? ==> r == Infinite
    ensures avg.Finite? && diff > 0 && 0.0 <= avg.value <= 1000.0 ==> r.Finite? && 0.0 <= r.value <= 1000.0
  {
    if diff == 0 || avg.Infinite? then Infinite
    else Finite(0.95 * avg.value + 0.05 * (1000.0 / diff as real))
  }

  /** `UpdateAutoVSync_` after a frame of `diff` ms. */
  function UpdateAutoVSync(v: VSync, diff: int, macOS: bool): (r: VSync)
    ensures r.auto == v.auto
    ensures v.enabled && macOS ==> !r.enabled && r.goodFrames == 0
    ensures v.enabled && !macOS ==>
      r.averageFps == Smooth(v.averageFps, diff)
      && r.badFrames == (if diff >= BadFrameMillisecs && Above(r.averageFps, 55.0) then v.badFrames + 1 else 0)
      && (r.enabled <==> r.badFrames < BadFramesToDisable)
      && r.goodFrames == (if r.enabled then v.goodFrames else 0)
    ensures !v.enabled && macOS ==> r == v
    ensures !v.enabled && !macOS ==>
      r.averageFps == v.averageFps
      && r.goodFrames == (if diff <= GoodFrameMillisecs then v.goodFrames + 1 else 0)
      && (r.enabled <==> r.goodFrames >= GoodFramesToEnable)
      && r.badFrames == (if r.enabled then 0 else v.badFrames)
  {
    if v.enabled then
      if macOS then v.(enabled := false, goodFrames := 0)
      else
        var avg := Smooth(v.averageFps, diff);
        var bad := if diff >= BadFrameMillisecs && Above(avg, 55.0) then v.badFrames + 1 else 0;
        if bad >= BadFramesToDisable then v.(averageFps := avg, badFrames := bad, enabled := false, goodFrames := 0)
        else v.(averageFps := avg, badFrames := bad)
    else if macOS then v
    else
      var good := if diff <= GoodFrameMillisecs then v.goodFrames + 1 else 0;
      if good >= GoodFramesToEnable then v.(goodFrames := good, enabled := true, badFrames := 0)
      else v.(goodFrames := good)
  }

  /** `SetAutoVSync`: turning auto on starts with v-sync on; turning it off leaves v-sync alone. */
  function SetAutoVSync(v: VSync, enable: bool): (r: VSync)
    ensures r.auto == enable
    ensures enable ==> r.enabled
    ensures !enable ==> r.enabled == v.enabled
    ensures r.goodFrames == v.goodFrames && r.badFrames == v.badFrames && r.averageFps == v.averageFps
  {
    if enable then v.(auto := true, enabled := true) else v.(auto := false)
  }

  /** The v-sync state after a run of frames. */
  function RunVSync(v: VSync, diffs: seq<int>, macOS: bool): VSync
    decreases |diffs|
  {
    if diffs == [] then v else RunVSync(UpdateAutoVSync(v, diffs[0], macOS), diffs[1..], macOS)
  }

  /**
   * Hysteresis, one way: with v-sync on, it cannot turn off before the
   * bad-frame count reaches 10, however bad the frames.
   */
  lemma {:induction false} VSyncOffNeedsTenBadFrames(v: VSync, diffs: seq<int>)
    requires v.enabled && v.badFrames + |diffs| < BadFramesToDisable
    ensures RunVSync(v, diffs, false).enabled
    decreases |diffs|
  {
    if diffs != [] {
      var w := UpdateAutoVSync(v, diffs[0], false);
      assert RunVSync(v, diffs, false) == RunVSync(w, diffs[1..], false);
      VSyncOffNeedsTenBadFrames(w, diffs[1..]);
    }
  }

  /**
   * Hysteresis, the other way: with v-sync off, it stays off for fewer than
   * 60 frames and comes back on after exactly enough consecutive fast ones.
   */
  lemma {:induction false} FastFramesReenableVSync(v: VSync, diffs: seq<int>)
    requires !v.enabled && v.goodFrames < GoodFramesToEnable && v.goodFrames + |diffs| == GoodFramesToEnable
    requires forall i | 0 <= i < |diffs| :: diffs[i] <= GoodFrameMillisecs
    ensures RunVSync(v, diffs, false).enabled
    ensures forall k | 0 <= k < |diffs| :: !RunVSync(v, diffs[..k], false).enabled
    decreases |diffs|
  {
    if diffs != [] {
      var w := UpdateAutoVSync(v, diffs[0], false);
      assert RunVSync(v, diffs, false) == RunVSync(w, diffs[1..], false);
      if |diffs| == 1 {
        assert w.goodFrames == GoodFramesToEnable;
        assert diffs[1..] == [];
        assert diffs[..0] == [];
      } else {
        assert !w.enabled;
        FastFramesReenableVSync(w, diffs[1..]);
        forall k | 0 <= k < |diffs| ensures !RunVSync(v, diffs[..k], false).enabled {
          if k > 0 {
            assert diffs[..k][1..] == diffs[1..][..k - 1];
          }
        }
      }
    }
  }

  /**
   * Turning auto on starts from v-sync on, so off the mac it survives any
   * run of frames too short to collect ten bad ones; setting the same mode
   * twice is setting it once.
   */
  lemma EnablingAutoStartsOn(v: VSync, diffs: seq<int>, enable: bool)
    ensures SetAutoVSync(SetAutoVSync(v, enable), enable) == SetAutoVSync(v, enable)
    ensures v.badFrames + |diffs| < BadFramesToDisable ==> RunVSync(SetAutoVSync(v, true), diffs, false).enabled
  {
    if v.badFrames + |diffs| < BadFramesToDisable {
      VSyncOffNeedsTenBadFrames(SetAutoVSync(v, true), diffs);
    }
  }

  /** On macOS, once v-sync is off no run of frames turns it back on. */
  lemma {:induction false} MacVSyncStaysOff(v: VSync, diffs: seq<int>)
    requires !v.enabled
    ensures RunVSync(v, diffs, true) == v
    decreases |diffs|
  {
    if diffs != [] {
      MacVSyncStaysOff(UpdateAutoVSync(v, diffs[0], true), diffs[1..]);
    }
  }

  // -------------------------------------------------------- slow frames

  datatype Swap = Swap(lastSwapTime: int, tooSlowFrames: nat, tooSlowCalls: nat, vsync: VSync)

  const SlowFrameMillisecs := 1000 / 20
  const SlowFramesToAct := 10

  /**
   * The analysis `DoSwap_` does after a buffer swap at app time `now`: the
   * very first swap (or one following a swap at time 0) only records the time.
   */
  function AfterSwap(s: Swap, now: int, macOS: bool): (r: Swap)
    ensures r.lastSwapTime == now
    ensures s.lastSwapTime == 0 ==> r == s.(lastSwapTime := now)
    ensures s.lastSwapTime != 0 ==>
      var slow := if now - s.lastSwapTime >= SlowFrameMillisecs then s.tooSlowFrames + 1 else 0;
      r.tooSlowCalls == s.tooSlowCalls + (if slow > SlowFramesToAct then 1 else 0)
      && r.tooSlowFrames == (if slow > SlowFramesToAct then 0 else slow)
    ensures s.lastSwapTime != 0 ==>
      r.vsync == if s.vsync.auto then UpdateAutoVSync(s.vsync, now - s.lastSwapTime, macOS) else s.vsync
  {
    if s.lastSwapTime == 0 then s.(lastSwapTime := now)
    else
      var diff := now - s.lastSwapTime;
      var vs := if s.vsync.auto then UpdateAutoVSync(s.vsync, diff, macOS) else s.vsync;
      var slow := if diff >= SlowFrameMillisecs then s.tooSlowFrames + 1 else 0;
      if slow > SlowFramesToAct then Swap(now, 0, s.tooSlowCalls + 1, vs)
      else Swap(now, slow, s.tooSlowCalls, vs)
  }

  /**
   * The slow-frame counter stays within 0..10 between swaps, and a swap
   * sends a too-slow call only when it resets that counter.
   */
  lemma SlowFrameCountStaysBounded(s: Swap, now: int, macOS: bool)
    requires s.tooSlowFrames <= SlowFramesToAct
    ensures AfterSwap(s, now, macOS).tooSlowFrames <= SlowFramesToAct
    ensures AfterSwap(s, now, macOS).tooSlowCalls <= s.tooSlowCalls + 1
    ensures AfterSwap(s, now, macOS).tooSlowCalls != s.tooSlowCalls ==>
      s.lastSwapTime != 0 && AfterSwap(s, now, macOS).tooSlowFrames == 0
  {
  }

  /** Eleven slow frames in a row, from a zero count, make exactly one too-slow call. */
  lemma ElevenSlowFramesActOnce(s: Swap, macOS: bool)
    requires s.lastSwapTime > 0 && s.tooSlowFrames == 0
    ensures var r := RunSwaps(s, SlowFramesToAct + 1, SlowFrameMillisecs, macOS);
      r.tooSlowCalls == s.tooSlowCalls + 1 && r.tooSlowFrames == 0
  {
    SlowRunCounts(s, SlowFramesToAct + 1, macOS);
  }

  /** `n` swaps spaced `gap` ms apart. */
  function RunSwaps(s: Swap, n: nat, gap: int, macOS: bool): Swap
    decreases n
  {
    if n == 0 then s else RunSwaps(AfterSwap(s, s.lastSwapTime + gap, macOS), n - 1, gap, macOS)
  }

  lemma {:induction false} SlowRunCounts(s: Swap, n: nat, macOS: bool)
    requires s.lastSwapTime > 0 && s.tooSlowFrames <= SlowFramesToAct && s.tooSlowFrames + n <= SlowFramesToAct + 1
    ensures var r := RunSwaps(s, n, SlowFrameMillisecs, macOS);
      if s.tooSlowFrames + n <= SlowFramesToAct then
        r.tooSlowFrames == s.tooSlowFrames + n && r.tooSlowCalls == s.tooSlowCalls && r.lastSwapTime > 0
      else r.tooSlowFrames == 0 && r.tooSlowCalls == s.tooSlowCalls + 1
    decreases n
  {
    if n > 0 {
      var t := AfterSwap(s, s.lastSwapTime + SlowFrameMillisecs, macOS);
      assert RunSwaps(s, n, SlowFrameMillisecs, macOS) == RunSwaps(t, n - 1, SlowFrameMillisecs, macOS);
      if s.tooSlowFrames + 1 <= SlowFramesToAct {
        assert t.tooSlowFrames == s.tooSlowFrames + 1 && t.tooSlowCalls == s.tooSlowCalls && t.lastSwapTime > 0;
        SlowRunCounts(t, n - 1, macOS);
      } else {
        assert n == 1 && s.tooSlowFrames == SlowFramesToAct;
        assert RunSwaps(t, 0, SlowFrameMillisecs, macOS) == t;
      }
    }
  }

  // ---------------------------------------------------------- joysticks

  /** A joystick device: its identity and the id SDL gave it (negative when it has none). */
  datatype Joystick = Joystick(device: nat, sdlId: int)

  /** `AddSDLInputDevice_`: grow the map to cover `index`, filling with empty slots, and store the joystick. */
  function AddSDLInputDevice(m: seq<Option<Joystick>>, j: Joystick, index: nat): (r: seq<Option<Joystick>>)
    ensures |r| == if index < |m| then |m| else index + 1
    ensures r[index] == Some(j)
    ensures forall i | 0 <= i < |m| && i != index :: r[i] == m[i]
    ensures forall i | |m| <= i < |r| && i != index :: r[i] == None
  {
    var grown := if index < |m| then m else m + seq(index + 1 - |m|, _ => None);
    grown[index := Some(j)]
  }

  /** `GetSDLJoystickInput_(id)`: the first joystick whose SDL id is `id` and non-negative. */
  function FindJoystick(m: seq<Option<Joystick>>, sdlId: int): (r: Option<Joystick>)
    ensures r.Some? <==> exists i | 0 <= i < |m| :: m[i].Some? && m[i].value.sdlId >= 0 && m[i].value.sdlId == sdlId
    ensures r.Some? ==> r.value.sdlId == sdlId && Some(r.value) in m
    ensures r.Some? && |m| > 0 && m[0].Some? && m[0].value.sdlId == sdlId ==> r == m[0]
    decreases |m|
  {
    if m == [] then None
    else if m[0].Some? && m[0].value.sdlId >= 0 && m[0].value.sdlId == sdlId then m[0]
    else
      var r := FindJoystick(m[1..], sdlId);
      assert r.Some? ==> Some(r.value) in m by {
        if r.Some? { assert Some(r.value) in m[1..]; }
      }
      assert (exists i | 0 <= i < |m[1..]| :: m[1..][i].Some? && m[1..][i].value.sdlId >= 0 && m[1..][i].value.sdlId == sdlId)
        <==> (exists i | 0 <= i < |m| :: m[i].Some? && m[i].value.sdlId >= 0 && m[i].value.sdlId == sdlId) by {
        if exists i | 0 <= i < |m| :: m[i].Some? && m[i].value.sdlId >= 0 && m[i].value.sdlId == sdlId {
          var i :| 0 <= i < |m| && m[i].Some? && m[i].value.sdlId >= 0 && m[i].value.sdlId == sdlId;
          assert i > 0;
          assert m[1..][i - 1] == m[i];
        }
        if exists i | 0 <= i < |m[1..]| :: m[1..][i].Some? && m[1..][i].value.sdlId >= 0 && m[1..][i].value.sdlId == sdlId {
          var i :| 0 <= i < |m[1..]| && m[1..][i].Some? && m[1..][i].value.sdlId >= 0 && m[1..][i].value.sdlId == sdlId;
          assert m[i + 1] == m[1..][i];
        }
      }
      r
  }

  /**
   * `RemoveSDLInputDevice_`: the joystick to remove is looked up by SDL id;
   * the slot at `index` is emptied when it exists, otherwise the error is
   * logged. Returns the map, the joystick handed to input, and whether an
   * error was logged.
   */
  function RemoveSDLInputDevice(m: seq<Option<Joystick>>, index: nat): (r: (seq<Option<Joystick>>, Option<Joystick>, bool))
    ensures r.1 == FindJoystick(m, index)
    ensures r.2 <==> index >= |m|
    ensures |r.0| == |m|
    ensures forall i | 0 <= i < |m| :: r.0[i] == if i == index then None else m[i]
  {
    var j := FindJoystick(m, index);
    if index < |m| then (m[index := None], j, false) else (m, j, true)
  }

  datatype JoystickEvent = Ignored | Dispatched(joystick: Joystick) | Unmatched

  /**
   * `HandleSDLEvent` for a joystick event naming device `which`: events for
   * an index past the map (a negative one wraps past it too) or an empty
   * slot are dropped; otherwise the joystick is found by SDL id, and a
   * failed lookup is logged.
   */
  function RouteJoystickEvent(m: seq<Option<Joystick>>, which: int): (r: JoystickEvent)
    ensures (which < 0 || which >= |m| || m[which].None?) <==> r == Ignored
    ensures r.Dispatched? ==> r.joystick.sdlId == which && Some(r.joystick) in m
  {
    if which < 0 || which >= |m| || m[which].None? then Ignored
    else match FindJoystick(m, which)
      case Some(j) => Dispatched(j)
      case None => Unmatched
  }

  /**
   * A joystick stored at its own SDL id, with no other joystick claiming
   * that id, receives the events for that id.
   */
  lemma AddedJoystickReceivesEvents(m: seq<Option<Joystick>>, j: Joystick)
    requires j.sdlId >= 0
    requires forall i | 0 <= i < |m| :: m[i].Some? ==> m[i].value.sdlId != j.sdlId
    ensures RouteJoystickEvent(AddSDLInputDevice(m, j, j.sdlId), j.sdlId) == Dispatched(j)
  {
    var r := AddSDLInputDevice(m, j, j.sdlId);
    var found := FindJoystick(r, j.sdlId);
    assert r[j.sdlId] == Some(j);
    assert forall i | 0 <= i < |r| && r[i].Some? && r[i].value.sdlId == j.sdlId :: r[i] == Some(j);
  }

  /** Removing a joystick at its own id hands it to input and drops its later events. */
  lemma RemovedJoystickIsIgnored(m: seq<Option<Joystick>>, j: Joystick)
    requires j.sdlId >= 0
    requires forall i | 0 <= i < |m| :: m[i].Some? ==> m[i].value.sdlId != j.sdlId
    ensures var r := RemoveSDLInputDevice(AddSDLInputDevice(m, j, j.sdlId), j.sdlId);
      r.1 == Some(j) && !r.2 && RouteJoystickEvent(r.0, j.sdlId) == Ignored
  {
    AddedJoystickReceivesEvents(m, j);
  }

  // -------------------------------------------------------------- mouse

  /** SDL window coordinates (points, y down) to normalised view coordinates (y up). */
  function NormalizeMouse(x: real, y: real, width: real, height: real): (r: (real, real))
    requires width > 0.0 && height > 0.0
    ensures r.0 * width == x && (1.0 - r.1) * height == y
    ensures 0.0 <= x <= width && 0.0 <= y <= height ==> 0.0 <= r.0 <= 1.0 && 0.0 <= r.1 <= 1.0
  {
    (x / width, 1.0 - y / height)
  }

  /** Window pixels back from normalised coordinates (y counted from the top again). */
  function MouseToPixels(p: (real, real), width: real, height: real): (real, real) {
    (p.0 * width, (1.0 - p.1) * height)
  }

  /** Normalising loses nothing: the pixel position comes back, and so do normalised coordinates. */
  lemma NormalizeMouseRoundTrip(x: real, y: real, p: (real, real), width: real, height: real)
    requires width > 0.0 && height > 0.0
    ensures MouseToPixels(NormalizeMouse(x, y, width, height), width, height) == (x, y)
    ensures NormalizeMouse(MouseToPixels(p, width, height).0, MouseToPixels(p, width, height).1, width, height) == p
  {
    var q := MouseToPixels(p, width, height);
    var n := NormalizeMouse(q.0, q.1, width, height);
    assert n.0 * width == p.0 * width;
    assert (1.0 - n.1) * height == (1.0 - p.1) * height;
  }
}

=== FILE: base_platform.dfy ===
/**
 * `BasePlatform`'s small decisions: store-id filtering for purchases,
 * URL routing, the cursor-position fallback and the cached public device
 * UUID. The Python hash call and the UI are parameters.
 */
module BasePlatform {
  import opened Wrappers

  /** The ids that Amazon builds purchase as consumables under a `_c` alias. */
  const AmazonConsumableIds: set<string> :=
    {"bundle_bones", "bundle_bernard", "bundle_frosty", "bundle_santa", "pro", "pro_sale"}

  /** `Purchase`'s id filtering: on Amazon builds the listed ids get `_c`; everything else passes through. */
  function FilterPurchaseItem(amazon: bool, item: string): (r: string)
    ensures amazon && item in AmazonConsumableIds ==> r == item + "_c"
    ensures !(amazon && item in AmazonConsumableIds) ==> r == item
  {
    if amazon && item in AmazonConsumableIds then item + "_c" else item
  }

  /** Filtering twice is filtering once: no `_c` alias is itself in the list. */
  lemma FilterIsIdempotent(amazon: bool, item: string)
    ensures FilterPurchaseItem(amazon, FilterPurchaseItem(amazon, item)) == FilterPurchaseItem(amazon, item)
  {
    if amazon && item in AmazonConsumableIds {
      var c := item + "_c";
      assert c[|c| - 2..] == "_c";
      assert c !in AmazonConsumableIds by {
        assert forall id | id in AmazonConsumableIds :: id[|id| - 2..] != "_c";
      }
    }
  }

  /** Filtering only ever appends `_c`, so the store can recover the listed id. */
  lemma FilteredIdsRecoverItem(amazon: bool, a: string, b: string)
    requires a in AmazonConsumableIds && b in AmazonConsumableIds
    requires FilterPurchaseItem(amazon, a) == FilterPurchaseItem(amazon, b)
    ensures a == b
  {
    if amazon {
      assert (a + "_c")[..|a|] == a && (b + "_c")[..|b|] == b;
    }
  }

  datatype UrlRoute = ShowInApp(url: string) | PlatformOpen(url: string)

  /** `OpenURL`: in VR the UI shows the URL; otherwise the platform opens it. */
  function OpenURL(vrMode: bool, url: string): (r: UrlRoute)
    ensures r.url == url
    ensures r.ShowInApp? <==> vrMode
  {
    if vrMode then ShowInApp(url) else PlatformOpen(url)
  }

  /** `GetCursorPosition`: the input subsystem's last cursor position, or the origin when there is none. */
  function GetCursorPosition(input: Option<(real, real)>): (r: (real, real))
    ensures input.None? ==> r == (0.0, 0.0)
    ensures input.Some? ==> r == input.value
  {
    if input.None? then (0.0, 0.0) else input.value
  }

  // ------------------------------------------------------ public device uuid

  /** The shuffle component mixed into every public UUID. */
  const UuidShuffleComponent := "JVRWZ82D4WMBO110OA0IFJV7JKMQV8W3"

  datatype UuidCache = UuidCache(value: string, hashCalls: nat)

  /**
   * `GetPublicDeviceUUID`: while the cache is empty, hash the device inputs,
   * the OS version and the shuffle component and cache the result.
   */
  function GetPublicDeviceUUID(cache: UuidCache, inputs: seq<string>, osVersion: string,
                               hash: seq<string> -> string): (r: (UuidCache, string))
    ensures r.1 == r.0.value
    ensures cache.value != "" ==> r == (cache, cache.value)
    ensures cache.value == "" ==>
      r.1 == hash(inputs + [osVersion, UuidShuffleComponent]) && r.0.hashCalls == cache.hashCalls + 1
  {
    if cache.value == "" then
      var v := hash(inputs + [osVersion, UuidShuffleComponent]);
      (UuidCache(v, cache.hashCalls + 1), v)
    else (cache, cache.value)
  }

  /**
   * Once a non-empty UUID is cached, later calls return it without hashing,
   * even if the OS version has changed meanwhile.
   */
  lemma UuidIsStableOnceComputed(cache: UuidCache, inputs: seq<string>, os1: string, os2: string,
                                 hash: seq<string> -> string)
    requires hash(inputs + [os1, UuidShuffleComponent]) != ""
    ensures var (c1, u1) := GetPublicDeviceUUID(cache, inputs, os1, hash);
      var (c2, u2) := GetPublicDeviceUUID(c1, inputs, os2, hash);
      u2 == u1 && c2.hashCalls == c1.hashCalls
  {
  }
}

=== FILE: base_types.dfy ===
/**
 * Enumerations the base layer shares between its components, in their
 * declaration order (the source compares some of them with `<` and `>`).
 */
module BaseTypes {

  datatype ReflectionType = RNone | RChar | RPowerup | RSoft | RSharp | RSharper | RSharpest

  datatype CubeMap = ReflectionChar | ReflectionPowerup | ReflectionSoft
                   | ReflectionSharp | ReflectionSharper | ReflectionSharpest

  datatype GraphicsQuality = GQUnset | GQLow | GQMedium | GQHigh | GQHigher

  datatype GraphicsQualityRequest = GRUnset | GRLow | GRMedium | GRHigh | GRHigher | GRAuto

  datatype TextureQualityRequest = TRUnset | TRAuto | TRHigh | TRMedium | TRLow

  datatype TextureQuality = TQUnset | TQHigh | TQMedium | TQLow

  datatype TextureCompressionType = S3TC | PVR | ETC1 | ETC2

  /** Position of a request in its declaration, as `static_cast<int>` would give it. */
  function RequestOrdinal(q: GraphicsQualityRequest): nat {
    match q
    case GRUnset => 0
    case GRLow => 1
    case GRMedium => 2
    case GRHigh => 3
    case GRHigher => 4
    case GRAuto => 5
  }

  function QualityOrdinal(q: GraphicsQuality): nat {
    match q
    case GQUnset => 0
    case GQLow => 1
    case GQMedium => 2
    case GQHigh => 3
    case GQHigher => 4
  }

  function CompressionOrdinal(t: TextureCompressionType): nat {
    match t
    case S3TC => 0
    case PVR => 1
    case ETC1 => 2
    case ETC2 => 3
  }
}

=== FILE: console.dfy ===
/**
 * The developer console's state machine: the Inactive → Mini → Full cycle,
 * key handling (activate keys, escape, backspace, history recall, enter),
 * text entry, and the capped list of printed lines. The input string is a
 * sequence of code points (its UTF-8 encoding is not modelled); text
 * layout (`BreakUpString`) arrives already split as a parameter.
 */
module Console {
  import Seqs

  datatype State = Inactive | Mini | Full

  /** Keys the console distinguishes; every other key is `OtherKey`. */
  datatype Key = ActivateKey1 | ActivateKey2 | Escape | Backspace | Delete | Up | Down
               | KeypadEnter | Return | OtherKey(code: int)

  /** A printed line and the app time it was completed at. */
  datatype Line = Line(text: string, time: int)

  datatype Console = Console(
    state: State,
    input: string,
    history: seq<string>,
    historyPosition: int,
    inputEnabled: bool,
    lines: seq<Line>,
    lastLine: string,
    transitionStart: int,
    commands: seq<string>)

  const HistoryLimit := 100
  const LineLimit := 80

  /** `ToggleState`: cycles Inactive → Mini → Full → Inactive and restarts the transition. */
  function ToggleState(c: Console, now: int): (r: Console)
    ensures r.state == (match c.state case Inactive => Mini case Mini => Full case Full => Inactive)
    ensures r == c.(state := r.state, transitionStart := now)
  {
    var next := match c.state case Inactive => Mini case Mini => Full case Full => Inactive;
    c.(state := next, transitionStart := now)
  }

  /** Three toggles return the console to the state it started in. */
  lemma ToggleCycleHasLengthThree(c: Console, t1: int, t2: int, t3: int)
    ensures ToggleState(ToggleState(ToggleState(c, t1), t2), t3).state == c.state
    ensures ToggleState(c, t1).state != c.state
  {
  }

  /** C++ `%` on `int`: truncating division, so the remainder takes the dividend's sign. */
  function CppRem(a: int, b: int): (r: int)
    requires b > 0
    ensures a >= 0 ==> 0 <= r < b && r == a % b
    ensures a < 0 ==> -b < r <= 0
  {
    if a >= 0 then a % b else -((-a) % b)
  }

  /**
   * Up/Down history recall: the position moves by one, then entry
   * `(position - 1) % size` (C++ remainder, newest first) replaces the input;
   * a negative remainder matches no entry and leaves the input alone.
   */
  function RecallHistory(c: Console, up: bool): (r: Console)
    ensures |c.history| == 0 ==> r == c
    ensures |c.history| > 0 ==> r.historyPosition == c.historyPosition + (if up then 1 else -1)
    ensures |c.history| > 0 ==>
      var used := CppRem(r.historyPosition - 1, |c.history|);
      (used >= 0 ==> r.input == c.history[used]) && (used < 0 ==> r.input == c.input)
    ensures r == c.(historyPosition := r.historyPosition, input := r.input)
  {
    if |c.history| == 0 then c
    else
      var pos := c.historyPosition + (if up then 1 else -1);
      var used := CppRem(pos - 1, |c.history|);
      c.(historyPosition := pos, input := if used >= 0 then c.history[used] else c.input)
  }

  /**
   * Enter: nothing while input is disabled; otherwise `"clear"` wipes the
   * lines and anything else is queued as a command, the input goes to the
   * front of the (100-entry) history, and the input and position reset.
   */
  function Enter(c: Console): (r: Console)
    ensures !c.inputEnabled ==> r == c
    ensures c.inputEnabled ==>
      r.input == [] && r.historyPosition == 0
      && r.history == Seqs.KeepOldest([c.input] + c.history, HistoryLimit)
      && |r.history| <= HistoryLimit && r.history[0] == c.input
    ensures c.inputEnabled && c.input == "clear" ==> r.lines == [] && r.lastLine == [] && r.commands == c.commands
    ensures c.inputEnabled && c.input != "clear" ==>
      r.lines == c.lines && r.lastLine == c.lastLine && r.commands == c.commands + [c.input]
    ensures r.state == c.state
  {
    if !c.inputEnabled then c
    else
      var d := if c.input == "clear" then c.(lastLine := [], lines := [])
               else c.(commands := c.commands + [c.input]);
      d.(historyPosition := 0, history := Seqs.KeepOldest([c.input] + c.history, HistoryLimit), input := [])
  }

  /**
   * `HandleKeyPress` on an SDL2 build at app time `now`: returns the
   * console, whether the key was consumed, and whether held input was reset
   * (the activate keys do that before toggling).
   */
  function HandleKeyPress(c: Console, key: Key, now: int): (r: (Console, bool, bool))
    ensures key == ActivateKey1 || key == ActivateKey2 ==> r == (ToggleState(c, now), true, true)
    ensures key != ActivateKey1 && key != ActivateKey2 ==> !r.2 && (r.1 <==> c.state != Inactive)
    ensures c.state == Inactive && key != ActivateKey1 && key != ActivateKey2 ==> r.0 == c
    ensures c.state != Inactive && key.OtherKey? ==> r.0 == c
  {
    if key == ActivateKey1 || key == ActivateKey2 then (ToggleState(c, now), true, true)
    else if c.state == Inactive then (c, false, false)
    else
      var d := match key
        case Escape => ToggleState(c, now)
        case Backspace => DeleteLast(c)
        case Delete => DeleteLast(c)
        case Up => RecallHistory(c, true)
        case Down => RecallHistory(c, false)
        case KeypadEnter => Enter(c)
        case Return => Enter(c)
        case _ => c;
      (d, true, false)
  }

  /** Backspace/Delete: exactly one trailing code point goes, if there is one. */
  function DeleteLast(c: Console): (r: Console)
    ensures |c.input| == 0 ==> r == c
    ensures |c.input| > 0 ==> r.input + [c.input[|c.input| - 1]] == c.input
    ensures r == c.(input := r.input)
  {
    if |c.input| == 0 then c else c.(input := c.input[..|c.input| - 1])
  }

  /** `HandleTextEditing`: appends text while active, except the backtick that opens the console. */
  function HandleTextEditing(c: Console, text: string): (r: (Console, bool))
    ensures r.1 <==> c.state != Inactive && text != "`"
    ensures r.1 ==> r.0 == c.(input := c.input + text)
    ensures !r.1 ==> r.0 == c
  {
    if c.state == Inactive || text == "`" then (c, false) else (c.(input := c.input + text), true)
  }

  /** `HandleKeyRelease`: the activate keys always, and every key while active. */
  function HandleKeyRelease(c: Console, key: Key): (r: bool)
    ensures r <==> key == ActivateKey1 || key == ActivateKey2 || c.state != Inactive
  {
    if key == ActivateKey1 || key == ActivateKey2 then true else c.state != Inactive
  }

  /**
   * A key's release is consumed exactly when its press was, except for an
   * Escape that closes a full console: that press is consumed, and the
   * release then reaches the game.
   */
  lemma PressAndReleaseAgree(c: Console, key: Key, now: int)
    ensures var (d, consumed, _) := HandleKeyPress(c, key, now);
      !(key == Escape && c.state == Full) ==> HandleKeyRelease(d, key) == consumed
    ensures key == Escape && c.state == Full ==>
      HandleKeyPress(c, key, now).1 && !HandleKeyRelease(HandleKeyPress(c, key, now).0, key)
  {
    var d := HandleKeyPress(c, key, now).0;
    if key != ActivateKey1 && key != ActivateKey2 && c.state != Inactive && key != Escape {
      assert d.state == c.state;
    }
  }

  /** Typing a character and deleting it restores the input. */
  lemma TypeThenDeleteRestores(c: Console, ch: char)
    requires c.state != Inactive && [ch] != "`"
    ensures DeleteLast(HandleTextEditing(c, [ch]).0) == c
  {
    var d := HandleTextEditing(c, [ch]).0;
    assert d.input[..|d.input| - 1] == c.input;
  }

  /** A command just entered is the first one Up brings back. */
  lemma EnterThenUpRecallsCommand(c: Console, now: int)
    requires c.state != Inactive && c.inputEnabled
    ensures var (d, _, _) := HandleKeyPress(c, Return, now);
      HandleKeyPress(d, Up, now).0.input == c.input
  {
    var d := Enter(c);
    assert d.history[0] == c.input;
    assert CppRem(0, |d.history|) == 0;
  }

  /** Down from the start of history in a history of three or more matches nothing. */
  lemma DownAtStartKeepsInput(c: Console)
    requires c.historyPosition == 0 && |c.history| >= 3
    ensures RecallHistory(c, false).input == c.input
  {
    assert CppRem(-2, |c.history|) == -2;
  }

  /** Appends completed lines one at a time, dropping the oldest past the limit each time. */
  function AppendLines(lines: seq<Line>, pieces: seq<string>, now: int): (r: seq<Line>)
    decreases |pieces|
  {
    if |pieces| == 0 then lines
    else AppendLines(Seqs.KeepNewest(lines + [Line(pieces[0], now)], LineLimit), pieces[1..], now)
  }

  function Stamp(pieces: seq<string>, now: int): (r: seq<Line>)
    ensures |r| == |pieces| && forall i | 0 <= i < |pieces| :: r[i] == Line(pieces[i], now)
  {
    seq(|pieces|, i requires 0 <= i < |pieces| => Line(pieces[i], now))
  }

  /**
   * Dropping the oldest after each append keeps the same lines as
   * appending everything and then keeping the newest 80.
   */
  lemma {:induction false} AppendLinesKeepsNewest(lines: seq<Line>, pieces: seq<string>, now: int)
    requires |lines| <= LineLimit
    ensures AppendLines(lines, pieces, now) == Seqs.KeepNewest(lines + Stamp(pieces, now), LineLimit)
    decreases |pieces|
  {
    if |pieces| == 0 {
      assert lines + Stamp(pieces, now) == lines;
    } else {
      var head := [Line(pieces[0], now)];
      var next := Seqs.KeepNewest(lines + head, LineLimit);
      var rest := Stamp(pieces[1..], now);
      calc {
        AppendLines(lines, pieces, now);
        AppendLines(next, pieces[1..], now);
        { AppendLinesKeepsNewest(next, pieces[1..], now); }
        Seqs.KeepNewest(next + rest, LineLimit);
        { KeepNewestAbsorbs(lines + head, rest, LineLimit); }
        Seqs.KeepNewest((lines + head) + rest, LineLimit);
        { assert (lines + head) + rest == lines + (head + rest);
          StampCons(pieces, now); }
        Seqs.KeepNewest(lines + Stamp(pieces, now), LineLimit);
      }
    }
  }

  lemma StampCons(pieces: seq<string>, now: int)
    requires |pieces| > 0
    ensures Stamp(pieces, now) == [Line(pieces[0], now)] + Stamp(pieces[1..], now)
  {
  }

  /** Trimming early does not change what the final trim keeps. */
  lemma KeepNewestAbsorbs<T>(s: seq<T>, t: seq<T>, cap: nat)
    ensures Seqs.KeepNewest(Seqs.KeepNewest(s, cap) + t, cap) == Seqs.KeepNewest(s + t, cap)
  {
    var k := Seqs.KeepNewest(s, cap);
    var a := Seqs.KeepNewest(k + t, cap);
    var b := Seqs.KeepNewest(s + t, cap);
    assert |a| == |b|;
    forall i | 0 <= i < |a| ensures a[i] == b[i] {
      assert a[i] == (k + t)[|k + t| - |a| + i];
      assert b[i] == (s + t)[|s + t| - |b| + i];
    }
  }

  /**
   * `Print` at app time `now`, given how `BreakUpString` splits the pending
   * text (`lastLine + text`): every piece but the last becomes a line, the
   * oldest lines going past 80, and the last piece stays pending.
   */
  function Print(c: Console, pieces: seq<string>, now: int): (r: Console)
    requires |pieces| >= 1
    ensures |c.lines| <= LineLimit ==>
      r.lines == Seqs.KeepNewest(c.lines + Stamp(pieces[..|pieces| - 1], now), LineLimit)
      && |r.lines| <= LineLimit
    ensures r.lastLine == pieces[|pieces| - 1]
    ensures r == c.(lines := r.lines, lastLine := r.lastLine)
  {
    var complete := pieces[..|pieces| - 1];
    assert |c.lines| <= LineLimit ==>
        AppendLines(c.lines, complete, now) == Seqs.KeepNewest(c.lines + Stamp(complete, now), LineLimit) by {
      if |c.lines| <= LineLimit {
        AppendLinesKeepsNewest(c.lines, complete, now);
      }
    }
    c.(lines := AppendLines(c.lines, complete, now), lastLine := pieces[|pieces| - 1])
  }
}

=== FILE: core_platform.dfy ===
/**
 * Decision and string helpers of `CorePlatform`: the legacy user-agent
 * string, v1 account ids, the locale fallback, memoised capability queries,
 * clipboard guards and per-interface broadcast addresses. Environment
 * variables, the OS, SDL and `getifaddrs` become parameters.
 */
module CorePlatform {
  import opened Wrappers
  import Strings

  /** `GetLocale`: `LANG` when set, otherwise `en_US`. */
  function GetLocale(lang: Option<string>): (r: string)
    ensures lang.Some? ==> r == lang.value
    ensures lang.None? ==> r == "en_US"
  {
    if lang.Some? then lang.value else "en_US"
  }

  /**
   * The locale tells `LANG` settings apart, and an unset `LANG` reads
   * exactly like one set to the default.
   */
  lemma GetLocaleKeepsSetting(a: string, b: string)
    ensures GetLocale(Some(a)) == GetLocale(Some(b)) ==> a == b
    ensures GetLocale(None) == GetLocale(Some("en_US"))
  {
  }

  // ---------------------------------------------------- memoised queries

  /** A capability query answered by the platform once and cached afterwards. */
  datatype Memo = Memo(have: bool, value: bool, platformCalls: nat)

  const Unasked := Memo(false, false, 0)

  /** `HasTouchScreen` / `ClipboardIsSupported`: `platform` is what the `Do*` query would answer now. */
  function Ask(m: Memo, platform: bool): (r: (Memo, bool))
    ensures r.0.have && r.1 == r.0.value
    ensures m.have ==> r == (m, m.value)
    ensures !m.have ==> r.1 == platform && r.0.platformCalls == m.platformCalls + 1
  {
    if m.have then (m, m.value) else (Memo(true, platform, m.platformCalls + 1), platform)
  }

  /** Asking twice calls the platform at most once, and the second answer repeats the first. */
  lemma AskedOnce(m: Memo, p1: bool, p2: bool)
    requires m == Unasked
    ensures var (m1, a1) := Ask(m, p1); var (m2, a2) := Ask(m1, p2);
      a2 == a1 == p1 && m2.platformCalls == 1
  {
  }

  /** `ClipboardHasText`: false without clipboard support, without asking the clipboard. */
  function ClipboardHasText(m: Memo, platformSupport: bool, clipboardHasText: bool): (r: (Memo, bool))
    ensures r.0 == Ask(m, platformSupport).0
    ensures r.1 <==> Ask(m, platformSupport).1 && clipboardHasText
  {
    var (m1, supported) := Ask(m, platformSupport);
    (m1, supported && clipboardHasText)
  }

  const NoClipboardSet := "ClipboardSetText called with no clipboard support."
  const NoClipboardGet := "ClipboardGetText called with no clipboard support."
  const ClipboardFetchFailed := "Error fetching clipboard contents."

  /**
   * `ClipboardSetText`: an error without support; otherwise the SDL
   * clipboard, `None` while SDL has nothing to hand back, holds `text`.
   * The result is the clipboard afterwards.
   */
  function ClipboardSetText(m: Memo, platformSupport: bool, clipboard: Option<string>, text: string)
    : (r: (Memo, Result<Option<string>>))
    ensures r.0 == Ask(m, platformSupport).0
    ensures r.1.Success? <==> Ask(m, platformSupport).1
    ensures r.1.Success? ==> r.1.value == Some(text)
    ensures r.1.Failure? ==> r.1.error == NoClipboardSet
  {
    var (m1, supported) := Ask(m, platformSupport);
    if supported then (m1, Success(Some(text))) else (m1, Failure(NoClipboardSet))
  }

  /**
   * `ClipboardGetText`: an error without support, an error when SDL returns
   * no text (`clipboard == None`), and the clipboard's contents otherwise.
   */
  function ClipboardGetText(m: Memo, platformSupport: bool, clipboard: Option<string>): (r: (Memo, Result<string>))
    ensures r.0 == Ask(m, platformSupport).0
    ensures r.1.Success? <==> Ask(m, platformSupport).1 && clipboard.Some?
    ensures r.1.Success? ==> r.1.value == clipboard.value
    ensures !Ask(m, platformSupport).1 ==> r.1 == Failure(NoClipboardGet)
    ensures Ask(m, platformSupport).1 && clipboard.None? ==> r.1 == Failure(ClipboardFetchFailed)
  {
    var (m1, supported) := Ask(m, platformSupport);
    if !supported then (m1, Failure(NoClipboardGet))
    else match clipboard
      case None => (m1, Failure(ClipboardFetchFailed))
      case Some(text) => (m1, Success(text))
  }

  /**
   * With support, text set on the clipboard reads back unchanged, even from
   * a clipboard SDL could not read before; without support both calls fail
   * with their own messages.
   */
  lemma ClipboardRoundTrip(m: Memo, platformSupport: bool, clipboard: Option<string>, text: string)
    ensures var (m1, written) := ClipboardSetText(m, platformSupport, clipboard, text);
      if Ask(m, platformSupport).1 then
        written.Success? && ClipboardGetText(m1, platformSupport, written.value).1 == Success(text)
      else
        written == Failure(NoClipboardSet) && ClipboardGetText(m1, platformSupport, clipboard).1 == Failure(NoClipboardGet)
  {
  }

  // ---------------------------------------------------------- user agent

  datatype OS = MacOS | IOS | TvOS | OtherOS

  /** The build-configuration switches the user agent consults. */
  datatype BuildConfig = BuildConfig(
    headless: bool, cardboard: bool, gearVR: bool, rift: bool, amazon: bool, google: bool,
    storeKit: bool, os: OS, demo: bool, arcade: bool)

  /** The store tag: the first switch that is set, in a fixed priority order, else `TstB`. */
  function Subplatform(c: BuildConfig): (r: string)
    ensures c.headless ==> r == "HdlS"
    ensures r == "TstB" <==>
      !c.headless && !c.cardboard && !c.gearVR && !c.rift && !c.amazon && !c.google
      && !(c.storeKit && c.os != OtherOS) && !c.demo && !c.arcade
    ensures |r| > 0 && AllAscii(r)
  {
    if c.headless then "HdlS"
    else if c.cardboard then "GpCb"
    else if c.gearVR then "OcGVRSt"
    else if c.rift then "OcRftSt"
    else if c.amazon then "AmSt"
    else if c.google then "GpSt"
    else if c.storeKit && c.os == MacOS then "McApSt"
    else if c.storeKit && c.os == IOS then "IosApSt"
    else if c.storeKit && c.os == TvOS then "TvsApSt"
    else if c.demo then "DeMo"
    else if c.arcade then "ArCd"
    else assert !(c.storeKit && c.os != OtherOS); "TstB"
  }

  predicate IsAscii(c: char) { c as int < 128 }

  predicate AllAscii(s: string) {
    forall i | 0 <= i < |s| :: IsAscii(s[i])
  }

  /** `Utils::StripNonAsciiFromUTF8` on code points: drops every non-ASCII character. */
  function StripNonAscii(s: string): (r: string)
    ensures AllAscii(r)
    ensures |r| <= |s|
    ensures AllAscii(s) ==> r == s
    decreases |s|
  {
    if s == [] then []
    else
      var rest := StripNonAscii(s[1..]);
      if IsAscii(s[0]) then [s[0]] + rest else rest
  }

  /** Stripping distributes over concatenation. */
  lemma {:induction false} StripConcat(a: string, b: string)
    ensures StripNonAscii(a + b) == StripNonAscii(a) + StripNonAscii(b)
    decreases |a|
  {
    if a != [] {
      assert (a + b)[1..] == a[1..] + b;
      StripConcat(a[1..], b);
    } else {
      assert a + b == b;
    }
  }

  lemma AsciiConcat(a: string, b: string)
    requires AllAscii(a) && AllAscii(b)
    ensures AllAscii(a + b)
  {
    assert forall i | 0 <= i < |a + b| :: (a + b)[i] == if i < |a| then a[i] else b[i - |a|];
  }

  /** The user agent up to the store tag: `BallisticaKit <version> <tag>`. */
  function UserAgentHead(c: BuildConfig, engineVersion: string): string {
    "BallisticaKit " + engineVersion + " " + Subplatform(c)
  }

  /** The part after the store tag up to the device name. */
  function UserAgentMiddle(buildNumber: nat, platform: string, osVersion: string, device: string, onTV: bool): string {
    var version := if osVersion == "" then "" else " " + osVersion;
    (if onTV then " OnTV" else "") + " (" + Strings.NatToString(buildNumber) + ") (" + platform + version + "; " + device
  }

  function UserAgentTail(locale: string): string {
    "; " + locale + ")"
  }

  /**
   * `GetLegacyUserAgentString`. The engine version, build number, platform
   * string, OS version, device name, locale and whether the device is a
   * TV are inputs.
   */
  function LegacyUserAgent(c: BuildConfig, engineVersion: string, buildNumber: nat, platform: string,
                           osVersion: string, device: string, locale: string, onTV: bool): (r: string)
    ensures AllAscii(r)
  {
    StripNonAscii(UserAgentHead(c, engineVersion)
                  + UserAgentMiddle(buildNumber, platform, osVersion, device, onTV)
                  + UserAgentTail(locale))
  }

  /**
   * When the engine version and locale are ASCII, the user agent starts
   * with the engine version and store tag and ends with the locale,
   * whatever the device name holds.
   */
  lemma UserAgentNamesStore(c: BuildConfig, engineVersion: string, buildNumber: nat, platform: string,
                            osVersion: string, device: string, locale: string, onTV: bool)
    requires AllAscii(engineVersion) && AllAscii(locale)
    ensures var r := LegacyUserAgent(c, engineVersion, buildNumber, platform, osVersion, device, locale, onTV);
      Strings.StartsWith(r, UserAgentHead(c, engineVersion)) && Strings.EndsWith(r, UserAgentTail(locale))
  {
    HeadIsAscii(c, engineVersion);
    TailIsAscii(locale);
    StripKeepsAsciiFrame(UserAgentHead(c, engineVersion),
                         UserAgentMiddle(buildNumber, platform, osVersion, device, onTV),
                         UserAgentTail(locale));
  }

  lemma HeadIsAscii(c: BuildConfig, engineVersion: string)
    requires AllAscii(engineVersion)
    ensures AllAscii(UserAgentHead(c, engineVersion))
  {
    AsciiConcat("BallisticaKit ", engineVersion);
    AsciiConcat("BallisticaKit " + engineVersion, " ");
    AsciiConcat("BallisticaKit " + engineVersion + " ", Subplatform(c));
  }

  lemma TailIsAscii(locale: string)
    requires AllAscii(locale)
    ensures AllAscii(UserAgentTail(locale))
  {
    AsciiConcat("; ", locale);
    AsciiConcat("; " + locale, ")");
  }

  /** Stripping leaves an ASCII head and tail in place, whatever lies between them. */
  lemma StripKeepsAsciiFrame(head: string, mid: string, tail: string)
    requires AllAscii(head) && AllAscii(tail)
    ensures Strings.StartsWith(StripNonAscii(head + mid + tail), head)
    ensures Strings.EndsWith(StripNonAscii(head + mid + tail), tail)
  {
    StripAroundAscii(head, mid, tail);
    var m := StripNonAscii(mid);
    Strings.StartsWithConcat(head, m + tail);
    assert head + (m + tail) == (head + m) + tail;
    Strings.EndsWithConcat(head + m, tail);
  }

  lemma StripAroundAscii(head: string, mid: string, tail: string)
    requires AllAscii(head) && AllAscii(tail)
    ensures StripNonAscii(head + mid + tail) == head + (StripNonAscii(mid) + tail)
  {
    assert head + mid + tail == head + (mid + tail);
    StripConcat(head, mid + tail);
    StripConcat(mid, tail);
  }

  // ---------------------------------------------------------- account id

  /** `GetDeviceV1AccountID`: `S-` for headless servers, `L-` (local) for everything else, then the uuid. */
  function DeviceV1AccountID(headless: bool, uuid: string): (r: string)
    ensures |r| == |uuid| + 2 && r[2..] == uuid
    ensures r[..2] == (if headless then "S-" else "L-")
  {
    (if headless then "S-" else "L-") + uuid
  }

  /** Distinct devices, or a server and a client on one device, never share an id. */
  lemma AccountIdsAreDistinct(h1: bool, u1: string, h2: bool, u2: string)
    requires (h1, u1) != (h2, u2)
    ensures DeviceV1AccountID(h1, u1) != DeviceV1AccountID(h2, u2)
  {
  }

  // ---------------------------------------------------- broadcast address

  /** An interface entry from `getifaddrs`: no address, an IPv4 one with its netmask, or another family. */
  datatype Interface = NoAddress | IPv4(addr: bv32, netmask: bv32) | OtherFamily

  /** The broadcast address of one IPv4 interface (host order). */
  function Broadcast(addr: bv32, netmask: bv32): (r: bv32)
    ensures r & netmask == addr & netmask
    ensures r | netmask == 0xFFFF_FFFF
  {
    addr | !netmask
  }

  /**
   * `GetBroadcastAddrs`: the broadcast address of each IPv4 interface, in
   * interface order; interfaces without an address or of another family are
   * skipped. A failing `getifaddrs` reads as an empty `ifs`.
   */
  function BroadcastAddrs(ifs: seq<Interface>): (r: seq<bv32>)
    ensures |r| == CountIPv4(ifs) <= |ifs|
    ensures (forall i | 0 <= i < |ifs| :: ifs[i].IPv4?) ==> |r| == |ifs|
    ensures (forall i | 0 <= i < |ifs| :: !ifs[i].IPv4?) ==> r == []
    ensures BroadcastsAt(ifs, r)
    decreases |ifs|
  {
    CountIPv4Extremes(ifs);
    if ifs == [] then []
    else
      var rest := BroadcastAddrs(ifs[1..]);
      BroadcastAddrsStep(ifs, rest);
      BroadcastOf(ifs[0]) + rest
  }

  /**
   * `r` holds interface `i`'s broadcast address at position "number of IPv4
   * interfaces before `i`", for every IPv4 interface `i`.
   */
  predicate BroadcastsAt(ifs: seq<Interface>, r: seq<bv32>) {
    forall i | 0 <= i < |ifs| && ifs[i].IPv4? ::
      CountIPv4(ifs[..i]) < |r| && r[CountIPv4(ifs[..i])] == Broadcast(ifs[i].addr, ifs[i].netmask)
  }

  lemma BroadcastAddrsStep(ifs: seq<Interface>, rest: seq<bv32>)
    requires |ifs| > 0 && BroadcastsAt(ifs[1..], rest)
    ensures BroadcastsAt(ifs, BroadcastOf(ifs[0]) + rest)
  {
    var r := BroadcastOf(ifs[0]) + rest;
    forall i | 0 <= i < |ifs| && ifs[i].IPv4?
      ensures CountIPv4(ifs[..i]) < |r| && r[CountIPv4(ifs[..i])] == Broadcast(ifs[i].addr, ifs[i].netmask)
    {
      if i == 0 {
        assert ifs[..0] == [];
      } else {
        BroadcastAtLater(ifs, rest, i);
      }
    }
  }

  /** Position `i > 0` of `ifs` is position `i - 1` of its tail, shifted by the head's broadcast. */
  lemma BroadcastAtLater(ifs: seq<Interface>, rest: seq<bv32>, i: int)
    requires 0 < i < |ifs| && ifs[i].IPv4? && BroadcastsAt(ifs[1..], rest)
    ensures CountIPv4(ifs[..i]) < |BroadcastOf(ifs[0]) + rest|
    ensures (BroadcastOf(ifs[0]) + rest)[CountIPv4(ifs[..i])] == Broadcast(ifs[i].addr, ifs[i].netmask)
  {
    var tail := ifs[1..];
    assert tail[i - 1] == ifs[i];
    var k := CountIPv4(tail[..i - 1]);
    assert k < |rest| && rest[k] == Broadcast(ifs[i].addr, ifs[i].netmask);
    assert ifs[..i] == [ifs[0]] + tail[..i - 1];
    CountIPv4Cons(ifs[0], tail[..i - 1]);
  }

  /** The number of IPv4 interfaces in `ifs`. */
  function CountIPv4(ifs: seq<Interface>): (n: nat)
    ensures n <= |ifs|
    decreases |ifs|
  {
    if ifs == [] then 0 else (if ifs[0].IPv4? then 1 else 0) + CountIPv4(ifs[1..])
  }

  /** All interfaces IPv4 means all counted; none IPv4 means none counted. */
  lemma {:induction false} CountIPv4Extremes(ifs: seq<Interface>)
    ensures (forall i | 0 <= i < |ifs| :: ifs[i].IPv4?) ==> CountIPv4(ifs) == |ifs|
    ensures (forall i | 0 <= i < |ifs| :: !ifs[i].IPv4?) ==> CountIPv4(ifs) == 0
    decreases |ifs|
  {
    if ifs != [] {
      CountIPv4Extremes(ifs[1..]);
      assert forall i | 0 <= i < |ifs| - 1 :: ifs[1..][i] == ifs[i + 1];
    }
  }

  lemma CountIPv4Cons(x: Interface, ifs: seq<Interface>)
    ensures CountIPv4([x] + ifs) == (if x.IPv4? then 1 else 0) + CountIPv4(ifs)
  {
    assert ([x] + ifs)[1..] == ifs;
  }

  /** The broadcast address of an IPv4 interface, and nothing for any other entry. */
  function BroadcastOf(x: Interface): seq<bv32> {
    if x.IPv4? then [Broadcast(x.addr, x.netmask)] else []
  }

  /** An independent statement of the same list: the broadcasts of the interfaces, concatenated. */
  function ConcatBroadcasts(ifs: seq<Interface>): seq<bv32>
    decreases |ifs|
  {
    if ifs == [] then [] else ConcatBroadcasts(ifs[..|ifs| - 1]) + BroadcastOf(ifs[|ifs| - 1])
  }

  /** Gathering interface by interface from the front agrees with appending from the back. */
  lemma {:induction false} BroadcastAddrsAgree(ifs: seq<Interface>)
    ensures BroadcastAddrs(ifs) == ConcatBroadcasts(ifs)
    decreases |ifs|
  {
    BroadcastAddrsGathers(ifs);
    GatherAgrees(ifs);
  }

  /** The front-to-back gathering of `BroadcastAddrs`, without its contract. */
  function Gather(ifs: seq<Interface>): seq<bv32>
    decreases |ifs|
  {
    if ifs == [] then [] else BroadcastOf(ifs[0]) + Gather(ifs[1..])
  }

  lemma {:induction false} BroadcastAddrsGathers(ifs: seq<Interface>)
    ensures BroadcastAddrs(ifs) == Gather(ifs)
    decreases |ifs|
  {
    if ifs != [] {
      BroadcastAddrsGathers(ifs[1..]);
    }
  }

  lemma {:induction false} GatherAgrees(ifs: seq<Interface>)
    ensures Gather(ifs) == ConcatBroadcasts(ifs)
    decreases |ifs|
  {
    if ifs != [] {
      var init := ifs[..|ifs| - 1];
      var last := ifs[|ifs| - 1];
      assert init + [last] == ifs;
      GatherSnoc(init, last);
      GatherAgrees(init);
    }
  }

  lemma {:induction false} GatherSnoc(ifs: seq<Interface>, x: Interface)
    ensures Gather(ifs + [x]) == Gather(ifs) + BroadcastOf(x)
    decreases |ifs|
  {
    if ifs == [] {
      assert [x][1..] == [];
    } else {
      assert (ifs + [x])[0] == ifs[0] && (ifs + [x])[1..] == ifs[1..] + [x];
      GatherSnoc(ifs[1..], x);
    }
  }
}

=== FILE: event_loop.dfy ===
/**
 * `EventLoop`'s per-cycle semantics as a sequential state machine: the
 * cross-thread message queue drained by swap, shutdown/pause/resume
 * messages, deferred runnables with completion flags, and the queue's
 * back-pressure limits. Threads, mutexes and condition variables are not
 * modelled; whether a caller is on the loop's own thread is a parameter.
 */
module EventLoop {
  import opened Wrappers

  /** A runnable (by identity) and the completion flag its pusher waits on, if any. */
  datatype Runnable = Runnable(id: nat, completionFlag: Option<nat>)

  datatype Message = RunnableMessage(runnable: Runnable) | Shutdown | Pause | Resume

  datatype Loop = Loop(
    messages: seq<Message>,
    runnables: seq<Runnable>,
    paused: bool,
    done: bool,
    lastPauseTime: int,
    messagesSincePaused: int,
    pauseCallbackRuns: nat,
    resumeCallbackRuns: nat,
    timerPasses: nat,
    ran: seq<nat>,
    completed: set<nat>,
    overflowReported: bool)

  const OverflowLogThreshold := 1000
  const OverflowFatalThreshold := 10000

  // --------------------------------------------------------------- pushing

  /**
   * `PushThreadMessage_`: appends at the back. Past 1000 queued messages an
   * error is logged, once; past 10000 the process dies. Returns the loop and
   * whether the overflow error was logged by this push.
   */
  function PushThreadMessage(s: Loop, m: Message, threadName: string): (r: Result<(Loop, bool)>)
    ensures r.Failure? <==> |s.messages| + 1 > OverflowFatalThreshold
    ensures r.Failure? ==> r.error == "ThreadMessage list > 10000 in thread: " + threadName
    ensures r.Success? ==> r.value.0 == s.(messages := s.messages + [m], overflowReported := r.value.0.overflowReported)
    ensures r.Success? ==> (r.value.1 <==> |s.messages| + 1 > OverflowLogThreshold && !s.overflowReported)
    ensures r.Success? ==> (r.value.0.overflowReported <==> s.overflowReported || |s.messages| + 1 > OverflowLogThreshold)
  {
    var queue := s.messages + [m];
    var logNow := |queue| > OverflowLogThreshold && !s.overflowReported;
    if |queue| > OverflowFatalThreshold then Failure("ThreadMessage list > 10000 in thread: " + threadName)
    else Success((s.(messages := queue, overflowReported := s.overflowReported || logNow), logNow))
  }

  /** The overflow error is logged at most once, however many pushes follow. */
  lemma OverflowLoggedOnce(s: Loop, m1: Message, m2: Message, name: string)
    requires PushThreadMessage(s, m1, name).Success?
    ensures var (s1, _) := PushThreadMessage(s, m1, name).value;
      PushThreadMessage(s1, m2, name).Success? ==>
        !(PushThreadMessage(s, m1, name).value.1 && PushThreadMessage(s1, m2, name).value.1)
  {
  }

  /** `PushLocalRunnable_`. */
  function PushLocalRunnable(s: Loop, r: Runnable): (t: Loop)
    ensures t == s.(runnables := s.runnables + [r])
    ensures |t.runnables| == |s.runnables| + 1 && t.runnables[|s.runnables|] == r
  {
    s.(runnables := s.runnables + [r])
  }

  /** `PushRunnable`: straight onto the runnable list on the loop's own thread, else as a message. */
  function PushRunnable(s: Loop, onOwnThread: bool, id: nat, threadName: string): (r: Result<Loop>)
    ensures onOwnThread ==> r == Success(s.(runnables := s.runnables + [Runnable(id, None)]))
    ensures !onOwnThread ==> (r.Success? <==> |s.messages| < OverflowFatalThreshold)
    ensures !onOwnThread && r.Success? ==>
      r.value.messages == s.messages + [RunnableMessage(Runnable(id, None))] && r.value.runnables == s.runnables
  {
    if onOwnThread then Success(PushLocalRunnable(s, Runnable(id, None)))
    else
      var pushed := PushThreadMessage(s, RunnableMessage(Runnable(id, None)), threadName);
      if pushed.Success? then Success(pushed.value.0) else Failure(pushed.error)
  }

  /**
   * `PushRunnableSynchronous`: always crosses threads carrying completion
   * flag `flag`; from the loop's own thread it would deadlock and is fatal.
   */
  function PushRunnableSynchronous(s: Loop, onOwnThread: bool, id: nat, flag: nat, threadName: string): (r: Result<Loop>)
    ensures onOwnThread ==> r == Failure("PushRunnableSynchronous called from target thread; would deadlock.")
    ensures !onOwnThread ==> (r.Success? <==> |s.messages| < OverflowFatalThreshold)
    ensures r.Success? ==> r.value.messages == s.messages + [RunnableMessage(Runnable(id, Some(flag)))]
  {
    if onOwnThread then Failure("PushRunnableSynchronous called from target thread; would deadlock.")
    else
      var pushed := PushThreadMessage(s, RunnableMessage(Runnable(id, Some(flag))), threadName);
      if pushed.Success? then Success(pushed.value.0) else Failure(pushed.error)
  }

  /** `PushSetPaused`: the pause state changes only when the loop processes the message. */
  function PushSetPaused(s: Loop, paused: bool, threadName: string): (r: Result<Loop>)
    ensures r.Success? ==> r.value.paused == s.paused
    ensures r.Success? ==> r.value.messages == s.messages + [if paused then Pause else Resume]
  {
    var pushed := PushThreadMessage(s, if paused then Pause else Resume, threadName);
    if pushed.Success? then Success(pushed.value.0) else Failure(pushed.error)
  }

  /**
   * `CheckPushSafety`: on the loop's own thread the local runnable list is
   * measured, from elsewhere the message queue.
   */
  function CheckPushSafety(s: Loop, onOwnThread: bool, threshold: int): (r: bool)
    ensures onOwnThread ==> (r <==> |s.runnables| < threshold)
    ensures !onOwnThread ==> (r <==> |s.messages| < threshold)
  {
    if onOwnThread then |s.runnables| < threshold else |s.messages| < threshold
  }

  /** `Quit`: only a loop wrapping the main thread can be told to stop this way. */
  function Quit(s: Loop, wrapsMainThread: bool): (r: Loop)
    ensures r.done == (s.done || wrapsMainThread)
    ensures r == s.(done := r.done)
  {
    if wrapsMainThread then s.(done := true) else s
  }

  // -------------------------------------------------------------- waiting

  datatype Wait = NoWait | WaitWithTimeout(millisecs: int) | WaitForMessage

  /**
   * What `WaitForNextEvent_` does: never wait in single-cycle mode or while
   * unpaused runnables are pending; with active timers (unpaused) wait at
   * most until the next one expires; otherwise wait for a message.
   */
  function NextWait(s: Loop, singleCycle: bool, activeTimers: nat, timeToNextExpire: int): (r: Wait)
    ensures singleCycle ==> r == NoWait
    ensures |s.runnables| > 0 && !s.paused ==> r == NoWait
    ensures |s.messages| > 0 ==> r == NoWait
    ensures r.WaitForMessage? ==> !singleCycle && (s.paused || activeTimers == 0) && |s.messages| == 0
    ensures r.WaitWithTimeout? ==> !s.paused && activeTimers > 0 && r.millisecs == timeToNextExpire > 0
    ensures !singleCycle && s.paused && |s.messages| == 0 ==> r == WaitForMessage
  {
    if singleCycle then NoWait
    else if |s.runnables| > 0 && !s.paused then NoWait
    else if !s.paused && activeTimers > 0 then
      if timeToNextExpire > 0 && |s.messages| == 0 then WaitWithTimeout(timeToNextExpire) else NoWait
    else if |s.messages| == 0 then WaitForMessage
    else NoWait
  }

  // ----------------------------------------------------------- processing

  /** `GetThreadMessages_`: swap the whole queue out. */
  function GetThreadMessages(s: Loop): (r: (seq<Message>, Loop))
    ensures r.0 == s.messages && r.1.messages == []
    ensures r.1 == s.(messages := [])
  {
    (s.messages, s.(messages := []))
  }

  /**
   * One message of `Run_`'s switch at app time `now`. Pausing a paused loop
   * or resuming a running one violates the loop's assertions.
   */
  function HandleMessage(s: Loop, m: Message, now: int): (r: Result<Loop>)
    ensures m.Pause? ==> (r.Success? <==> !s.paused)
    ensures m.Resume? ==> (r.Success? <==> s.paused)
    ensures m.Pause? && r.Success? ==>
      r.value == s.(paused := true, lastPauseTime := now, messagesSincePaused := 0,
                    pauseCallbackRuns := s.pauseCallbackRuns + 1)
    ensures m.Resume? && r.Success? ==>
      r.value == s.(paused := false, resumeCallbackRuns := s.resumeCallbackRuns + 1)
    ensures m.Shutdown? ==> r == Success(s.(done := true))
    ensures m.RunnableMessage? ==> r == Success(s.(runnables := s.runnables + [m.runnable]))
  {
    match m
    case RunnableMessage(run) => Success(PushLocalRunnable(s, run))
    case Shutdown => Success(s.(done := true))
    case Pause =>
      if s.paused then Failure("pause message while paused")
      else Success(s.(paused := true, lastPauseTime := now, messagesSincePaused := 0,
                      pauseCallbackRuns := s.pauseCallbackRuns + 1))
    case Resume =>
      if !s.paused then Failure("resume message while not paused")
      else Success(s.(paused := false, resumeCallbackRuns := s.resumeCallbackRuns + 1))
  }

  /** The message loop of `Run_`: in arrival order, stopping after the message that set `done`. */
  function ProcessMessages(s: Loop, batch: seq<Message>, now: int): (r: Result<Loop>)
    ensures r.Success? ==> r.value.messages == s.messages && r.value.ran == s.ran && r.value.completed == s.completed
    ensures r.Success? ==> r.value.timerPasses == s.timerPasses
    ensures r.Success? && Shutdown in batch ==> r.value.done
    decreases |batch|
  {
    if |batch| == 0 then Success(s)
    else
      var step := HandleMessage(s, batch[0], now);
      if step.Failure? then step
      else if step.value.done then step
      else ProcessMessages(step.value, batch[1..], now)
  }

  /** The runnables carried by a batch of messages, in order. */
  function RunnablesIn(batch: seq<Message>): seq<Runnable>
  {
    if |batch| == 0 then []
    else (if batch[0].RunnableMessage? then [batch[0].runnable] else []) + RunnablesIn(batch[1..])
  }

  /** A batch of runnable messages lands on the runnable list in arrival order. */
  lemma {:induction false} RunnablesKeepArrivalOrder(s: Loop, batch: seq<Message>, now: int)
    requires !s.done
    requires forall i | 0 <= i < |batch| :: batch[i].RunnableMessage?
    ensures ProcessMessages(s, batch, now) == Success(s.(runnables := s.runnables + RunnablesIn(batch)))
    decreases |batch|
  {
    if |batch| == 0 {
      assert s.runnables + RunnablesIn(batch) == s.runnables;
    } else {
      var t := s.(runnables := s.runnables + [batch[0].runnable]);
      assert HandleMessage(s, batch[0], now) == Success(t);
      assert !t.done;
      assert ProcessMessages(s, batch, now) == ProcessMessages(t, batch[1..], now);
      assert forall i | 0 <= i < |batch[1..]| :: batch[1..][i].RunnableMessage? by {
        forall i | 0 <= i < |batch[1..]| ensures batch[1..][i].RunnableMessage? {
          assert batch[1..][i] == batch[i + 1];
        }
      }
      RunnablesKeepArrivalOrder(t, batch[1..], now);
      assert RunnablesIn(batch) == [batch[0].runnable] + RunnablesIn(batch[1..]);
      assert s.runnables + [batch[0].runnable] + RunnablesIn(batch[1..])
          == s.runnables + RunnablesIn(batch);
    }
  }

  /** Everything queued behind a shutdown in the same batch is discarded unprocessed. */
  lemma {:induction false} ShutdownDiscardsRest(s: Loop, before: seq<Message>, after: seq<Message>, now: int)
    ensures ProcessMessages(s, before + [Shutdown] + after, now) == ProcessMessages(s, before + [Shutdown], now)
    decreases |before|
  {
    var whole := before + [Shutdown] + after;
    var cut := before + [Shutdown];
    if |before| == 0 {
      assert whole[0] == Shutdown && cut[0] == Shutdown;
    } else {
      assert whole[0] == before[0] && cut[0] == before[0];
      var step := HandleMessage(s, before[0], now);
      if step.Success? && !step.value.done {
        assert whole[1..] == before[1..] + [Shutdown] + after;
        assert cut[1..] == before[1..] + [Shutdown];
        ShutdownDiscardsRest(step.value, before[1..], after, now);
      }
    }
  }

  /**
   * `RunPendingRunnables_`'s pass over a swapped-out list: each runnable
   * runs in order, then its completion flag (if any) is set; `spawn(id)` is
   * what runnable `id` itself pushes, which waits on the fresh list.
   */
  function RunAll(batch: seq<Runnable>, spawn: nat -> seq<Runnable>): (r: (seq<nat>, seq<Runnable>, set<nat>))
    ensures |r.0| == |batch| && forall i | 0 <= i < |batch| :: r.0[i] == batch[i].id
    ensures forall f :: f in r.2 <==> exists i | 0 <= i < |batch| :: batch[i].completionFlag == Some(f)
    decreases |batch|
  {
    if |batch| == 0 then ([], [], {})
    else
      var (ids, spawned, flags) := RunAll(batch[1..], spawn);
      var flag := if batch[0].completionFlag.Some? then {batch[0].completionFlag.value} else {};
      assert forall f :: f in flags <==> exists i | 1 <= i < |batch| :: batch[i].completionFlag == Some(f) by {
        forall f ensures f in flags <==> exists i | 1 <= i < |batch| :: batch[i].completionFlag == Some(f) {
          if f in flags {
            var j :| 0 <= j < |batch[1..]| && batch[1..][j].completionFlag == Some(f);
            assert batch[j + 1].completionFlag == Some(f);
          }
          if exists i | 1 <= i < |batch| :: batch[i].completionFlag == Some(f) {
            var j :| 1 <= j < |batch| && batch[j].completionFlag == Some(f);
            assert batch[1..][j - 1].completionFlag == Some(f);
          }
        }
      }
      ([batch[0].id] + ids, spawn(batch[0].id) + spawned, flag + flags)
  }

  /** `RunPendingRunnables_`: swap the list out, run it, and set the completion flags. */
  function RunPendingRunnables(s: Loop, spawn: nat -> seq<Runnable>): (r: Loop)
    ensures |r.ran| == |s.ran| + |s.runnables| && r.ran[..|s.ran|] == s.ran
    ensures forall i | 0 <= i < |s.runnables| :: r.ran[|s.ran| + i] == s.runnables[i].id
    ensures forall f :: f in r.completed <==>
      f in s.completed || exists i | 0 <= i < |s.runnables| :: s.runnables[i].completionFlag == Some(f)
    ensures r.runnables == RunAll(s.runnables, spawn).1
    ensures r.messages == s.messages && r.paused == s.paused && r.done == s.done
  {
    var (ids, spawned, flags) := RunAll(s.runnables, spawn);
    s.(ran := s.ran + ids, runnables := spawned, completed := s.completed + flags)
  }

  /**
   * One iteration of `Run_` at app time `now` (after any wait): drain and
   * process the queue, then, unless paused, run timers and runnables.
   */
  function Cycle(s: Loop, now: int, spawn: nat -> seq<Runnable>): (r: Result<Loop>)
    ensures r.Success? ==> r.value.messages == []
    ensures r.Success? && r.value.paused ==>
      r.value.timerPasses == s.timerPasses && r.value.ran == s.ran && r.value.completed == s.completed
    ensures r.Success? && !r.value.paused ==> r.value.timerPasses == s.timerPasses + 1
  {
    var (batch, drained) := GetThreadMessages(s);
    var processed := ProcessMessages(drained, batch, now);
    if processed.Failure? then processed
    else if processed.value.paused then processed
    else
      var t := processed.value;
      Success(RunPendingRunnables(t.(timerPasses := t.timerPasses + 1), spawn))
  }

  /** `Run_` leaves its loop after a cycle that set `done`, or after one cycle in single-cycle mode. */
  function ExitsAfterCycle(s: Loop, singleCycle: bool): (r: bool)
    ensures singleCycle ==> r
    ensures r <==> s.done || singleCycle
  {
    s.done || singleCycle
  }

  /**
   * A synchronous runnable pushed to a running loop is run, and its flag
   * set, in the next cycle; a runnable it pushes waits for a later cycle.
   */
  lemma SynchronousRunnableCompletes(s: Loop, id: nat, flag: nat, now: int, spawn: nat -> seq<Runnable>)
    requires !s.paused && !s.done && s.messages == [] && s.runnables == []
    requires PushRunnableSynchronous(s, false, id, flag, "").Success?
    ensures var t := PushRunnableSynchronous(s, false, id, flag, "").value;
      Cycle(t, now, spawn).Success?
      && flag in Cycle(t, now, spawn).value.completed
      && Cycle(t, now, spawn).value.ran == s.ran + [id]
      && Cycle(t, now, spawn).value.runnables == spawn(id)
  {
    var t := PushRunnableSynchronous(s, false, id, flag, "").value;
    var batch := [RunnableMessage(Runnable(id, Some(flag)))];
    assert t.messages == batch;
    RunnablesKeepArrivalOrder(t.(messages := []), batch, now);
    assert RunnablesIn(batch) == [Runnable(id, Some(flag))];
    var one := [Runnable(id, Some(flag))];
    assert one[1..] == [];
    assert RunAll(one[1..], spawn) == ([], [], {});
    assert [id] + [] == [id] && spawn(id) + [] == spawn(id) && {flag} + {} == {flag};
    assert RunAll(one, spawn) == ([id], spawn(id), {flag});
    var u := Cycle(t, now, spawn).value;
    assert u.ran[|s.ran|] == id;
    assert u.ran == s.ran + [id];
  }

  /**
   * A runnable pushed to an idle running loop, from its own thread or from
   * another, is run in the next cycle, and what it pushes waits for a later one.
   */
  lemma PushedRunnableRunsNextCycle(s: Loop, onOwnThread: bool, id: nat, now: int, spawn: nat -> seq<Runnable>)
    requires !s.paused && !s.done && s.messages == [] && s.runnables == []
    requires PushRunnable(s, onOwnThread, id, "").Success?
    ensures var t := PushRunnable(s, onOwnThread, id, "").value;
      Cycle(t, now, spawn).Success?
      && Cycle(t, now, spawn).value.ran == s.ran + [id]
      && Cycle(t, now, spawn).value.runnables == spawn(id)
      && Cycle(t, now, spawn).value.completed == s.completed
  {
    var t := PushRunnable(s, onOwnThread, id, "").value;
    var one := [Runnable(id, None)];
    assert one[1..] == [];
    assert RunAll(one[1..], spawn) == ([], [], {});
    assert [id] + [] == [id] && spawn(id) + [] == spawn(id);
    var none: set<nat> := {};
    assert RunAll(one, spawn) == ([id], spawn(id), none + none);
    if !onOwnThread {
      var batch := [RunnableMessage(Runnable(id, None))];
      assert t.messages == batch;
      RunnablesKeepArrivalOrder(t.(messages := []), batch, now);
      assert RunnablesIn(batch) == one;
    }
    var u := Cycle(t, now, spawn).value;
    assert u.ran[|s.ran|] == id;
    assert u.ran == s.ran + [id];
  }

  /** A push from another thread that `CheckPushSafety` allows, at a threshold up to 10000, cannot be fatal. */
  lemma SafePushSucceeds(s: Loop, m: Message, threadName: string, threshold: int)
    requires threshold <= OverflowFatalThreshold
    requires CheckPushSafety(s, false, threshold)
    ensures PushThreadMessage(s, m, threadName).Success?
  {
  }

  /** Any successful push wakes the loop: it will not wait with a message queued. */
  lemma PushWakesLoop(s: Loop, m: Message, threadName: string, singleCycle: bool, activeTimers: nat, timeToNextExpire: int)
    requires PushThreadMessage(s, m, threadName).Success?
    ensures NextWait(PushThreadMessage(s, m, threadName).value.0, singleCycle, activeTimers, timeToNextExpire) == NoWait
  {
  }

  /** A quit main-thread loop leaves `Run_` after its next cycle; quitting any other loop changes nothing. */
  lemma QuitEndsRun(s: Loop, now: int, spawn: nat -> seq<Runnable>)
    requires s.messages == []
    ensures Quit(s, false) == s
    ensures Cycle(Quit(s, true), now, spawn).Success?
    ensures ExitsAfterCycle(Cycle(Quit(s, true), now, spawn).value, false)
  {
    var q := Quit(s, true);
    assert GetThreadMessages(q) == ([], q);
    assert ProcessMessages(q, [], now) == Success(q);
  }

  /** While paused, a cycle still drains messages but runs no runnables. */
  lemma PausedLoopRunsNothing(s: Loop, now: int, spawn: nat -> seq<Runnable>)
    requires s.paused && !s.done
    requires forall i | 0 <= i < |s.messages| :: s.messages[i].RunnableMessage?
    ensures Cycle(s, now, spawn) == Success(s.(messages := [], runnables := s.runnables + RunnablesIn(s.messages)))
  {
    RunnablesKeepArrivalOrder(s.(messages := []), s.messages, now);
  }
}

=== FILE: graphics.dfy ===
/**
 * `Graphics`' logic-thread bookkeeping: the frame-def recycle pool, the
 * per-frame build step, the two screen-message queues, the fade state
 * machine, the overlay z-depth counter and the field defaults.
 */
module Graphics {
  import opened Wrappers
  import Seqs
  import GraphicsMath

  // ------------------------------------------------------- frame-def pool

  /** Frame defs are objects; `nat` stands for each one's identity. */
  datatype FramePool = FramePool(recycled: seq<nat>, deleteList: seq<nat>, nextFresh: nat)

  const RecycleCap := 5

  /** No frame def is allocated with an identity the pool may still hand out. */
  predicate PoolValid(p: FramePool) {
    |p.recycled| <= RecycleCap
    && (forall i | 0 <= i < |p.recycled| :: p.recycled[i] < p.nextFresh)
    && (forall i | 0 <= i < |p.deleteList| :: p.deleteList[i] < p.nextFresh)
  }

  /** `GetEmptyFrameDef`: reuse the most recently recycled def, else allocate a new one. */
  function GetEmptyFrameDef(p: FramePool): (r: (nat, FramePool))
    ensures |p.recycled| > 0 ==>
      r.0 == p.recycled[|p.recycled| - 1] && r.1.recycled + [r.0] == p.recycled
      && r.1.deleteList == p.deleteList && r.1.nextFresh == p.nextFresh
    ensures |p.recycled| == 0 ==>
      r.0 == p.nextFresh && r.1 == p.(nextFresh := p.nextFresh + 1)
    ensures PoolValid(p) ==> PoolValid(r.1) && r.0 < r.1.nextFresh
  {
    if |p.recycled| > 0 then
      var last := |p.recycled| - 1;
      (p.recycled[last], p.(recycled := p.recycled[..last]))
    else (p.nextFresh, p.(nextFresh := p.nextFresh + 1))
  }

  /** `ReturnCompletedFrameDef`: a rendered def waits on the delete list. */
  function ReturnCompletedFrameDef(p: FramePool, def: nat): (r: FramePool)
    ensures r.deleteList == p.deleteList + [def]
    ensures r.recycled == p.recycled && r.nextFresh == p.nextFresh
    ensures PoolValid(p) && def < p.nextFresh ==> PoolValid(r)
  {
    p.(deleteList := p.deleteList + [def])
  }

  /** How many of `n` returned defs the pool keeps when it already holds `held`. */
  function Kept(held: nat, n: nat): (k: nat)
    ensures k <= n
  {
    if held >= RecycleCap then 0 else if n < RecycleCap - held then n else RecycleCap - held
  }

  /** The loop of `ClearFrameDefDeleteList` over `pending`: recycle while there is room, delete the rest. */
  function RecycleOrDelete(recycled: seq<nat>, pending: seq<nat>): (r: (seq<nat>, seq<nat>))
    ensures r.0 == recycled + pending[..Kept(|recycled|, |pending|)]
    ensures r.1 == pending[Kept(|recycled|, |pending|)..]
    decreases |pending|
  {
    if |pending| == 0 then (recycled, [])
    else if |recycled| < RecycleCap then
      var k := Kept(|recycled|, |pending|);
      assert k >= 1 && Kept(|recycled| + 1, |pending| - 1) == k - 1;
      var rest := RecycleOrDelete(recycled + [pending[0]], pending[1..]);
      RecycleStep(recycled, pending, k, rest.0, rest.1);
      rest
    else
      assert Kept(|recycled|, |pending|) == 0 && Kept(|recycled|, |pending| - 1) == 0;
      var rest := RecycleOrDelete(recycled, pending[1..]);
      assert rest.0 == recycled + pending[..0];
      assert [pending[0]] + rest.1 == pending;
      (rest.0, [pending[0]] + rest.1)
  }

  /** Recycling the first pending def and then `k - 1` more recycles the first `k`. */
  lemma RecycleStep(recycled: seq<nat>, pending: seq<nat>, k: nat, kept: seq<nat>, deleted: seq<nat>)
    requires 1 <= k <= |pending|
    requires kept == (recycled + [pending[0]]) + pending[1..][..k - 1]
    requires deleted == pending[1..][k - 1..]
    ensures kept == recycled + pending[..k] && deleted == pending[k..]
  {
    assert pending[..k] == [pending[0]] + pending[1..][..k - 1];
  }

  /**
   * `ClearFrameDefDeleteList`: returns the pool and the defs that were
   * deleted, in list order. The delete list always ends up empty.
   */
  function ClearFrameDefDeleteList(p: FramePool): (r: (FramePool, seq<nat>))
    ensures r.0.deleteList == [] && r.0.nextFresh == p.nextFresh
    ensures |r.0.recycled| == |p.recycled| + Kept(|p.recycled|, |p.deleteList|)
    ensures r.0.recycled + r.1 == p.recycled + p.deleteList
    ensures |p.recycled| <= RecycleCap ==> |r.0.recycled| <= RecycleCap
    ensures PoolValid(p) ==> PoolValid(r.0)
  {
    var (kept, deleted) := RecycleOrDelete(p.recycled, p.deleteList);
    var k := Kept(|p.recycled|, |p.deleteList|);
    assert p.deleteList == p.deleteList[..k] + p.deleteList[k..];
    (FramePool(kept, [], p.nextFresh), deleted)
  }

  // ------------------------------------------------------ frame building

  datatype FrameDef = FrameDef(
    id: nat,
    frameNumber: int,
    displayTimeMillisecs: int,
    elapsedMillisecs: int,
    meshCreates: seq<nat>,
    meshDestroys: seq<nat>)

  /** The six per-frame blotch buffers (indices and vertices for plain, soft and soft-object). */
  datatype Blotches = Blotches(
    indices: seq<int>, verts: seq<GraphicsMath.Vertex>,
    softIndices: seq<int>, softVerts: seq<GraphicsMath.Vertex>,
    softObjIndices: seq<int>, softObjVerts: seq<GraphicsMath.Vertex>)

  const NoBlotches := Blotches([], [], [], [], [], [])

  datatype FrameState = FrameState(
    building: bool,
    frameDefCount: int,
    lastCreateFrameDefTime: int,
    pool: FramePool,
    meshCreates: seq<nat>,
    meshDestroys: seq<nat>,
    blotches: Blotches)

  const MaxElapsed := 50

  /** `AddMeshDataCreate`. */
  function AddMeshDataCreate(s: FrameState, mesh: nat): (r: FrameState)
    ensures r.meshCreates == s.meshCreates + [mesh] && r == s.(meshCreates := r.meshCreates)
  {
    s.(meshCreates := s.meshCreates + [mesh])
  }

  /** `AddMeshDataDestroy`. */
  function AddMeshDataDestroy(s: FrameState, mesh: nat): (r: FrameState)
    ensures r.meshDestroys == s.meshDestroys + [mesh] && r == s.(meshDestroys := r.meshDestroys)
  {
    s.(meshDestroys := s.meshDestroys + [mesh])
  }

  /**
   * The bookkeeping of `BuildAndPushFrameDef` at display time `displayMs`:
   * numbers a def from the pool, stamps its elapsed time (at most 50 ms),
   * moves the accumulated mesh creates/destroys into it, then recycles the
   * returned defs and clears the blotch buffers. Returns the state and the
   * def handed to the graphics server.
   */
  function BuildAndPushFrameDef(s: FrameState, displayMs: int): (r: (FrameState, FrameDef))
    requires !s.building
    ensures !r.0.building
    ensures r.1.frameNumber == s.frameDefCount && r.0.frameDefCount == s.frameDefCount + 1
    ensures r.1.elapsedMillisecs <= MaxElapsed
    ensures r.1.elapsedMillisecs == MaxElapsed || r.1.elapsedMillisecs == displayMs - s.lastCreateFrameDefTime
    ensures r.0.lastCreateFrameDefTime == displayMs && r.1.displayTimeMillisecs == displayMs
    ensures r.1.meshCreates == s.meshCreates && r.1.meshDestroys == s.meshDestroys
    ensures r.0.meshCreates == [] && r.0.meshDestroys == [] && r.0.blotches == NoBlotches
    ensures r.0.pool.deleteList == []
    ensures PoolValid(s.pool) ==> PoolValid(r.0.pool) && r.1.id < r.0.pool.nextFresh
    ensures |s.pool.recycled| > 0 ==> r.1.id == s.pool.recycled[|s.pool.recycled| - 1]
    ensures |s.pool.recycled| == 0 ==> r.1.id == s.pool.nextFresh
  {
    var diff := displayMs - s.lastCreateFrameDefTime;
    var elapsed := if MaxElapsed < diff then MaxElapsed else diff;
    var (id, pool1) := GetEmptyFrameDef(s.pool);
    var def := FrameDef(id, s.frameDefCount, displayMs, elapsed, s.meshCreates, s.meshDestroys);
    var (pool2, _) := ClearFrameDefDeleteList(pool1);
    (FrameState(false, s.frameDefCount + 1, displayMs, pool2, [], [], NoBlotches), def)
  }

  /** Consecutive builds hand out consecutive frame numbers. */
  lemma FrameNumbersAreConsecutive(s: FrameState, t1: int, t2: int)
    requires !s.building
    ensures var (s1, d1) := BuildAndPushFrameDef(s, t1);
      BuildAndPushFrameDef(s1, t2).1.frameNumber == d1.frameNumber + 1
  {
  }

  /** A def returned between two builds is what the next build reuses while the pool had room. */
  lemma ReturnedDefIsReused(s: FrameState, t1: int, def: nat, t2: int)
    requires !s.building && |s.pool.recycled| == 0 && |s.pool.deleteList| == 0
    ensures var (s1, _) := BuildAndPushFrameDef(s, t1);
      var s2 := s1.(pool := ReturnCompletedFrameDef(s1.pool, def));
      var (s3, _) := BuildAndPushFrameDef(s2, t2);
      BuildAndPushFrameDef(s3, t2 + 1).1.id == def
  {
    var (s1, _) := BuildAndPushFrameDef(s, t1);
    var s2 := s1.(pool := ReturnCompletedFrameDef(s1.pool, def));
    var (s3, _) := BuildAndPushFrameDef(s2, t2);
    assert s3.pool.recycled == [def];
  }

  // ----------------------------------------------------- screen messages

  datatype ScreenMessage = ScreenMessage(text: string, creationTime: int, vSmoothed: real)

  const MessageLifetime := 5000
  const BottomMessageCap := 4
  const TopMessageCap := 6

  /** The messages created at or after `cutoff`, in their original order. */
  function DropOlderThan(msgs: seq<ScreenMessage>, cutoff: int): (r: seq<ScreenMessage>)
    ensures |r| <= |msgs|
    ensures (forall i | 0 <= i < |msgs| :: msgs[i].creationTime >= cutoff) ==> r == msgs
    decreases |msgs|
  {
    if |msgs| == 0 then []
    else
      var rest := DropOlderThan(msgs[1..], cutoff);
      assert msgs == [msgs[0]] + msgs[1..];
      if msgs[0].creationTime < cutoff then rest else [msgs[0]] + rest
  }

  /** Exactly the messages created at or after the cutoff survive the filter. */
  lemma {:induction false} DropOlderThanMembers(msgs: seq<ScreenMessage>, cutoff: int)
    ensures forall m :: m in DropOlderThan(msgs, cutoff) <==> m in msgs && m.creationTime >= cutoff
    decreases |msgs|
  {
    if |msgs| > 0 {
      DropOlderThanMembers(msgs[1..], cutoff);
      assert msgs == [msgs[0]] + msgs[1..];
    }
  }

  /** The messages the lifetime rule leaves in a queue at app time `now`. */
  function Recent(msgs: seq<ScreenMessage>, now: int): seq<ScreenMessage> {
    if |msgs| > 0 && now > MessageLifetime then DropOlderThan(msgs, now - MessageLifetime) else msgs
  }

  /**
   * The trimming `DrawMiscOverlays` applies to one queue at app time `now`:
   * once the app has run more than five seconds, messages older than five
   * seconds go; then the oldest are dropped down to `cap`.
   */
  function TrimScreenMessages(msgs: seq<ScreenMessage>, now: int, cap: nat): (r: seq<ScreenMessage>)
    ensures |r| <= cap
    ensures forall m | m in r :: m in msgs
    ensures now > MessageLifetime ==> forall m | m in r :: m.creationTime >= now - MessageLifetime
    ensures now <= MessageLifetime ==> r == Seqs.KeepNewest(msgs, cap)
    ensures (forall i | 0 <= i < |msgs| :: msgs[i].creationTime >= now - MessageLifetime) ==>
      r == Seqs.KeepNewest(msgs, cap)
  {
    var recent := Recent(msgs, now);
    var r := Seqs.KeepNewest(recent, cap);
    DropOlderThanMembers(msgs, now - MessageLifetime);
    assert forall m | m in r :: m in recent;
    r
  }

  /** `AddScreenMessage` for the top queue: new entries start just above the previous one. */
  function AddTopScreenMessage(top: seq<ScreenMessage>, text: string, now: int): (r: seq<ScreenMessage>)
    ensures |r| == |top| + 1 && r[..|top|] == top
    ensures r[|top|].text == text && r[|top|].creationTime == now
    ensures -100.0 <= r[|top|].vSmoothed <= -40.0
    ensures |top| == 0 || -15.0 <= top[|top| - 1].vSmoothed ==> r[|top|].vSmoothed == -40.0
    ensures |top| > 0 && -75.0 <= top[|top| - 1].vSmoothed <= -15.0 ==>
      r[|top|].vSmoothed == top[|top| - 1].vSmoothed - 25.0
  {
    var startV :=
      if |top| == 0 then -40.0
      else
        var below := top[|top| - 1].vSmoothed - 25.0;
        var clamped := if below < -100.0 then -100.0 else below;
        if clamped < -40.0 then clamped else -40.0;
    top + [ScreenMessage(text, now, startV)]
  }

  /** `AddScreenMessage` for the bottom queue. */
  function AddBottomScreenMessage(bottom: seq<ScreenMessage>, text: string, now: int): (r: seq<ScreenMessage>)
    ensures |r| == |bottom| + 1 && r[..|bottom|] == bottom
    ensures r[|bottom|].text == text && r[|bottom|].creationTime == now
  {
    bottom + [ScreenMessage(text, now, 0.0)]
  }

  /** `Reset`: the fade restarts and the top queue (whose entries may hold textures) empties. */
  function Reset(f: FadeState, top: seq<ScreenMessage>): (r: (FadeState, seq<ScreenMessage>))
    ensures r.0.fade == 0.0 && r.0.fadeStart == 0 && r.1 == []
    ensures r.0 == f.(fade := 0.0, fadeStart := 0)
  {
    (f.(fade := 0.0, fadeStart := 0), [])
  }

  /** A message just added survives the next trim and stays the newest entry. */
  lemma NewMessageSurvivesTrim(msgs: seq<ScreenMessage>, text: string, now: int, cap: nat)
    requires cap >= 1
    ensures var r := TrimScreenMessages(AddBottomScreenMessage(msgs, text, now), now, cap);
      |r| > 0 && r[|r| - 1] == ScreenMessage(text, now, 0.0)
  {
    var added := AddBottomScreenMessage(msgs, text, now);
    TrimKeepsRecentLast(added, now, cap);
  }

  /** A queue whose last message is within the lifetime keeps that message last through a trim. */
  lemma TrimKeepsRecentLast(msgs: seq<ScreenMessage>, now: int, cap: nat)
    requires cap >= 1 && |msgs| > 0 && msgs[|msgs| - 1].creationTime >= now - MessageLifetime
    ensures var r := TrimScreenMessages(msgs, now, cap); |r| > 0 && r[|r| - 1] == msgs[|msgs| - 1]
  {
    var n := |msgs| - 1;
    var recent := Recent(msgs, now);
    if now > MessageLifetime {
      var front := DropOlderThan(msgs[..n], now - MessageLifetime);
      assert msgs[..n] + [msgs[n]] == msgs;
      DropAppended(msgs[..n], msgs[n], now - MessageLifetime);
      assert recent == front + [msgs[n]];
    }
    assert recent[|recent| - 1] == msgs[n];
    assert TrimScreenMessages(msgs, now, cap) == Seqs.KeepNewest(recent, cap);
    Seqs.KeepNewestKeepsLast(recent, cap);
  }

  /** Filtering a queue with one more message at its back filters the rest and keeps that one if it is recent. */
  lemma {:induction false} DropAppended(msgs: seq<ScreenMessage>, m: ScreenMessage, cutoff: int)
    ensures DropOlderThan(msgs + [m], cutoff)
      == DropOlderThan(msgs, cutoff) + (if m.creationTime < cutoff then [] else [m])
    decreases |msgs|
  {
    var tail := if m.creationTime < cutoff then [] else [m];
    if |msgs| == 0 {
      assert msgs + [m] == [m];
      assert [m][1..] == [];
      assert DropOlderThan([m], cutoff) == tail;
    } else {
      var both := msgs + [m];
      assert both[0] == msgs[0];
      assert both[1..] == msgs[1..] + [m];
      DropAppended(msgs[1..], m, cutoff);
      var rest := DropOlderThan(msgs[1..], cutoff);
      if msgs[0].creationTime < cutoff {
        assert DropOlderThan(both, cutoff) == rest + tail;
      } else {
        assert DropOlderThan(both, cutoff) == [msgs[0]] + (rest + tail);
        assert [msgs[0]] + (rest + tail) == ([msgs[0]] + rest) + tail;
      }
    }
  }

  // ------------------------------------------------------------------ fades

  /** Fade state; `endCall` is the pending Python end-call, by identity. */
  datatype FadeState = FadeState(
    fade: real,
    fadeOut: bool,
    fadeStart: int,
    fadeTime: int,
    setStartOnNextDraw: bool,
    endCall: Option<nat>)

  const InitialFade := FadeState(0.0, true, 0, 0, false, None)
  const StuckFadeTimeout := 15000

  /**
   * `FadeScreen`: a still-pending end-call is scheduled (and dropped) first
   * so overlapping fades lose nothing; then the new fade starts at 1.
   * Returns the state and the calls scheduled now.
   */
  function FadeScreen(f: FadeState, to: bool, time: int, endCall: Option<nat>): (r: (FadeState, seq<nat>))
    ensures r.1 == (if f.endCall.Some? then [f.endCall.value] else [])
    ensures r.0.fade == 1.0 && r.0.fadeOut == !to && r.0.fadeTime == time
    ensures r.0.setStartOnNextDraw && r.0.endCall == endCall && r.0.fadeStart == f.fadeStart
  {
    var scheduled := if f.endCall.Some? then [f.endCall.value] else [];
    (FadeState(1.0, !to, f.fadeStart, time, true, endCall), scheduled)
  }

  /** The stuck-fade guard at the top of `DrawFades`. */
  function UnstickFade(f: FadeState, now: int): (r: FadeState)
    ensures f.fade <= 0.0 && f.fadeOut && now - (f.fadeStart + f.fadeTime) > StuckFadeTimeout ==>
      r == f.(fadeOut := false, fade := 1.0, fadeTime := 1000, fadeStart := now)
    ensures !(f.fade <= 0.0 && f.fadeOut && now - (f.fadeStart + f.fadeTime) > StuckFadeTimeout) ==> r == f
  {
    if f.fade <= 0.0 && f.fadeOut && now - (f.fadeStart + f.fadeTime) > StuckFadeTimeout then
      f.(fadeOut := false, fade := 1.0, fadeTime := 1000, fadeStart := now)
    else f
  }

  /** A part of a positive whole, strictly between nothing and all of it, is a fraction strictly between 0 and 1. */
  lemma FractionInUnitInterval(part: real, whole: real)
    requires 0.0 < part < whole
    ensures 0.0 < part / whole < 1.0
  {
    var q := part / whole;
    assert q * whole == part;
    if q <= 0.0 || q >= 1.0 {
      // `q * whole` would then be at most 0 or at least `whole`.
      assert false;
    }
  }

  /**
   * `DrawFades` at real time `now`: advances the fade and schedules the
   * end-call exactly when the fade reaches 0, clearing it so it cannot run
   * twice. Returns the state and the calls scheduled now.
   */
  function DrawFades(f: FadeState, now: int): (r: (FadeState, seq<nat>))
    ensures r.0.endCall == None || r.0.endCall == f.endCall
    ensures |r.1| <= 1
    ensures |r.1| == 1 ==> f.endCall.Some? && r.1 == [f.endCall.value] && r.0.endCall == None && r.0.fade == 0.0
    ensures 0.0 <= f.fade <= 1.0 ==> 0.0 <= r.0.fade <= 1.0
    ensures UnstickFade(f, now).fade <= 0.0 ==> r == (UnstickFade(f, now), [])
  {
    var g := UnstickFade(f, now);
    if g.fade > 0.0 then
      var start := if g.setStartOnNextDraw then now else g.fadeStart;
      var h := g.(setStartOnNextDraw := false, fadeStart := start);
      if now <= start then (h.(fade := 1.0), [])
      else if now - start < h.fadeTime then
        var progress := (now - start) as real / h.fadeTime as real;
        FractionInUnitInterval((now - start) as real, h.fadeTime as real);
        var v := 1.0 - progress;
        (h.(fade := if v <= 0.0 then 0.00001 else v), [])
      else if h.endCall.Some? then (h.(fade := 0.0, endCall := None), [h.endCall.value])
      else (h.(fade := 0.0), [])
    else (g, [])
  }

  /** Runs `DrawFades` at each time in `times`, collecting the calls scheduled. */
  function DrawFadesMany(f: FadeState, times: seq<int>): (FadeState, seq<nat>)
    decreases |times|
  {
    if |times| == 0 then (f, [])
    else
      var (g, now) := DrawFades(f, times[0]);
      var (h, later) := DrawFadesMany(g, times[1..]);
      (h, now + later)
  }

  /** However many frames are drawn, a fade's end-call is scheduled at most once, and only the pending one. */
  lemma {:induction false} EndCallRunsAtMostOnce(f: FadeState, times: seq<int>)
    ensures var calls := DrawFadesMany(f, times).1;
      |calls| <= 1 && (|calls| == 1 ==> f.endCall.Some? && calls == [f.endCall.value])
    ensures f.endCall.None? ==> DrawFadesMany(f, times).1 == []
    decreases |times|
  {
    if |times| > 0 {
      var (g, now) := DrawFades(f, times[0]);
      EndCallRunsAtMostOnce(g, times[1..]);
    }
  }

  // ------------------------------------------------------ overlay z-depth

  datatype OverlayDepth = OverlayDepth(depth: real, fetched: bool)

  /** `overlay_node_z_depth()`: reading the depth marks it as used by the current node. */
  function FetchOverlayNodeZDepth(z: OverlayDepth): (r: (real, OverlayDepth))
    ensures r.0 == z.depth && r.1 == OverlayDepth(z.depth, true)
  {
    (z.depth, z.(fetched := true))
  }

  function PreNodeDraw(z: OverlayDepth): (r: OverlayDepth)
    ensures r == OverlayDepth(z.depth, false)
  {
    z.(fetched := false)
  }

  /** `PostNodeDraw`: only a node that used the depth pushes later nodes 1% closer. */
  function PostNodeDraw(z: OverlayDepth): (r: OverlayDepth)
    ensures z.fetched ==> r.depth == z.depth * 0.99
    ensures !z.fetched ==> r == z
  {
    if z.fetched then z.(depth := z.depth * 0.99) else z
  }

  /** `DrawWorld` restarts the overlay depth here before the nodes draw. */
  const WorldOverlayStartDepth := -0.95

  /**
   * Overlay depths are negative: a node that fetched the depth moves later
   * nodes strictly nearer to 0 (and so in front), one that did not leaves it.
   */
  lemma NodeDrawAdvancesDepthOnlyWhenFetched(z: OverlayDepth, fetches: bool)
    requires z.depth < 0.0
    ensures var pre := PreNodeDraw(z);
      var during := if fetches then FetchOverlayNodeZDepth(pre).1 else pre;
      var post := PostNodeDraw(during);
      (fetches ==> z.depth < post.depth < 0.0) && (!fetches ==> post.depth == z.depth)
  {
  }

  // ------------------------------------------------------------- defaults

  /** The fields of a freshly constructed `Graphics` that this model covers. */
  datatype Defaults = Defaults(
    frames: FrameState, fades: FadeState, shadow: GraphicsMath.ShadowRange,
    resX: real, resY: real, resVirtualX: real, resVirtualY: real, progressBarEndTime: int)

  const InitialGraphics := Defaults(
    FrameState(false, 1, 0, FramePool([], [], 0), [], [], NoBlotches),
    InitialFade, GraphicsMath.DefaultShadowRange, 100.0, 100.0, 100.0, 100.0, -9999)

  /** A new `Graphics` starts numbering frames at 1, faded out, with a valid shadow range and pool. */
  lemma DefaultsAreConsistent()
    ensures InitialGraphics.frames.frameDefCount == 1 && !InitialGraphics.frames.building
    ensures InitialGraphics.fades.fadeOut
    ensures GraphicsMath.ShadowRangeOrdered(InitialGraphics.shadow)
    ensures PoolValid(InitialGraphics.frames.pool)
  {
  }
}

=== FILE: graphics_config.dfy ===
/**
 * The string-valued graphics settings and how `Graphics` decodes them: the
 * texture/graphics quality and vertical-sync config entries, and the
 * reflection-type names used by assets and scripts.
 */
module GraphicsConfig {
  import opened BaseTypes
  import opened Wrappers

  // ------------------------------------------------------- quality settings

  /** `DoApplyAppConfig`'s reading of the "Texture Quality" entry (unknown text means low). */
  function TextureQualityFromConfig(s: string): (r: TextureQualityRequest)
    ensures r != TRUnset
    ensures r == TRAuto <==> s == "Auto"
    ensures r == TRHigh <==> s == "High"
    ensures r == TRMedium <==> s == "Medium"
    ensures r == TRLow <==> s != "Auto" && s != "High" && s != "Medium"
  {
    if s == "Auto" then TRAuto
    else if s == "High" then TRHigh
    else if s == "Medium" then TRMedium
    else if s == "Low" then TRLow
    else TRLow
  }

  /** The config text naming each settable texture quality request. */
  function TextureQualityConfigName(q: TextureQualityRequest): string
    requires q != TRUnset
  {
    match q
    case TRAuto => "Auto"
    case TRHigh => "High"
    case TRMedium => "Medium"
    case TRLow => "Low"
  }

  lemma TextureQualityRoundTrip(q: TextureQualityRequest)
    requires q != TRUnset
    ensures TextureQualityFromConfig(TextureQualityConfigName(q)) == q
  {
  }

  /** `DoApplyAppConfig`'s reading of the "Graphics Quality" entry (unknown text means auto). */
  function GraphicsQualityFromConfig(s: string): (r: GraphicsQualityRequest)
    ensures r != GRUnset
    ensures r == GRHigher <==> s == "Higher"
    ensures r == GRHigh <==> s == "High"
    ensures r == GRMedium <==> s == "Medium"
    ensures r == GRLow <==> s == "Low"
    ensures r == GRAuto <==> s != "Higher" && s != "High" && s != "Medium" && s != "Low"
  {
    if s == "Auto" then GRAuto
    else if s == "Higher" then GRHigher
    else if s == "High" then GRHigh
    else if s == "Medium" then GRMedium
    else if s == "Low" then GRLow
    else GRAuto
  }

  function GraphicsQualityConfigName(q: GraphicsQualityRequest): string
    requires q != GRUnset
  {
    match q
    case GRAuto => "Auto"
    case GRHigher => "Higher"
    case GRHigh => "High"
    case GRMedium => "Medium"
    case GRLow => "Low"
  }

  lemma GraphicsQualityRoundTrip(q: GraphicsQualityRequest)
    requires q != GRUnset
    ensures GraphicsQualityFromConfig(GraphicsQualityConfigName(q)) == q
  {
  }

  /** The "Vertical Sync" entry as (v-sync on, automatic v-sync). */
  function VSyncFromConfig(s: string): (r: (bool, bool))
    ensures r.1 ==> r.0
    ensures r == (true, true) <==> s == "Auto"
    ensures r == (true, false) <==> s == "Always"
    ensures r == (false, false) <==> s != "Auto" && s != "Always"
  {
    if s == "Auto" then (true, true)
    else if s == "Always" then (true, false)
    else if s == "Never" then (false, false)
    else (false, false)
  }

  /** The config text for each reachable (v-sync on, automatic) setting. */
  function VSyncConfigName(v: (bool, bool)): string
    requires v.1 ==> v.0
  {
    if v.1 then "Auto" else if v.0 then "Always" else "Never"
  }

  /** Writing a v-sync setting and reading it back gives the same setting. */
  lemma VSyncRoundTrip(v: (bool, bool))
    requires v.1 ==> v.0
    ensures VSyncFromConfig(VSyncConfigName(v)) == v
  {
  }

  // -------------------------------------------------------- reflection types

  /** The reflection-type names `ReflectionTypeFromString` recognises, besides the empty string. */
  predicate IsReflectionName(s: string) {
    s == "soft" || s == "char" || s == "powerup" || s == "sharp" || s == "sharper"
    || s == "sharpest" || s == "none"
  }

  /** `StringFromReflectionType`; every enumerator has a name, so the throwing default is dead. */
  function StringFromReflectionType(r: ReflectionType): (s: string)
    ensures IsReflectionName(s)
    ensures ReflectionTypeFromString(s) == Success(r)
  {
    match r
    case RSoft => "soft"
    case RChar => "char"
    case RPowerup => "powerup"
    case RSharp => "sharp"
    case RSharper => "sharper"
    case RSharpest => "sharpest"
    case RNone => "none"
  }

  /** `ReflectionTypeFromString`: an empty string also means none; anything else throws. */
  function ReflectionTypeFromString(s: string): (r: Result<ReflectionType>)
    ensures r.Success? <==> s == "" || IsReflectionName(s)
    ensures r.Failure? ==> r.error == "invalid reflection type: '" + s + "'"
    ensures s == "" ==> r == Success(RNone)
  {
    if s == "soft" then Success(RSoft)
    else if s == "char" then Success(RChar)
    else if s == "powerup" then Success(RPowerup)
    else if s == "sharp" then Success(RSharp)
    else if s == "sharper" then Success(RSharper)
    else if s == "sharpest" then Success(RSharpest)
    else if s == "" || s == "none" then Success(RNone)
    else Failure("invalid reflection type: '" + s + "'")
  }

  /** Parsing then printing gives back the canonical name; only the empty string is not canonical. */
  lemma ReflectionNameRoundTrip(s: string)
    requires ReflectionTypeFromString(s).Success?
    ensures StringFromReflectionType(ReflectionTypeFromString(s).value) == (if s == "" then "none" else s)
  {
  }

  /** `CubeMapFromReflectionType`: the six reflecting types have cube maps; none throws. */
  function CubeMapFromReflectionType(r: ReflectionType): (c: Result<CubeMap>)
    ensures c.Failure? <==> r == RNone
  {
    match r
    case RChar => Success(ReflectionChar)
    case RPowerup => Success(ReflectionPowerup)
    case RSoft => Success(ReflectionSoft)
    case RSharp => Success(ReflectionSharp)
    case RSharper => Success(ReflectionSharper)
    case RSharpest => Success(ReflectionSharpest)
    case RNone => Failure("")
  }

  /** Distinct reflection types never share a cube map. */
  lemma CubeMapInjective(a: ReflectionType, b: ReflectionType)
    requires CubeMapFromReflectionType(a).Success? && CubeMapFromReflectionType(a) == CubeMapFromReflectionType(b)
    ensures a == b
  {
  }
}

=== FILE: graphics_math.dfy ===
/**
 * The small numeric helpers of `Graphics`, over reals (the source uses
 * `float`; no claim is made about rounding): safe text colours, shadow
 * density bands, pixel-to-virtual coordinate mapping and blotch geometry.
 */
module GraphicsMath {

  // ------------------------------------------------------------ safe colour

  datatype Color = Color(r: real, g: real, b: real)

  /** The luma weights `GetSafeColor` uses. */
  function Luma(c: Color): real {
    0.2989 * c.r + 0.5870 * c.g + 0.1140 * c.b
  }

  function Min1(x: real): real {
    if x < 1.0 then x else 1.0
  }

  function Max(a: real, b: real): real {
    if a < b then b else a
  }

  predicate AtMostOne(c: Color) {
    c.r <= 1.0 && c.g <= 1.0 && c.b <= 1.0
  }

  predicate InUnitCube(c: Color) {
    0.0 <= c.r <= 1.0 && 0.0 <= c.g <= 1.0 && 0.0 <= c.b <= 1.0
  }

  /** First step: scale a too-dark colour toward the target intensity, clamping channels at 1. */
  function ScaleToTarget(c: Color, target: real): (r: Color)
    ensures Luma(c) < target ==> AtMostOne(r)
    ensures Luma(c) >= target ==> r == c
  {
    var intensity := Luma(c);
    if intensity < target then
      var s := target / Max(0.001, intensity);
      Color(Min1(c.r * s), Min1(c.g * s), Min1(c.b * s))
    else c
  }

  /** Channels all at most 1 put the luma below 1 (the weights sum to 0.9999). */
  lemma LumaOfClampedBelowOne(c: Color)
    requires AtMostOne(c)
    ensures Luma(c) < 1.0
  {
  }

  /** Second step: up to `n` passes that spread luma above 1 over all channels as grey. */
  function GreyPasses(c: Color, n: nat): Color
    decreases n
  {
    if n == 0 then c
    else
      var remaining := Luma(c) - 1.0;
      if remaining > 0.0 then
        GreyPasses(Color(Min1(c.r + 0.2989 * remaining), Min1(c.g + 0.5870 * remaining),
                         Min1(c.b + 0.1140 * remaining)), n - 1)
      else c
  }

  /** The grey loop never fires on a colour whose luma is at most 1. */
  lemma {:induction false} GreyPassesIdleAtOrBelowOne(c: Color, n: nat)
    requires Luma(c) <= 1.0
    ensures GreyPasses(c, n) == c
  {
  }

  /**
   * However many passes are allowed, the loop does its work in the first:
   * one pass clamps every channel to at most 1, after which the luma is
   * below 1 and the loop breaks.
   */
  lemma {:induction false} GreyPassesSettleAfterOne(c: Color, n: nat)
    requires n >= 1
    ensures GreyPasses(c, n) == GreyPasses(c, 1)
    ensures Luma(c) > 1.0 ==> AtMostOne(GreyPasses(c, n))
  {
    var remaining := Luma(c) - 1.0;
    if remaining > 0.0 {
      var next := Color(Min1(c.r + 0.2989 * remaining), Min1(c.g + 0.5870 * remaining),
                        Min1(c.b + 0.1140 * remaining));
      LumaOfClampedBelowOne(next);
      GreyPassesIdleAtOrBelowOne(next, n - 1);
      GreyPassesIdleAtOrBelowOne(next, 0);
    }
  }

  /**
   * `GetSafeColor`: a colour is changed only when it is darker than the
   * target or brighter than luma 1, and then every channel ends at most 1.
   */
  function GetSafeColor(c: Color, target: real): (r: Color)
    ensures (Luma(c) < target || Luma(c) > 1.0) ==> AtMostOne(r)
    ensures !(Luma(c) < target || Luma(c) > 1.0) ==> r == c
  {
    var scaled := ScaleToTarget(c, target);
    if Luma(c) < target then
      LumaOfClampedBelowOne(scaled);
      GreyPassesIdleAtOrBelowOne(scaled, 4);
      GreyPasses(scaled, 4)
    else
      GreyPassesSettleAfterOne(scaled, 4);
      if Luma(c) <= 1.0 then
        GreyPassesIdleAtOrBelowOne(scaled, 4);
        GreyPasses(scaled, 4)
      else GreyPasses(scaled, 4)
  }

  /** Colours with every channel in [0, 1] that are bright enough come back unchanged. */
  lemma SafeColorKeepsUnitColors(c: Color, target: real)
    requires InUnitCube(c) && Luma(c) >= target
    ensures GetSafeColor(c, target) == c
  {
    LumaOfClampedBelowOne(c);
  }

  /**
   * A dark colour that can be brightened without clamping (and is not black
   * enough to hit the 0.001 floor) reaches exactly the target intensity.
   */
  lemma SafeColorHitsTarget(c: Color, target: real)
    requires 0.001 <= Luma(c) < target
    requires c.r * (target / Luma(c)) <= 1.0 && c.g * (target / Luma(c)) <= 1.0
             && c.b * (target / Luma(c)) <= 1.0
    ensures Luma(GetSafeColor(c, target)) == target
  {
    var s := target / Luma(c);
    var scaled := Color(c.r * s, c.g * s, c.b * s);
    assert ScaleToTarget(c, target) == scaled;
    assert Luma(scaled) == s * Luma(c);
    assert s * Luma(c) == target;
    LumaOfClampedBelowOne(scaled);
    GreyPassesIdleAtOrBelowOne(scaled, 4);
  }

  // ---------------------------------------------------------- shadow bands

  datatype ShadowRange = ShadowRange(lowerBottom: real, lowerTop: real, upperBottom: real, upperTop: real)

  /** The ordering `SetShadowRange` asserts. */
  predicate ShadowRangeOrdered(s: ShadowRange) {
    s.lowerTop >= s.lowerBottom && s.upperBottom >= s.lowerTop && s.upperTop >= s.upperBottom
  }

  /** `SetShadowRange`: only ordered bands are accepted. */
  function SetShadowRange(lowerBottom: real, lowerTop: real, upperBottom: real, upperTop: real): (s: ShadowRange)
    requires lowerTop >= lowerBottom && upperBottom >= lowerTop && upperTop >= upperBottom
    ensures ShadowRangeOrdered(s)
    ensures s.lowerBottom == lowerBottom && s.upperTop == upperTop
  {
    ShadowRange(lowerBottom, lowerTop, upperBottom, upperTop)
  }

  /** `Graphics`' initial shadow range. */
  const DefaultShadowRange := ShadowRange(-4.0, 4.0, 30.0, 40.0)

  /** A fraction of a positive width stays in [0, 1], and grows with its numerator. */
  lemma FractionOfWidth(a1: real, a2: real, w: real)
    requires w > 0.0 && 0.0 <= a1 <= a2 <= w
    ensures 0.0 <= a1 / w <= a2 / w <= 1.0
  {
    assert a1 / w * w == a1;
    assert a2 / w * w == a2;
    assert (a2 / w - a1 / w) * w == a2 - a1;
    assert (1.0 - a2 / w) * w == w - a2;
  }

  /** `GetShadowDensity` at height `y`: ramps up over the lower band, down over the upper. */
  function GetShadowDensity(s: ShadowRange, y: real): (d: real)
    ensures 0.0 <= d <= 1.0
    ensures y < s.lowerBottom ==> d == 0.0
    ensures ShadowRangeOrdered(s) && y >= s.upperTop ==> d == 0.0
    ensures ShadowRangeOrdered(s) && s.lowerTop <= y < s.upperBottom ==> d == 1.0
  {
    if y < s.lowerBottom then 0.0
    else if y < s.lowerTop then
      FractionOfWidth(y - s.lowerBottom, y - s.lowerBottom, s.lowerTop - s.lowerBottom);
      (y - s.lowerBottom) / (s.lowerTop - s.lowerBottom)
    else if y < s.upperBottom then 1.0
    else if y < s.upperTop then
      FractionOfWidth(y - s.upperBottom, y - s.upperBottom, s.upperTop - s.upperBottom);
      1.0 - (y - s.upperBottom) / (s.upperTop - s.upperBottom)
    else 0.0
  }

  /** Density never falls while rising through the lower band into the full-shadow band. */
  lemma ShadowDensityRisesThroughLowerBand(s: ShadowRange, y1: real, y2: real)
    requires ShadowRangeOrdered(s)
    requires y1 <= y2 < s.upperBottom
    ensures GetShadowDensity(s, y1) <= GetShadowDensity(s, y2)
  {
    if s.lowerBottom <= y1 && y2 < s.lowerTop {
      FractionOfWidth(y1 - s.lowerBottom, y2 - s.lowerBottom, s.lowerTop - s.lowerBottom);
    }
  }

  // ------------------------------------------------ pixel to virtual coords

  /**
   * `PixelToVirtualX`/`PixelToVirtualY` for one axis: `res` pixels span
   * `virt` virtual units, widened by the TV border when it is enabled.
   */
  function PixelToVirtual(p: real, res: real, virt: real, tvBorder: bool, border: real): (v: real)
    requires res > 0.0
    ensures !tvBorder ==> v * res == p * virt
  {
    if tvBorder then (-0.5 * border) * virt + (1.0 + border) * virt * (p / res)
    else p * (virt / res)
  }

  /** With the border, the screen edges land `border / 2` of the virtual size outside it. */
  lemma TVBorderEdges(res: real, virt: real, border: real)
    requires res > 0.0
    ensures PixelToVirtual(0.0, res, virt, true, border) == -0.5 * border * virt
    ensures PixelToVirtual(res, res, virt, true, border) == (1.0 + 0.5 * border) * virt
  {
  }

  /** Either way, the screen centre maps to the virtual centre. */
  lemma CentreMapsToCentre(res: real, virt: real, tvBorder: bool, border: real)
    requires res > 0.0
    ensures PixelToVirtual(res / 2.0, res, virt, tvBorder, border) == virt / 2.0
  {
  }

  // ------------------------------------------------------------- blotches

  datatype Vertex = Vertex(x: real, y: real, z: real, u: int, v: int, size: real,
                           cr: real, cg: real, cb: real, ca: real)

  const IndexRange := 65536

  function Corner(x: real, y: real, z: real, size: real, r: real, g: real, b: real, a: real,
                  u: int, v: int): Vertex {
    Vertex(x, y, z, u, v, size, r, g, b, a)
  }

  /** The four sprite corners `DoDrawBlotch` appends: one position, uv (0,0), (0,1), (1,0), (1,1). */
  function BlotchCorners(x: real, y: real, z: real, size: real, r: real, g: real, b: real, a: real)
    : seq<Vertex> {
    [Corner(x, y, z, size, r, g, b, a, 0, 0), Corner(x, y, z, size, r, g, b, a, 0, 65535),
     Corner(x, y, z, size, r, g, b, a, 65535, 0), Corner(x, y, z, size, r, g, b, a, 65535, 65535)]
  }

  /**
   * `DoDrawBlotch` as the source writes it: the guard only checks that the
   * old vertex count fits 16 bits, but the indices `count + 1 .. count + 3`
   * are then truncated to `uint16_t`.
   */
  function DoDrawBlotchAsWritten(indices: seq<int>, verts: seq<Vertex>, x: real, y: real, z: real,
                                 size: real, r: real, g: real, b: real, a: real)
    : (out: (seq<int>, seq<Vertex>))
    requires |verts| < IndexRange
    ensures |out.1| == |verts| + 4 && |out.0| == |indices| + 6
  {
    var c := |verts|;
    var six := [c, (c + 1) % IndexRange, (c + 2) % IndexRange, (c + 1) % IndexRange,
                (c + 3) % IndexRange, (c + 2) % IndexRange];
    (indices + six, verts + BlotchCorners(x, y, z, size, r, g, b, a))
  }

  /**
   * Counterexample: with 65533 vertices already queued the guard passes, yet
   * the fifth index wraps to 0 and names an old vertex instead of a new corner.
   */
  lemma BlotchIndexWrapsAsWritten(v: Vertex)
    ensures var verts := seq(65533, _ => v);
      var out := DoDrawBlotchAsWritten([], verts, 0.0, 0.0, 0.0, 1.0, 1.0, 1.0, 1.0, 1.0);
      out.0[4] == 0 && out.0[4] < |verts|
  {
  }

  /**
   * `DoDrawBlotch` with the guard its indices need: four corner vertices are
   * appended, and six indices forming the two triangles of the quad, every
   * one of them naming a new corner.
   */
  function DoDrawBlotch(indices: seq<int>, verts: seq<Vertex>, x: real, y: real, z: real,
                        size: real, r: real, g: real, b: real, a: real)
    : (out: (seq<int>, seq<Vertex>))
    requires |verts| + 4 <= IndexRange
    ensures |out.1| == |verts| + 4 && out.1[..|verts|] == verts
    ensures |out.0| == |indices| + 6 && out.0[..|indices|] == indices
    ensures forall k | |indices| <= k < |out.0| :: |verts| <= out.0[k] < |out.1| && out.0[k] < IndexRange
    ensures forall k | |verts| <= k < |out.1| ::
      out.1[k].x == x && out.1[k].y == y && out.1[k].z == z && out.1[k].size == size
      && out.1[k].cr == r && out.1[k].cg == g && out.1[k].cb == b && out.1[k].ca == a
  {
    var c := |verts|;
    var six := [c, c + 1, c + 2, c + 1, c + 3, c + 2];
    (indices + six, verts + BlotchCorners(x, y, z, size, r, g, b, a))
  }

  /** The two triangles cover the quad: each new index names a corner, and all four are used. */
  lemma BlotchTrianglesCoverQuad(indices: seq<int>, verts: seq<Vertex>, x: real, y: real, z: real,
                                 size: real, r: real, g: real, b: real, a: real)
    requires |verts| + 4 <= IndexRange
    ensures var out := DoDrawBlotch(indices, verts, x, y, z, size, r, g, b, a);
      var six := out.0[|indices|..];
      (set k | 0 <= k < 6 :: (out.1[six[k]].u, out.1[six[k]].v))
        == {(0, 0), (0, 65535), (65535, 0), (65535, 65535)}
  {
    var out := DoDrawBlotch(indices, verts, x, y, z, size, r, g, b, a);
    var six := out.0[|indices|..];
    var c := |verts|;
    assert six == [c, c + 1, c + 2, c + 1, c + 3, c + 2];
    assert out.1[c].u == 0 && out.1[c].v == 0;
    assert out.1[c + 1].u == 0 && out.1[c + 1].v == 65535;
    assert out.1[c + 2].u == 65535 && out.1[c + 2].v == 0;
    assert out.1[c + 3].u == 65535 && out.1[c + 3].v == 65535;
    var got := set k | 0 <= k < 6 :: (out.1[six[k]].u, out.1[six[k]].v);
    assert (0, 0) in got by { assert six[0] == c; }
    assert (0, 65535) in got by { assert six[1] == c + 1; }
    assert (65535, 0) in got by { assert six[2] == c + 2; }
    assert (65535, 65535) in got by { assert six[4] == c + 3; }
  }
}

=== FILE: graphics_server.dfy ===
/**
 * `GraphicsServer`'s graphics-thread state: the single frame-def slot the
 * logic thread fills, the render-hold counter, the graphics and texture
 * quality chosen for a request, the texture-compression bitmask, the
 * once-only initial-screen notice and the screen/virtual resolution.
 * Renderer calls are not modelled; what the renderer reports (its screen
 * target, its auto qualities) arrives as parameters.
 */
module GraphicsServer {
  import opened Wrappers
  import opened BaseTypes
  import Graphics

  datatype Server = Server(
    frameDef: Option<Graphics.FrameDef>,
    renderHold: int,
    meshDatas: seq<nat>,
    graphicsQualityRequested: GraphicsQualityRequest,
    graphicsQuality: GraphicsQuality,
    graphicsQualitySet: bool,
    textureQualityRequested: TextureQualityRequest,
    textureQuality: TextureQuality,
    textureQualitySet: bool,
    textureCompressionTypes: bv32,
    textureCompressionTypesSet: bool,
    initialScreenCreated: bool,
    targetRes: (real, real),
    res: (real, real),
    virtualRes: (real, real))

  // ------------------------------------------------------- frame-def slot

  /** `SetFrameDef`: the logic thread may only fill an empty slot. */
  function SetFrameDef(s: Server, def: Graphics.FrameDef): (r: Server)
    requires s.frameDef.None?
    ensures r.frameDef == Some(def) && r == s.(frameDef := Some(def))
  {
    s.(frameDef := Some(def))
  }

  /**
   * `GetRenderFrameDef` (its spin-wait collapsed to one look at the slot):
   * nothing without a renderer or while the app is paused; otherwise the
   * def in the slot, which is left empty.
   */
  function GetRenderFrameDef(s: Server, hasRenderer: bool, appPaused: bool): (r: (Option<Graphics.FrameDef>, Server))
    ensures !hasRenderer || appPaused ==> r == (None, s)
    ensures hasRenderer && !appPaused ==> r.0 == s.frameDef && r.1 == s.(frameDef := None)
  {
    if !hasRenderer || appPaused then (None, s)
    else (s.frameDef, s.(frameDef := None))
  }

  /** Handing a def over and taking it back leaves the slot as it was. */
  lemma SlotRoundTrip(s: Server, def: Graphics.FrameDef)
    requires s.frameDef.None?
    ensures GetRenderFrameDef(SetFrameDef(s, def), true, false) == (Some(def), s)
  {
  }

  // ------------------------------------------------------------ render hold

  /** `SetRenderHold`. */
  function SetRenderHold(s: Server): (r: Server)
    ensures r.renderHold == s.renderHold + 1 && r == s.(renderHold := r.renderHold)
  {
    s.(renderHold := s.renderHold + 1)
  }

  /** The call `PushRemoveRenderHoldCall` queues: decrement, clamped (with an error log) at 0. */
  function RemoveRenderHold(s: Server): (r: (Server, bool))
    ensures r.0 == s.(renderHold := r.0.renderHold)
    ensures s.renderHold >= 1 ==> r.0.renderHold == s.renderHold - 1 && !r.1
    ensures s.renderHold < 1 ==> r.0.renderHold == 0 && r.1
  {
    var h := s.renderHold - 1;
    if h < 0 then (s.(renderHold := 0), true) else (s.(renderHold := h), false)
  }

  /** A hold count that starts non-negative stays non-negative. */
  lemma RenderHoldNeverNegative(s: Server)
    requires s.renderHold >= 0
    ensures SetRenderHold(s).renderHold >= 0 && RemoveRenderHold(s).0.renderHold >= 0
  {
  }

  /** A set followed by a remove restores the count. */
  lemma HoldThenRemoveRestores(s: Server)
    requires s.renderHold >= 0
    ensures RemoveRenderHold(SetRenderHold(s)).0 == s
  {
  }

  /** Removes the first occurrence of `x`, as the iterator erase does. */
  function RemoveFirst(xs: seq<nat>, x: nat): (r: seq<nat>)
    ensures x !in xs ==> r == xs
    ensures x in xs ==> |r| == |xs| - 1
    ensures multiset(r) == multiset(xs) - multiset{x}
    decreases |xs|
  {
    if |xs| == 0 then xs
    else if xs[0] == x then
      assert xs == [xs[0]] + xs[1..];
      xs[1..]
    else
      assert xs == [xs[0]] + xs[1..];
      [xs[0]] + RemoveFirst(xs[1..], x)
  }

  /** `RunFrameDefMeshUpdates`: loads join the live list at its end, then each unload leaves it. */
  function RunFrameDefMeshUpdates(live: seq<nat>, def: Graphics.FrameDef): (r: seq<nat>)
    ensures multiset(r) == multiset(live) + multiset(def.meshCreates) - multiset(def.meshDestroys)
  {
    RemoveEach(live + def.meshCreates, def.meshDestroys)
  }

  /** Removes the first occurrence of each element of `gone` in turn. */
  function RemoveEach(xs: seq<nat>, gone: seq<nat>): (r: seq<nat>)
    ensures multiset(r) == multiset(xs) - multiset(gone)
    decreases |gone|
  {
    if |gone| == 0 then xs
    else
      var r := RemoveEach(RemoveFirst(xs, gone[0]), gone[1..]);
      RemoveEachStep(xs, gone, r);
      r
  }

  /** One erase followed by the rest removes the whole list. */
  lemma RemoveEachStep(xs: seq<nat>, gone: seq<nat>, r: seq<nat>)
    requires |gone| > 0
    requires multiset(r) == multiset(RemoveFirst(xs, gone[0])) - multiset(gone[1..])
    ensures multiset(r) == multiset(xs) - multiset(gone)
  {
    assert multiset(gone) == multiset{gone[0]} + multiset(gone[1..]) by {
      assert gone == [gone[0]] + gone[1..];
    }
    DifferenceOfSum(multiset(xs), multiset{gone[0]}, multiset(gone[1..]));
  }

  lemma DifferenceOfSum(a: multiset<nat>, b: multiset<nat>, c: multiset<nat>)
    ensures (a - b) - c == a - (b + c)
  {
    forall e ensures ((a - b) - c)[e] == (a - (b + c))[e] { }
    assert (a - b) - c == a - (b + c);
  }

  /**
   * `TryRender`: a def taken from the slot always has its mesh updates
   * applied and is always returned to the logic thread; it is drawn only
   * with a screen target and no hold. Returns the server, the def handed
   * back (if any) and whether it was drawn.
   */
  function TryRender(s: Server, hasRenderer: bool, appPaused: bool, hasScreenTarget: bool)
    : (r: (Server, Option<Graphics.FrameDef>, bool))
    ensures r.1 == (if hasRenderer && !appPaused then s.frameDef else None)
    ensures r.2 <==> r.1.Some? && hasScreenTarget && s.renderHold == 0
    ensures r.1.Some? ==> r.0.meshDatas == RunFrameDefMeshUpdates(s.meshDatas, r.1.value)
    ensures r.1.None? ==> r.0.meshDatas == s.meshDatas
    ensures r.0.renderHold == s.renderHold
    ensures hasRenderer && !appPaused ==> r.0.frameDef.None?
  {
    var (def, t) := GetRenderFrameDef(s, hasRenderer, appPaused);
    if def.None? then (t, None, false)
    else
      var drawn := hasScreenTarget && t.renderHold == 0;
      (t.(meshDatas := RunFrameDefMeshUpdates(t.meshDatas, def.value)), def, drawn)
  }

  /** A def rendered by the server goes back to the logic thread's delete list. */
  lemma RenderedDefReturnsToPool(s: Server, pool: Graphics.FramePool, def: Graphics.FrameDef)
    requires s.frameDef.None?
    ensures var back := TryRender(SetFrameDef(s, def), true, false, true).1;
      back == Some(def)
      && Graphics.ReturnCompletedFrameDef(pool, back.value.id).deleteList == pool.deleteList + [def.id]
  {
  }

  // ------------------------------------------------------------- qualities

  /**
   * The graphics quality `HandleFullContextScreenRebuild` picks: the
   * same-named quality, the renderer's auto choice for `kAuto`, `kLow` for
   * an unhandled request; never above `kMedium` without high-quality support.
   */
  function GraphicsQualityFor(req: GraphicsQualityRequest, autoQuality: GraphicsQuality, supportsHigh: bool)
    : (r: GraphicsQuality)
    ensures !supportsHigh ==> QualityOrdinal(r) <= QualityOrdinal(GQMedium)
    ensures supportsHigh ==> r == (match req
      case GRLow => GQLow case GRMedium => GQMedium case GRHigh => GQHigh
      case GRHigher => GQHigher case GRAuto => autoQuality case GRUnset => GQLow)
    ensures req in {GRLow, GRMedium} ==> QualityOrdinal(r) == RequestOrdinal(req)
    ensures req in {GRHigh, GRHigher} && !supportsHigh ==> r == GQMedium
  {
    var q := match req
      case GRLow => GQLow
      case GRMedium => GQMedium
      case GRHigh => GQHigh
      case GRHigher => GQHigher
      case GRAuto => autoQuality
      case GRUnset => GQLow;
    if !supportsHigh && QualityOrdinal(q) > QualityOrdinal(GQMedium) then GQMedium else q
  }

  /** The texture quality for a request: same-named, the renderer's auto choice, or `kLow` for an unhandled one. */
  function TextureQualityFor(req: TextureQualityRequest, autoQuality: TextureQuality): (r: TextureQuality)
    ensures req == TRAuto ==> r == autoQuality
    ensures req == TRUnset || req == TRLow ==> r == TQLow
    ensures req == TRHigh ==> r == TQHigh
    ensures req == TRMedium ==> r == TQMedium
  {
    match req
    case TRLow => TQLow
    case TRMedium => TQMedium
    case TRHigh => TQHigh
    case TRAuto => autoQuality
    case TRUnset => TQLow
  }

  /**
   * The filter at the top of `SetScreen`: once support for high quality is
   * known to be absent, requests above `kMedium` in declaration order
   * become `kMedium`.
   */
  function FilterQualityRequest(req: GraphicsQualityRequest, supportsHigh: Option<bool>): (r: GraphicsQualityRequest)
    ensures supportsHigh == Some(false) ==> RequestOrdinal(r) <= RequestOrdinal(GRMedium)
    ensures supportsHigh != Some(false) || RequestOrdinal(req) <= RequestOrdinal(GRMedium) ==> r == req
  {
    if supportsHigh == Some(false) && RequestOrdinal(req) > RequestOrdinal(GRMedium) then GRMedium else req
  }

  /** `kAuto` is declared after `kMedium`, so the filter turns an auto request into a medium one. */
  lemma AutoRequestBecomesMediumWithoutHighSupport()
    ensures FilterQualityRequest(GRAuto, Some(false)) == GRMedium
  {
  }

  /** Filtering never changes the quality that would eventually be chosen when the auto choice respects the clamp. */
  lemma FilterAgreesWithClamp(req: GraphicsQualityRequest, autoQuality: GraphicsQuality)
    requires QualityOrdinal(autoQuality) >= QualityOrdinal(GQMedium)
    ensures GraphicsQualityFor(FilterQualityRequest(req, Some(false)), autoQuality, false)
         == GraphicsQualityFor(req, autoQuality, false)
  {
  }

  /** `HandleFullContextScreenRebuild`'s quality bookkeeping and the render hold it takes. */
  function ApplyQualities(s: Server, greq: GraphicsQualityRequest, treq: TextureQualityRequest,
                          autoGraphics: GraphicsQuality, autoTexture: TextureQuality, supportsHigh: bool): (r: Server)
    ensures r.graphicsQualityRequested == greq && r.textureQualityRequested == treq
    ensures r.graphicsQuality == GraphicsQualityFor(greq, autoGraphics, supportsHigh)
    ensures r.textureQuality == TextureQualityFor(treq, autoTexture)
    ensures r.graphicsQualitySet && r.textureQualitySet
    ensures r.renderHold == s.renderHold + 1
  {
    SetRenderHold(s.(graphicsQualityRequested := greq,
                     graphicsQuality := GraphicsQualityFor(greq, autoGraphics, supportsHigh),
                     graphicsQualitySet := true,
                     textureQualityRequested := treq,
                     textureQuality := TextureQualityFor(treq, autoTexture),
                     textureQualitySet := true))
  }

  // ---------------------------------------------------- compression types

  function Bit(t: TextureCompressionType): (b: bv32)
  {
    (1 as bv32) << CompressionOrdinal(t)
  }

  /** `SetTextureCompressionTypes`: reset the mask, then set bit `1 << t` for each listed type. */
  function CompressionMask(types: seq<TextureCompressionType>): (r: bv32)
    ensures forall t :: (r & Bit(t) != 0) <==> t in types
    ensures r & !(0xF as bv32) == 0
    decreases |types|
  {
    if |types| == 0 then 0
    else
      var rest := CompressionMask(types[1..]);
      assert forall t :: t in types <==> t == types[0] || t in types[1..] by {
        assert types == [types[0]] + types[1..];
      }
      rest | Bit(types[0])
  }

  function SetTextureCompressionTypes(s: Server, types: seq<TextureCompressionType>): (r: Server)
    ensures forall t :: (r.textureCompressionTypes & Bit(t) != 0) <==> t in types
    ensures r.textureCompressionTypesSet
    ensures r == s.(textureCompressionTypes := r.textureCompressionTypes, textureCompressionTypesSet := true)
  {
    s.(textureCompressionTypes := CompressionMask(types), textureCompressionTypesSet := true)
  }

  // --------------------------------------------------------------- screen

  /**
   * `SetScreen` on a headless build, after the request filter: no renderer
   * is made, both qualities are fixed to `kLow`, the compression list is
   * empty, and the initial-screen notice goes out the first time only.
   * Returns the server and whether `OnInitialScreenCreated` was pushed.
   */
  function SetScreenHeadless(s: Server): (r: (Server, bool))
    ensures r.0.graphicsQuality == GQLow && r.0.graphicsQualityRequested == GRLow && r.0.graphicsQualitySet
    ensures r.0.textureQuality == TQLow && r.0.textureQualityRequested == TRLow && r.0.textureQualitySet
    ensures r.0.textureCompressionTypes == 0 && r.0.textureCompressionTypesSet
    ensures r.0.initialScreenCreated && (r.1 <==> !s.initialScreenCreated)
  {
    var t := SetTextureCompressionTypes(s, []);
    var u := t.(graphicsQualityRequested := GRLow, graphicsQuality := GQLow, graphicsQualitySet := true,
                textureQualityRequested := TRLow, textureQuality := TQLow, textureQualitySet := true);
    assert u.textureCompressionTypes == 0 by {
      forall t: TextureCompressionType ensures u.textureCompressionTypes & Bit(t) == 0 { }
      assert u.textureCompressionTypes & Bit(S3TC) == 0 && u.textureCompressionTypes & Bit(PVR) == 0
          && u.textureCompressionTypes & Bit(ETC1) == 0 && u.textureCompressionTypes & Bit(ETC2) == 0;
      assert CompressionMask([]) == 0;
    }
    NoteInitialScreen(u)
  }

  /** The tail of `SetScreen`: flips `initial_screen_created_` once and reports whether it did. */
  function NoteInitialScreen(s: Server): (r: (Server, bool))
    ensures r.0 == s.(initialScreenCreated := true)
    ensures r.1 <==> !s.initialScreenCreated
  {
    if !s.initialScreenCreated then (s.(initialScreenCreated := true), true) else (s, false)
  }

  /** However many screens are set, `OnInitialScreenCreated` is pushed at most once. */
  lemma InitialScreenNoticeOnce(s: Server)
    ensures var (t, first) := NoteInitialScreen(s); !NoteInitialScreen(t).1
  {
  }

  /**
   * `CalcVirtualRes`: one axis becomes the base resolution, the other keeps
   * the physical aspect ratio, so the virtual screen covers the base one.
   */
  function CalcVirtualRes(x: real, y: real, baseX: real, baseY: real): (r: (real, real))
    requires x > 0.0 && y > 0.0 && baseX > 0.0 && baseY > 0.0
    ensures r.0 == baseX || r.1 == baseY
    ensures r.0 > 0.0 && r.1 > 0.0 && r.0 / r.1 == x / y
    ensures r.0 >= baseX && r.1 >= baseY
  {
    if x / y > baseX / baseY then
      var vx := baseY * (x / y);
      AspectKeptX(baseY, x, y);
      assert vx > baseX by { ScaledAbove(x / y, baseX, baseY); }
      (vx, baseY)
    else
      var vy := baseX * (y / x);
      AspectKeptY(baseX, x, y);
      assert vy >= baseY by { ScaledAtLeast(x, y, baseX, baseY); }
      (baseX, vy)
  }

  lemma AspectKeptX(b: real, x: real, y: real)
    requires x > 0.0 && y > 0.0 && b > 0.0
    ensures (b * (x / y)) / b == x / y
  {
  }

  lemma AspectKeptY(a: real, x: real, y: real)
    requires x > 0.0 && y > 0.0 && a > 0.0
    ensures a / (a * (y / x)) == x / y
  {
    var b := a * (y / x);
    assert b * x == a * y;
    assert (a / b) * b == a;
    assert (x / y) * b == x * (a * (y / x)) / y;
  }

  lemma ScaledAbove(ratio: real, baseX: real, baseY: real)
    requires baseX > 0.0 && baseY > 0.0 && ratio > baseX / baseY
    ensures baseY * ratio > baseX
  {
    assert baseY * (baseX / baseY) == baseX;
  }

  lemma ScaledAtLeast(x: real, y: real, baseX: real, baseY: real)
    requires x > 0.0 && y > 0.0 && baseX > 0.0 && baseY > 0.0
    requires x / y <= baseX / baseY
    ensures baseX * (y / x) >= baseY
  {
    assert x * baseY <= baseX * y by {
      assert (x / y) * (y * baseY) <= (baseX / baseY) * (y * baseY);
      assert (x / y) * (y * baseY) == x * baseY;
      assert (baseX / baseY) * (y * baseY) == baseX * y;
    }
    assert baseX * (y / x) * x == baseX * y;
    assert baseY * x <= baseX * (y / x) * x;
  }

  /**
   * `SetScreenResolution`: unchanged targets are ignored; otherwise the
   * physical and virtual resolution are updated (the base resolution in VR)
   * and the size change is pushed. Returns the server and whether it was.
   */
  function SetScreenResolution(s: Server, h: real, v: real, vrMode: bool, baseX: real, baseY: real): (r: (Server, bool))
    requires h > 0.0 && v > 0.0 && baseX > 0.0 && baseY > 0.0
    ensures s.targetRes == (h, v) ==> r == (s, false)
    ensures s.targetRes != (h, v) ==> r.1 && r.0.targetRes == (h, v) && r.0.res == (h, v)
    ensures s.targetRes != (h, v) && vrMode ==> r.0.virtualRes == (baseX, baseY)
    ensures s.targetRes != (h, v) && !vrMode ==>
      r.0.virtualRes.1 > 0.0 && r.0.virtualRes.0 / r.0.virtualRes.1 == h / v
  {
    if s.targetRes == (h, v) then (s, false)
    else
      var virt := if vrMode then (baseX, baseY) else CalcVirtualRes(h, v, baseX, baseY);
      (s.(targetRes := (h, v), res := (h, v), virtualRes := virt), true)
  }

  /** Setting the same resolution twice pushes one size change. */
  lemma ResolutionChangeIsIdempotent(s: Server, h: real, v: real, vrMode: bool, baseX: real, baseY: real)
    requires h > 0.0 && v > 0.0 && baseX > 0.0 && baseY > 0.0
    ensures var (t, _) := SetScreenResolution(s, h, v, vrMode, baseX, baseY);
      SetScreenResolution(t, h, v, vrMode, baseX, baseY) == (t, false)
  {
  }
}

=== FILE: input.dfy ===
/**
 * The input subsystem's bookkeeping: the device registry (a vector of
 * possibly-empty slots), per-name device numbering backed by a reservation
 * table, the permanent and temporary input locks with their watchdog, idle
 * tracking, the set of held keys and the single tracked touch.
 */
module Input {
  import opened Wrappers
  import Seqs
  import Strings

  /** What the registry needs to know about an `InputDevice`; `uid` is its object identity. */
  datatype Device = Device(
    uid: nat,
    rawName: string,
    identifier: string,
    number: int,
    index: int,
    isKeyboard: bool,
    isTouchScreen: bool,
    isUIOnly: bool,
    isLocal: bool,
    lastInputTime: int)

  /** raw device name -> persistent identifier -> number */
  type Reservations = map<string, map<string, int>>

  datatype Registry = Registry(slots: seq<Option<Device>>, reserved: Reservations)

  const InvalidDeviceError := "Input::RemoveInputDevice: invalid device provided"

  /** Slot `i` holds the device whose identity is `uid`. */
  predicate Holds(slots: seq<Option<Device>>, i: int, uid: nat) {
    0 <= i < |slots| && slots[i].Some? && slots[i].value.uid == uid
  }

  predicate Registered(slots: seq<Option<Device>>, uid: nat) {
    exists i | 0 <= i < |slots| :: Holds(slots, i, uid)
  }

  /** Every live device knows its own slot, and no device sits in two slots. */
  predicate WellFormed(reg: Registry) {
    (forall i | 0 <= i < |reg.slots| && reg.slots[i].Some? :: reg.slots[i].value.index == i)
    && (forall i, j | 0 <= i < j < |reg.slots| && reg.slots[i].Some? && reg.slots[j].Some? ::
          reg.slots[i].value.uid != reg.slots[j].value.uid)
  }

  // ---------------------------------------------------------------- lookup

  /** `GetInputDevice(int)`: the device in slot `id`, or null when the slot is out of range or empty. */
  function GetInputDevice(reg: Registry, id: int): (r: Option<Device>)
    ensures r.Some? <==> 0 <= id < |reg.slots| && reg.slots[id].Some?
    ensures WellFormed(reg) && r.Some? ==> r.value.index == id
  {
    if id < 0 || id >= |reg.slots| then None else reg.slots[id]
  }

  // ------------------------------------------------------------- numbering

  /** The reservation recorded for `identifier` under `name`, if any. */
  function Reserved(res: Reservations, name: string, identifier: string): Option<int> {
    if name in res && identifier in res[name] then Some(res[name][identifier]) else None
  }

  /**
   * Number `num` is unavailable to a device called `name` that presents
   * `identifier`: a live device of that name already has it, or (only for
   * devices that present an identifier) some device reserved it earlier.
   */
  predicate NumberInUse(reg: Registry, name: string, identifier: string, num: int) {
    (exists i | 0 <= i < |reg.slots| ::
       reg.slots[i].Some? && reg.slots[i].value.rawName == name && reg.slots[i].value.number == num)
    || (identifier != "" && name in reg.reserved
        && exists id | id in reg.reserved[name] :: reg.reserved[name][id] == num)
  }

  /**
   * The numbering rule: a reserved number is reused unchanged; otherwise the
   * least free number from 1 is chosen and, for a non-empty identifier only,
   * reserved; no other reservation changes.
   */
  ghost predicate ValidNumbering(reg: Registry, name: string, identifier: string,
                                 num: int, res: Reservations) {
    if identifier != "" && Reserved(reg.reserved, name, identifier).Some? then
      num == Reserved(reg.reserved, name, identifier).value && res == reg.reserved
    else
      1 <= num
      && !NumberInUse(reg, name, identifier, num)
      && (forall k | 1 <= k < num :: NumberInUse(reg, name, identifier, k))
      && (identifier == "" ==> res == reg.reserved)
      && (identifier != "" ==>
            Reserved(res, name, identifier) == Some(num)
            && forall n, i | (n, i) != (name, identifier) :: Reserved(res, n, i) == Reserved(reg.reserved, n, i))
  }

  /** The numbers the scan in `GetNewNumberedIdentifier` finds taken. */
  function UsedNumbers(reg: Registry, name: string, identifier: string): (used: set<int>)
    ensures forall k :: k in used <==> NumberInUse(reg, name, identifier, k)
  {
    var fromDevices := set i | 0 <= i < |reg.slots| && reg.slots[i].Some? && reg.slots[i].value.rawName == name
                             :: reg.slots[i].value.number;
    var fromReservations :=
      if identifier != "" && name in reg.reserved then
        set id | id in reg.reserved[name] :: reg.reserved[name][id]
      else {};
    assert forall k :: k in fromDevices + fromReservations <==> NumberInUse(reg, name, identifier, k) by {
      forall k ensures k in fromDevices + fromReservations <==> NumberInUse(reg, name, identifier, k) {
        if NumberInUse(reg, name, identifier, k) {
          if exists i | 0 <= i < |reg.slots| ::
               reg.slots[i].Some? && reg.slots[i].value.rawName == name && reg.slots[i].value.number == k {
            var i :| 0 <= i < |reg.slots| && reg.slots[i].Some? && reg.slots[i].value.rawName == name
                     && reg.slots[i].value.number == k;
            assert k in fromDevices;
          } else {
            var id :| id in reg.reserved[name] && reg.reserved[name][id] == k;
            assert k in fromReservations;
          }
        }
      }
    }
    fromDevices + fromReservations
  }

  /** The numbers of `used` that the upward search from `n` has yet to pass. */
  function UsedFrom(used: set<int>, n: int): set<int> {
    set x | x in used && x >= n
  }

  /** The first number `>= n` missing from `used`: the `while (true) { ... num++; }` search. */
  function LeastFreeFrom(used: set<int>, n: int): (r: int)
    ensures n <= r && r !in used
    ensures forall k :: n <= k < r ==> k in used
    decreases |UsedFrom(used, n)|
  {
    if n !in used then n
    else
      assert UsedFrom(used, n) == UsedFrom(used, n + 1) + {n};
      LeastFreeFrom(used, n + 1)
  }

  /**
   * `GetNewNumberedIdentifier`: returns the device number and the
   * reservation table after the call.
   */
  function GetNewNumberedIdentifier(reg: Registry, name: string, identifier: string): (r: (int, Reservations))
    ensures ValidNumbering(reg, name, identifier, r.0, r.1)
  {
    if identifier != "" && Reserved(reg.reserved, name, identifier).Some? then
      (Reserved(reg.reserved, name, identifier).value, reg.reserved)
    else
      var num := LeastFreeFrom(UsedNumbers(reg, name, identifier), 1);
      if identifier == "" then (num, reg.reserved)
      else
        var inner := if name in reg.reserved then reg.reserved[name] else map[];
        (num, reg.reserved[name := inner[identifier := num]])
  }

  /** The numbering rule leaves no choice: at most one number and table satisfy it. */
  lemma ValidNumberingIsFunctional(reg: Registry, name: string, identifier: string,
                                   a: int, ra: Reservations, b: int, rb: Reservations)
    requires ValidNumbering(reg, name, identifier, a, ra)
    requires ValidNumbering(reg, name, identifier, b, rb)
    ensures a == b
    ensures forall n, i :: Reserved(ra, n, i) == Reserved(rb, n, i)
  {
    if !(identifier != "" && Reserved(reg.reserved, name, identifier).Some?) {
      assert a < b ==> NumberInUse(reg, name, identifier, a);
      assert b < a ==> NumberInUse(reg, name, identifier, b);
    }
  }

  // ------------------------------------------------------- add and remove

  /** Index of the first empty slot, or the length when every slot is occupied. */
  function FirstEmptySlot(slots: seq<Option<Device>>): (k: nat)
    ensures k <= |slots|
    ensures k < |slots| ==> slots[k].None?
    ensures forall j | 0 <= j < k :: slots[j].Some?
  {
    if |slots| == 0 then 0
    else if slots[0].None? then 0
    else 1 + FirstEmptySlot(slots[1..])
  }

  /**
   * `AddInputDevice`: the device takes the lowest empty slot (or a new slot
   * at the end) and is then numbered against the registry it now sits in.
   * Returns the new registry and the device as stored.
   */
  function AddInputDevice(reg: Registry, dev: Device): (r: (Registry, Device))
    ensures var k := r.1.index;
      0 <= k <= |reg.slots|
      && (k < |reg.slots| ==> reg.slots[k].None? && |r.0.slots| == |reg.slots|)
      && (k == |reg.slots| ==> |r.0.slots| == |reg.slots| + 1)
      && (forall j | 0 <= j < k :: reg.slots[j].Some?)
      && r.0.slots[k] == Some(r.1)
      && (forall j | 0 <= j < |reg.slots| && j != k :: r.0.slots[j] == reg.slots[j])
    ensures r.1 == dev.(index := r.1.index, number := r.1.number)
    ensures ValidNumbering(Placed(reg, dev), dev.rawName, dev.identifier, r.1.number, r.0.reserved)
  {
    var placed := Placed(reg, dev);
    var k := FirstEmptySlot(reg.slots);
    var (num, res) := GetNewNumberedIdentifier(placed, dev.rawName, dev.identifier);
    var stored := dev.(index := k, number := num);
    (Registry(placed.slots[k := Some(stored)], res), stored)
  }

  /** The registry right after the slot assignment, before the device is numbered. */
  function Placed(reg: Registry, dev: Device): (p: Registry)
    ensures p.reserved == reg.reserved
    ensures FirstEmptySlot(reg.slots) < |p.slots|
  {
    var k := FirstEmptySlot(reg.slots);
    var d := dev.(index := k);
    if k < |reg.slots| then Registry(reg.slots[k := Some(d)], reg.reserved)
    else Registry(reg.slots + [Some(d)], reg.reserved)
  }

  /** First slot holding `uid`, searching from `from`. */
  function FindSlot(slots: seq<Option<Device>>, uid: nat, from: nat): (r: Option<nat>)
    requires from <= |slots|
    ensures r.Some? ==> from <= r.value < |slots| && Holds(slots, r.value, uid)
                        && forall j | from <= j < r.value :: !Holds(slots, j, uid)
    ensures r.None? ==> forall j | from <= j < |slots| :: !Holds(slots, j, uid)
    decreases |slots| - from
  {
    if from == |slots| then None
    else if Holds(slots, from, uid) then Some(from)
    else FindSlot(slots, uid, from + 1)
  }

  /**
   * `RemoveInputDevice`: empties the slot holding the device (the vector
   * keeps its length so other indices stay valid); throws when the device
   * is not registered. The reservation table is never touched.
   */
  function RemoveInputDevice(reg: Registry, uid: nat): (r: Result<Registry>)
    ensures r.Success? <==> Registered(reg.slots, uid)
    ensures r.Failure? ==> r.error == InvalidDeviceError
    ensures r.Success? ==>
      r.value.reserved == reg.reserved
      && |r.value.slots| == |reg.slots|
      && exists i | 0 <= i < |reg.slots| ::
           Holds(reg.slots, i, uid) && (forall j | 0 <= j < i :: !Holds(reg.slots, j, uid))
           && r.value.slots == reg.slots[i := None]
  {
    match FindSlot(reg.slots, uid, 0)
    case None => Failure(InvalidDeviceError)
    case Some(i) => Success(Registry(reg.slots[i := None], reg.reserved))
  }

  /** Adding a device that is not yet registered keeps the registry well formed. */
  lemma AddPreservesWellFormed(reg: Registry, dev: Device)
    requires WellFormed(reg) && !Registered(reg.slots, dev.uid)
    ensures WellFormed(AddInputDevice(reg, dev).0)
  {
    var (r, stored) := AddInputDevice(reg, dev);
    var k := stored.index;
    forall i, j | 0 <= i < j < |r.slots| && r.slots[i].Some? && r.slots[j].Some?
      ensures r.slots[i].value.uid != r.slots[j].value.uid
    {
      if i == k {
        assert !Holds(reg.slots, j, dev.uid);
      } else if j == k {
        assert !Holds(reg.slots, i, dev.uid);
      }
    }
  }

  /** Removing a device keeps the registry well formed. */
  lemma RemovePreservesWellFormed(reg: Registry, uid: nat)
    requires WellFormed(reg)
    ensures RemoveInputDevice(reg, uid).Success? ==> WellFormed(RemoveInputDevice(reg, uid).value)
  {
  }

  /** After removal the device is gone from every slot (it was in only one). */
  lemma RemoveUnregisters(reg: Registry, uid: nat)
    requires WellFormed(reg) && Registered(reg.slots, uid)
    ensures !Registered(RemoveInputDevice(reg, uid).value.slots, uid)
  {
    var r := RemoveInputDevice(reg, uid).value;
    var j :| 0 <= j < |reg.slots| && Holds(reg.slots, j, uid) && r.slots == reg.slots[j := None];
    forall i | 0 <= i < |r.slots|
      ensures !Holds(r.slots, i, uid)
    {
      if i != j {
        assert r.slots[i] == reg.slots[i];
        assert reg.slots[i].Some? ==> reg.slots[i].value.uid != reg.slots[j].value.uid;
      }
    }
  }

  /** The device just added is what `GetInputDevice` returns for its index. */
  lemma AddThenGet(reg: Registry, dev: Device)
    ensures GetInputDevice(AddInputDevice(reg, dev).0, AddInputDevice(reg, dev).1.index)
            == Some(AddInputDevice(reg, dev).1)
  {
  }

  /**
   * A device that presents an identifier gets the same number back when it
   * disconnects and reconnects, whatever else happened to its slot.
   */
  lemma {:induction false} ReconnectKeepsNumber(reg: Registry, dev: Device, again: Device)
    requires dev.identifier != ""
    requires again.rawName == dev.rawName && again.identifier == dev.identifier
    ensures var (r1, d1) := AddInputDevice(reg, dev);
      RemoveInputDevice(r1, d1.uid).Success?
      && AddInputDevice(RemoveInputDevice(r1, d1.uid).value, again).1.number == d1.number
  {
    var (r1, d1) := AddInputDevice(reg, dev);
    assert Holds(r1.slots, d1.index, d1.uid);
    var r2 := RemoveInputDevice(r1, d1.uid).value;
    assert Reserved(r1.reserved, dev.rawName, dev.identifier) == Some(d1.number);
    assert Placed(r2, again).reserved == r2.reserved == r1.reserved;
  }

  // ------------------------------------------------------ active devices

  /** Counted by `GetLocalActiveInputDeviceCount`: a local game controller used in the last minute. */
  predicate LocallyActive(d: Device, now: int) {
    !d.isKeyboard && !d.isTouchScreen && !d.isUIOnly && d.isLocal
    && d.lastInputTime != 0 && now - d.lastInputTime < 60000
  }

  predicate ActiveAt(slots: seq<Option<Device>>, i: int, now: int) {
    0 <= i < |slots| && slots[i].Some? && LocallyActive(slots[i].value, now)
  }

  /** The tally over all slots. */
  function CountLocalActive(slots: seq<Option<Device>>, now: int): (r: nat)
    ensures r <= |slots|
    ensures r > 0 <==> exists i :: ActiveAt(slots, i, now)
    ensures r > 1 <==> exists i, j :: i < j && ActiveAt(slots, i, now) && ActiveAt(slots, j, now)
    decreases |slots|
  {
    if |slots| == 0 then 0
    else
      var rest := CountLocalActive(slots[1..], now);
      var here := if ActiveAt(slots, 0, now) then 1 else 0;
      ActiveShift(slots, now);
      here + rest
  }

  /** How the active slots of `slots` relate to those of `slots[1..]`. */
  lemma ActiveShift(slots: seq<Option<Device>>, now: int)
    requires |slots| > 0
    ensures (exists i :: ActiveAt(slots, i, now))
            <==> ActiveAt(slots, 0, now) || exists i :: ActiveAt(slots[1..], i, now)
    ensures (exists i, j :: i < j && ActiveAt(slots, i, now) && ActiveAt(slots, j, now))
            <==> (ActiveAt(slots, 0, now) && exists i :: ActiveAt(slots[1..], i, now))
                 || exists i, j :: i < j && ActiveAt(slots[1..], i, now) && ActiveAt(slots[1..], j, now)
  {
    forall i | i >= 0 ensures ActiveAt(slots[1..], i, now) <==> ActiveAt(slots, i + 1, now) {
    }
    if exists i :: ActiveAt(slots, i, now) {
      var i :| ActiveAt(slots, i, now);
      if i > 0 { assert ActiveAt(slots[1..], i - 1, now); }
    }
    if exists i, j :: i < j && ActiveAt(slots, i, now) && ActiveAt(slots, j, now) {
      var i, j :| i < j && ActiveAt(slots, i, now) && ActiveAt(slots, j, now);
      if i > 0 {
        assert ActiveAt(slots[1..], i - 1, now) && ActiveAt(slots[1..], j - 1, now);
      } else {
        assert ActiveAt(slots[1..], j - 1, now);
      }
    }
    if exists i, j :: i < j && ActiveAt(slots[1..], i, now) && ActiveAt(slots[1..], j, now) {
      var i, j :| i < j && ActiveAt(slots[1..], i, now) && ActiveAt(slots[1..], j, now);
      assert ActiveAt(slots, i + 1, now) && ActiveAt(slots, j + 1, now);
    }
    if ActiveAt(slots, 0, now) && exists i :: ActiveAt(slots[1..], i, now) {
      var j :| ActiveAt(slots[1..], j, now);
      assert ActiveAt(slots, j + 1, now);
    }
    if exists i :: ActiveAt(slots[1..], i, now) {
      var j :| ActiveAt(slots[1..], j, now);
      assert ActiveAt(slots, j + 1, now);
    }
  }

  /** The per-millisecond cache behind `GetLocalActiveInputDeviceCount`. */
  datatype CountCache = CountCache(checkTime: int, count: int)

  /** `GetLocalActiveInputDeviceCount`: recount only when the millisecond clock moved. */
  function GetLocalActiveInputDeviceCount(cache: CountCache, slots: seq<Option<Device>>, now: int)
    : (r: (int, CountCache))
    ensures r.1.checkTime == now && r.1.count == r.0
    ensures now != cache.checkTime ==> 0 <= r.0 <= |slots|
    ensures now != cache.checkTime ==> (r.0 > 0 <==> exists i :: ActiveAt(slots, i, now))
    ensures now == cache.checkTime ==> r.1 == cache
  {
    if now != cache.checkTime then
      var c := CountLocalActive(slots, now);
      (c, CountCache(now, c))
    else (cache.count, cache)
  }

  /** Within one millisecond the count is memoised, even if the registry changed meanwhile. */
  lemma CountIsMemoisedPerMillisecond(cache: CountCache, a: seq<Option<Device>>, b: seq<Option<Device>>, now: int)
    ensures GetLocalActiveInputDeviceCount(GetLocalActiveInputDeviceCount(cache, a, now).1, b, now).0
            == GetLocalActiveInputDeviceCount(cache, a, now).0
  {
  }

  /** `HaveManyLocalActiveInputDevices`: more than one local controller in recent use. */
  function HaveManyLocalActiveInputDevices(cache: CountCache, slots: seq<Option<Device>>, now: int)
    : (r: (bool, CountCache))
    ensures r.1.checkTime == now
    ensures now != cache.checkTime ==>
      (r.0 <==> exists i, j :: i < j && ActiveAt(slots, i, now) && ActiveAt(slots, j, now))
    ensures now == cache.checkTime ==> (r.0 <==> cache.count > 1)
  {
    var (count, cache') := GetLocalActiveInputDeviceCount(cache, slots, now);
    (count > 1, cache')
  }

  // ----------------------------------------------------------------- locks

  datatype LockState = LockState(
    tempCount: int,
    permanentCount: int,
    tempLockLabels: seq<string>,
    tempUnlockLabels: seq<string>,
    permanentLockLabels: seq<string>,
    permanentUnlockLabels: seq<string>,
    recentLocksUnlocks: seq<string>,
    lastTempLockTime: int)

  const RecentLogCap := 10
  const TempLockTimeout := 10000

  const InitialLocks := LockState(0, 0, [], [], [], [], [], 0)

  /** The invariant the lock operations keep: counts never negative, log capped at ten. */
  predicate LocksValid(s: LockState) {
    s.tempCount >= 0 && s.permanentCount >= 0 && |s.recentLocksUnlocks| <= RecentLogCap
    && (s.tempCount == 0 ==> s.tempLockLabels == [] && s.tempUnlockLabels == [])
    && (s.permanentCount == 0 ==> s.permanentLockLabels == [] && s.permanentUnlockLabels == [])
  }

  /** `IsInputLocked`. */
  function IsInputLocked(s: LockState): (r: bool)
    ensures LocksValid(s) ==> (r <==> s.tempCount != 0 || s.permanentCount != 0)
  {
    s.tempCount > 0 || s.permanentCount > 0
  }

  function TempLockEntry(lockLabel: string, now: nat): string {
    "temp lock: " + lockLabel + " time " + Strings.NatToString(now)
  }

  /** `LockAllInput` at app time `now` (milliseconds). */
  function LockAllInput(s: LockState, permanent: bool, lockLabel: string, now: nat): (r: LockState)
    ensures permanent ==>
      r == s.(permanentCount := s.permanentCount + 1,
               permanentLockLabels := s.permanentLockLabels + [lockLabel])
    ensures !permanent ==>
      r.tempCount == s.tempCount + 1
      && r.lastTempLockTime == (if s.tempCount == 0 then now else s.lastTempLockTime)
      && r.tempLockLabels == s.tempLockLabels + [lockLabel]
      && r.tempUnlockLabels == s.tempUnlockLabels
      && r.permanentCount == s.permanentCount
      && r.permanentLockLabels == s.permanentLockLabels
      && r.permanentUnlockLabels == s.permanentUnlockLabels
      && r.recentLocksUnlocks == Seqs.KeepNewest(s.recentLocksUnlocks + [TempLockEntry(lockLabel, now)], RecentLogCap)
    ensures LocksValid(s) ==> LocksValid(r) && IsInputLocked(r)
  {
    if permanent then
      s.(permanentCount := s.permanentCount + 1, permanentLockLabels := s.permanentLockLabels + [lockLabel])
    else
      var count := s.tempCount + 1;
      var started := if count == 1 then now else s.lastTempLockTime;
      var log := Seqs.KeepNewest(s.recentLocksUnlocks + [TempLockEntry(lockLabel, now)], RecentLogCap);
      s.(tempCount := count, lastTempLockTime := started,
         tempLockLabels := s.tempLockLabels + [lockLabel], recentLocksUnlocks := log)
  }

  /**
   * The log line `UnlockAllInput` records, as the source writes it: the
   * conditional binds looser than `+`, so a permanent unlock is logged
   * without its label or time.
   */
  function UnlockEntryAsWritten(permanent: bool, lockLabel: string, now: nat): string {
    if permanent then "permanent unlock: "
    else "temp unlock: " + lockLabel + " time " + Strings.NatToString(now)
  }

  /**
   * Counterexample: a permanent unlock labelled `"menu"` at time 5 is logged
   * exactly like an unlabelled one at time 0, and without the time suffix.
   */
  lemma UnlockEntryAsWrittenDropsLabel()
    ensures UnlockEntryAsWritten(true, "menu", 5) == UnlockEntryAsWritten(true, "", 0)
    ensures !Strings.EndsWith(UnlockEntryAsWritten(true, "menu", 5), " time " + Strings.NatToString(5))
  {
    var e := UnlockEntryAsWritten(true, "menu", 5);
    var suffix := " time " + Strings.NatToString(5);
    assert Strings.NatToString(5) == "5";
    assert |e| == 18 && |suffix| == 7;
    assert e[11..][0] == 'n' != suffix[0];
  }

  /** The log line with the prefix chosen first, as the temp branch and `LockAllInput` format it. */
  function UnlockEntry(permanent: bool, lockLabel: string, now: nat): (e: string)
    ensures Strings.OccursAt(e, lockLabel, |e| - |lockLabel| - 6 - |Strings.NatToString(now)|)
    ensures Strings.EndsWith(e, " time " + Strings.NatToString(now))
  {
    var prefix := if permanent then "permanent unlock: " else "temp unlock: ";
    var e := prefix + lockLabel + " time " + Strings.NatToString(now);
    assert e[|prefix|..|prefix| + |lockLabel|] == lockLabel;
    assert e[|e| - |" time " + Strings.NatToString(now)|..] == " time " + Strings.NatToString(now);
    e
  }

  /** Unlock entries always carry their label. */
  lemma UnlockEntryNamesLabel(permanent: bool, lockLabel: string, now: nat)
    ensures Strings.Contains(UnlockEntry(permanent, lockLabel, now), lockLabel)
  {
    var e := UnlockEntry(permanent, lockLabel, now);
    assert Strings.OccursAt(e, lockLabel, |e| - |lockLabel| - 6 - |Strings.NatToString(now)|);
  }

  /**
   * `UnlockAllInput` at app time `now`: logs the unlock, decrements the
   * count clamping at zero, and forgets that kind's labels once it is zero.
   */
  function UnlockAllInput(s: LockState, permanent: bool, lockLabel: string, now: nat): (r: LockState)
    ensures r.recentLocksUnlocks == Seqs.KeepNewest(s.recentLocksUnlocks + [UnlockEntry(permanent, lockLabel, now)], RecentLogCap)
    ensures r.lastTempLockTime == s.lastTempLockTime
    ensures permanent ==>
      r.permanentCount == (if s.permanentCount - 1 < 0 then 0 else s.permanentCount - 1)
      && (r.permanentCount == 0 ==> r.permanentLockLabels == [] && r.permanentUnlockLabels == [])
      && (r.permanentCount != 0 ==> r.permanentLockLabels == s.permanentLockLabels
                                    && r.permanentUnlockLabels == s.permanentUnlockLabels + [lockLabel])
      && r.tempCount == s.tempCount && r.tempLockLabels == s.tempLockLabels
      && r.tempUnlockLabels == s.tempUnlockLabels
    ensures !permanent ==>
      r.tempCount == (if s.tempCount - 1 < 0 then 0 else s.tempCount - 1)
      && (r.tempCount == 0 ==> r.tempLockLabels == [] && r.tempUnlockLabels == [])
      && (r.tempCount != 0 ==> r.tempLockLabels == s.tempLockLabels
                               && r.tempUnlockLabels == s.tempUnlockLabels + [lockLabel])
      && r.permanentCount == s.permanentCount && r.permanentLockLabels == s.permanentLockLabels
      && r.permanentUnlockLabels == s.permanentUnlockLabels
    ensures LocksValid(s) ==> LocksValid(r)
  {
    var log := Seqs.KeepNewest(s.recentLocksUnlocks + [UnlockEntry(permanent, lockLabel, now)], RecentLogCap);
    if permanent then
      var c := s.permanentCount - 1;
      var unlocks := s.permanentUnlockLabels + [lockLabel];
      var c' := if c < 0 then 0 else c;
      if c' == 0 then
        s.(recentLocksUnlocks := log, permanentCount := 0, permanentLockLabels := [], permanentUnlockLabels := [])
      else
        s.(recentLocksUnlocks := log, permanentCount := c', permanentUnlockLabels := unlocks)
    else
      var c := s.tempCount - 1;
      var unlocks := s.tempUnlockLabels + [lockLabel];
      var c' := if c < 0 then 0 else c;
      if c' == 0 then
        s.(recentLocksUnlocks := log, tempCount := 0, tempLockLabels := [], tempUnlockLabels := [])
      else
        s.(recentLocksUnlocks := log, tempCount := c', tempUnlockLabels := unlocks)
  }

  /** A lock followed by an unlock of the same kind restores both counts. */
  lemma LockThenUnlockRestoresCounts(s: LockState, permanent: bool, a: string, b: string, t1: nat, t2: nat)
    requires LocksValid(s)
    ensures var r := UnlockAllInput(LockAllInput(s, permanent, a, t1), permanent, b, t2);
      r.tempCount == s.tempCount && r.permanentCount == s.permanentCount
      && IsInputLocked(r) == IsInputLocked(s)
  {
  }

  // ------------------------------------------------------- display-time step

  datatype Activity = Activity(inputActive: bool, idleTime: int, lastCountUpdateTime: int)

  const CountUpdateInterval := 249

  /**
   * `StepDisplayTime` at app time `now`: the temp-lock watchdog and the idle
   * clock (device counts are refreshed on the same cadence; see README).
   */
  function StepDisplayTime(locks: LockState, act: Activity, now: int): (r: (LockState, Activity))
    ensures (locks.tempCount != 0 && now - locks.lastTempLockTime > TempLockTimeout) ==>
      r.0 == locks.(tempCount := 0, tempLockLabels := [], tempUnlockLabels := [])
    ensures !(locks.tempCount != 0 && now - locks.lastTempLockTime > TempLockTimeout) ==> r.0 == locks
    ensures now - act.lastCountUpdateTime > CountUpdateInterval ==>
      r.1.lastCountUpdateTime == now && !r.1.inputActive
      && r.1.idleTime == (if act.inputActive then 0 else act.idleTime + CountUpdateInterval)
    ensures now - act.lastCountUpdateTime <= CountUpdateInterval ==> r.1 == act
    ensures LocksValid(locks) ==> LocksValid(r.0)
  {
    var locks' :=
      if locks.tempCount != 0 && now - locks.lastTempLockTime > TempLockTimeout then
        locks.(tempCount := 0, tempLockLabels := [], tempUnlockLabels := [])
      else locks;
    var act' :=
      if now - act.lastCountUpdateTime > CountUpdateInterval then
        Activity(false, if act.inputActive then 0 else act.idleTime + CountUpdateInterval, now)
      else act;
    (locks', act')
  }

  /** A temp lock taken from zero at `t` survives every step up to `t + 10000`. */
  lemma WatchdogWaitsTenSeconds(s: LockState, lockLabel: string, t: nat, act: Activity, now: int)
    requires LocksValid(s) && s.tempCount == 0
    requires now <= t + TempLockTimeout
    ensures StepDisplayTime(LockAllInput(s, false, lockLabel, t), act, now).0.tempCount == 1
  {
  }

  /** Once the watchdog fires, only permanent locks can keep input locked. */
  lemma WatchdogReleasesTempLocks(s: LockState, act: Activity, now: int)
    requires LocksValid(s) && s.tempCount > 0 && now - s.lastTempLockTime > TempLockTimeout
    ensures IsInputLocked(StepDisplayTime(s, act, now).0) <==> s.permanentCount > 0
  {
  }

  // ------------------------------------------------------------ held keys

  datatype KeyPress = PressIgnored | PressCaptured | Pressed(repeat: bool)
  datatype KeyRelease = ReleaseCaptured | DuplicateRelease | ReleasedWhileLocked | Released

  /**
   * `HandleKeyPress` up to the point where the key is dispatched: marks
   * input active, ignores the key while input is locked, lets a capture
   * callback (whose answer is `captured`) swallow it, and tracks the held set.
   */
  function HandleKeyPress(held: set<int>, locks: LockState, key: int, captured: bool)
    : (r: (set<int>, bool, KeyPress))
    ensures r.1
    ensures IsInputLocked(locks) ==> r.0 == held && r.2 == PressIgnored
    ensures !IsInputLocked(locks) && captured ==> r.0 == held && r.2 == PressCaptured
    ensures !IsInputLocked(locks) && !captured ==>
      r.0 == held + {key} && r.2 == Pressed(key in held)
  {
    if IsInputLocked(locks) then (held, true, PressIgnored)
    else if captured then (held, true, PressCaptured)
    else if key in held then (held, true, Pressed(true))
    else (held + {key}, true, Pressed(false))
  }

  /**
   * `HandleKeyRelease` up to dispatch: releases get through even while input
   * is locked, duplicate releases of keys not held are dropped.
   */
  function HandleKeyRelease(held: set<int>, locks: LockState, key: int, captured: bool)
    : (r: (set<int>, bool, KeyRelease))
    ensures r.1
    ensures captured ==> r.0 == held && r.2 == ReleaseCaptured
    ensures !captured && key !in held ==> r.0 == held && r.2 == DuplicateRelease
    ensures !captured && key in held ==>
      (r.0 == held - {key} && r.2 == (if IsInputLocked(locks) then ReleasedWhileLocked else Released))
  {
    if captured then (held, true, ReleaseCaptured)
    else if key !in held then (held, true, DuplicateRelease)
    else if IsInputLocked(locks) then (held - {key}, true, ReleasedWhileLocked)
    else (held - {key}, true, Released)
  }

  /** Pressing a fresh key and releasing it leaves the held set as it was, whatever the locks do in between. */
  lemma PressReleaseRestoresHeld(held: set<int>, unlocked: LockState, later: LockState, key: int)
    requires !IsInputLocked(unlocked) && key !in held
    ensures var h1 := HandleKeyPress(held, unlocked, key, false).0;
      HandleKeyRelease(h1, later, key, false).0 == held
  {
  }

  /** A held key pressed again is reported as a repeat and changes nothing. */
  lemma RepeatPressIsIdempotent(held: set<int>, locks: LockState, key: int)
    requires !IsInputLocked(locks) && key in held
    ensures HandleKeyPress(held, locks, key, false) == (held, true, Pressed(true))
  {
  }

  // ---------------------------------------------------------- single touch

  datatype TouchType = Down | Up | Moved | Canceled
  datatype TouchEvent = TouchEvent(kind: TouchType, touch: nat, overall: bool)
  datatype MouseAction = MouseDown | MouseMotion | MouseUp

  /** Whether a touch event ends a touch in the eyes of the single-touch tracker. */
  predicate Ends(e: TouchEvent) {
    e.kind == Up || e.kind == Canceled
  }

  /**
   * `HandleTouchEvent`'s single-touch tracking: returns the tracked touch
   * after the event, the mouse actions it emits, and whether input was
   * marked active (nothing happens while input is locked).
   */
  function HandleTouchEvent(single: Option<nat>, locks: LockState, e: TouchEvent)
    : (r: (Option<nat>, seq<MouseAction>, bool))
    ensures IsInputLocked(locks) ==> r == (single, [], false)
    ensures !IsInputLocked(locks) ==> r.2
    ensures !IsInputLocked(locks) && e.kind == Down ==>
      (single.None? ==> r.0 == Some(e.touch) && r.1 == [MouseDown])
      && (single.Some? ==> r.0 == single && r.1 == [])
    ensures !IsInputLocked(locks) && e.kind == Moved ==>
      r.0 == single && r.1 == (if single == Some(e.touch) then [MouseMotion] else [])
    ensures !IsInputLocked(locks) && Ends(e) ==>
      (single == Some(e.touch) || e.overall ==> r.0 == None && r.1 == [MouseUp])
      && (!(single == Some(e.touch) || e.overall) ==> r.0 == single && r.1 == [])
  {
    if IsInputLocked(locks) then (single, [], false)
    else
      var (s1, a1) := if e.kind == Down && single.None? then (Some(e.touch), [MouseDown]) else (single, []);
      var a2 := if e.kind == Moved && s1 == Some(e.touch) then a1 + [MouseMotion] else a1;
      var (s3, a3) := if Ends(e) && (s1 == Some(e.touch) || e.overall) then (None, a2 + [MouseUp]) else (s1, a2);
      (s3, a3, true)
  }

  /** A touch that goes down while none is tracked and then up produces exactly one click. */
  lemma TouchDownUpIsClick(locks: LockState, t: nat, overall: bool)
    requires !IsInputLocked(locks)
    ensures var (s1, a1, _) := HandleTouchEvent(None, locks, TouchEvent(Down, t, overall));
      var (s2, a2, _) := HandleTouchEvent(s1, locks, TouchEvent(Up, t, false));
      s2 == None && a1 + a2 == [MouseDown, MouseUp]
  {
  }
}

=== FILE: logic.dfy ===
/**
 * `Logic`'s once-only lifecycle flags, its pending-work timer length, and
 * display time: the smoothed per-frame increment for drawn frames (a
 * 15-sample ring of recent increments with the extremes dropped, followed
 * by a trailing buffer) and the headless variant that follows app time.
 * Doubles are modelled as reals.
 */
module Logic {
  import opened Wrappers

  // ------------------------------------------------------------- lifecycle

  datatype Lifecycle = Lifecycle(
    bootstrappingComplete: bool,
    shuttingDown: bool,
    shutdownCompleted: bool,
    appShutdownRuns: nat,
    shutdownCompleteRuns: nat)

  const InitialLifecycle := Lifecycle(false, false, false, 0, 0)

  /** `CompleteAppBootstrapping`: may happen once. */
  function CompleteAppBootstrapping(l: Lifecycle): (r: Lifecycle)
    requires !l.bootstrappingComplete
    ensures r == l.(bootstrappingComplete := true)
  {
    l.(bootstrappingComplete := true)
  }

  /** `Shutdown`: the first call starts shutting down and runs `OnAppShutdown`; later calls do nothing. */
  function Shutdown(l: Lifecycle): (r: Lifecycle)
    ensures r.shuttingDown
    ensures !l.shuttingDown ==> r == l.(shuttingDown := true, appShutdownRuns := l.appShutdownRuns + 1)
    ensures l.shuttingDown ==> r == l
  {
    if !l.shuttingDown then l.(shuttingDown := true, appShutdownRuns := l.appShutdownRuns + 1) else l
  }

  /** Shutting down twice is shutting down once. */
  lemma ShutdownIsIdempotent(l: Lifecycle)
    ensures Shutdown(Shutdown(l)) == Shutdown(l)
    ensures Shutdown(Shutdown(l)).appShutdownRuns <= l.appShutdownRuns + 1
  {
  }

  /** `CompleteShutdown`: its preconditions throw unless shutting down and not yet completed. */
  function CompleteShutdown(l: Lifecycle): (r: Result<Lifecycle>)
    ensures r.Success? <==> l.shuttingDown && !l.shutdownCompleted
    ensures r.Success? ==> r.value == l.(shutdownCompleted := true, shutdownCompleteRuns := l.shutdownCompleteRuns + 1)
  {
    if !l.shuttingDown then Failure("precondition failed: shutting_down_")
    else if l.shutdownCompleted then Failure("precondition failed: !shutdown_completed_")
    else Success(l.(shutdownCompleted := true, shutdownCompleteRuns := l.shutdownCompleteRuns + 1))
  }

  /** From the start, shutdown completes at most once and only after it began. */
  lemma ShutdownCompletesOnce(l: Lifecycle)
    requires CompleteShutdown(l).Success?
    ensures l.shuttingDown
    ensures CompleteShutdown(CompleteShutdown(l).value).Failure?
    ensures CompleteShutdown(Shutdown(CompleteShutdown(l).value)).Failure?
  {
  }

  // ---------------------------------------------------------- work timers

  /**
   * `UpdatePendingWorkTimer`: the length given to the timer, if there is
   * one: 1 ms while loads are pending, -1 (sleep) otherwise.
   */
  function PendingWorkTimerLength(hasTimer: bool, havePendingLoads: bool): (r: Option<int>)
    ensures r.None? <==> !hasTimer
    ensures r.Some? ==> (r.value == 1 <==> havePendingLoads) && (r.value == -1 <==> !havePendingLoads)
  {
    if !hasTimer then None else if havePendingLoads then Some(1) else Some(-1)
  }

  /**
   * The timer's length tells the two states apart: it fires again (a
   * positive length) exactly when loads are pending, and sleeps otherwise.
   */
  lemma PendingWorkTimerRecordsLoads(p: bool, q: bool)
    ensures PendingWorkTimerLength(true, p).Some?
    ensures PendingWorkTimerLength(true, p).value > 0 <==> p
    ensures PendingWorkTimerLength(true, p) == PendingWorkTimerLength(true, q) ==> p == q
  {
  }

  const MinHeadlessDisplayStep := 1000
  const MaxHeadlessDisplayStep := 500000

  /**
   * `PostUpdateDisplayTimeForHeadlessMode`: the app mode's requested step
   * (microseconds) clamped to [1000, 500000]; the timer gets it in whole
   * milliseconds.
   */
  function HeadlessSleep(requestedMicros: int): (r: (int, int))
    ensures MinHeadlessDisplayStep <= r.0 <= MaxHeadlessDisplayStep
    ensures MinHeadlessDisplayStep <= requestedMicros <= MaxHeadlessDisplayStep ==> r.0 == requestedMicros
    ensures requestedMicros < MinHeadlessDisplayStep ==> r.0 == MinHeadlessDisplayStep
    ensures requestedMicros > MaxHeadlessDisplayStep ==> r.0 == MaxHeadlessDisplayStep
    ensures 1 <= r.1 <= 500 && r.1 * 1000 <= r.0 < (r.1 + 1) * 1000
  {
    var capped := if requestedMicros < MaxHeadlessDisplayStep then requestedMicros else MaxHeadlessDisplayStep;
    var step := if capped > MinHeadlessDisplayStep then capped else MinHeadlessDisplayStep;
    (step, step / 1000)
  }

  /** Clamping is idempotent: a step already in range is kept as it is. */
  lemma HeadlessSleepIdempotent(requestedMicros: int)
    ensures HeadlessSleep(HeadlessSleep(requestedMicros).0) == HeadlessSleep(requestedMicros)
  {
  }

  /** A longer requested step never gives a shorter sleep. */
  lemma HeadlessSleepMonotone(a: int, b: int)
    requires a <= b
    ensures HeadlessSleep(a).0 <= HeadlessSleep(b).0
    ensures HeadlessSleep(a).1 <= HeadlessSleep(b).1
  {
  }

  // ------------------------------------------------------------- samples

  const SampleCount := 15

  /** Position of the first largest sample, as the scan with a strict `>` finds it. */
  function FirstMaxIndex(s: seq<real>, n: nat): (r: nat)
    requires 0 < n <= |s|
    ensures r < n
    ensures forall j | 0 <= j < n :: s[j] <= s[r]
    ensures forall j | 0 <= j < r :: s[j] < s[r]
  {
    if n == 1 then 0
    else
      var p := FirstMaxIndex(s, n - 1);
      if s[n - 1] > s[p] then n - 1 else p
  }

  /** Position of the first smallest sample. */
  function FirstMinIndex(s: seq<real>, n: nat): (r: nat)
    requires 0 < n <= |s|
    ensures r < n
    ensures forall j | 0 <= j < n :: s[r] <= s[j]
    ensures forall j | 0 <= j < r :: s[r] < s[j]
  {
    if n == 1 then 0
    else
      var p := FirstMinIndex(s, n - 1);
      if s[n - 1] < s[p] then n - 1 else p
  }

  /** The samples among the first `n` whose positions are neither `a` nor `b`, in order. */
  function Kept(s: seq<real>, a: nat, b: nat, n: nat): (r: seq<real>)
    requires n <= |s|
    ensures |r| == n - (if a < n then 1 else 0) - (if b < n && b != a then 1 else 0)
    ensures forall x | x in r :: x in s[..n]
  {
    if n == 0 then []
    else
      var rest := Kept(s, a, b, n - 1);
      assert forall x | x in rest :: x in s[..n] by { assert s[..n - 1] == s[..n][..n - 1]; }
      if n - 1 == a || n - 1 == b then rest else rest + [s[n - 1]]
  }

  function Sum(xs: seq<real>): real {
    if |xs| == 0 then 0.0 else Sum(xs[..|xs| - 1]) + xs[|xs| - 1]
  }

  function MinOf(xs: seq<real>): (r: real)
    requires |xs| > 0
    ensures r in xs && forall x | x in xs :: r <= x
  {
    if |xs| == 1 then xs[0]
    else
      var m := MinOf(xs[..|xs| - 1]);
      assert forall x | x in xs :: x in xs[..|xs| - 1] || x == xs[|xs| - 1];
      if xs[|xs| - 1] < m then xs[|xs| - 1] else m
  }

  function MaxOf(xs: seq<real>): (r: real)
    requires |xs| > 0
    ensures r in xs && forall x | x in xs :: x <= r
  {
    if |xs| == 1 then xs[0]
    else
      var m := MaxOf(xs[..|xs| - 1]);
      assert forall x | x in xs :: x in xs[..|xs| - 1] || x == xs[|xs| - 1];
      if xs[|xs| - 1] > m then xs[|xs| - 1] else m
  }

  function Times(n: real, x: real): real { n * x }

  /** A sum lies between count·min and count·max. */
  lemma {:induction false} SumBounds(xs: seq<real>, lo: real, hi: real)
    requires forall x | x in xs :: lo <= x <= hi
    ensures Times(|xs| as real, lo) <= Sum(xs) <= Times(|xs| as real, hi)
    decreases |xs|
  {
    if |xs| > 0 {
      var init := xs[..|xs| - 1];
      var last := xs[|xs| - 1];
      assert forall x | x in init :: x in xs;
      SumBounds(init, lo, hi);
      assert last in xs;
      assert Sum(xs) == Sum(init) + last;
      assert |xs| as real * lo == |init| as real * lo + lo;
      assert |xs| as real * hi == |init| as real * hi + hi;
    }
  }

  /** The 13 or 14 samples `UpdateDisplayTimeForFrameDraw` averages: all but the first minimum and first maximum. */
  function Trimmed(samples: seq<real>): (r: seq<real>)
    requires |samples| == SampleCount
    ensures |r| == 13 || |r| == 14
    ensures |r| == 14 <==> FirstMinIndex(samples, SampleCount) == FirstMaxIndex(samples, SampleCount)
    ensures forall x | x in r :: MinOf(samples) <= x <= MaxOf(samples)
  {
    var r := Kept(samples, FirstMinIndex(samples, SampleCount), FirstMaxIndex(samples, SampleCount), SampleCount);
    assert samples[..SampleCount] == samples;
    r
  }

  /** The mean of a non-empty sequence lies between its extremes. */
  lemma MeanBetweenExtremes(t: seq<real>)
    requires |t| > 0
    ensures MinOf(t) <= Sum(t) / |t| as real <= MaxOf(t)
  {
    var lo, hi := MinOf(t), MaxOf(t);
    assert forall x | x in t :: lo <= x <= hi;
    SumBounds(t, lo, hi);
    DivideBounds(Sum(t), |t| as real, lo, hi);
  }

  lemma DivideBounds(total: real, n: real, lo: real, hi: real)
    requires n > 0.0 && Times(n, lo) <= total <= Times(n, hi)
    ensures lo <= total / n <= hi
  {
    assert total / n - lo == (total - n * lo) / n;
    assert hi - total / n == (n * hi - total) / n;
  }

  /** The mean of the trimmed samples, which lies between their smallest and largest. */
  function TrimmedMean(samples: seq<real>): (r: real)
    requires |samples| == SampleCount
    ensures MinOf(Trimmed(samples)) <= r <= MaxOf(Trimmed(samples))
    ensures MinOf(samples) <= r <= MaxOf(samples)
  {
    var t := Trimmed(samples);
    MeanBetweenExtremes(t);
    assert MinOf(t) in t && MaxOf(t) in t;
    Sum(t) / |t| as real
  }

  /** When every sample is the same, the trimmed mean is that value. */
  lemma SteadySamplesAverageToThemselves(samples: seq<real>, x: real)
    requires |samples| == SampleCount && forall i | 0 <= i < SampleCount :: samples[i] == x
    ensures TrimmedMean(samples) == x
  {
    assert x in samples;
    assert MinOf(samples) == x && MaxOf(samples) == x;
  }

  /**
   * The ring-buffer store: the first sample fills every slot and sets the
   * write position to 0; later ones overwrite the current slot, which then
   * advances modulo 15.
   */
  function RecordSample(samples: seq<real>, index: int, x: real): (r: (seq<real>, int))
    requires |samples| == SampleCount && -1 <= index < SampleCount
    ensures |r.0| == SampleCount && 0 <= r.1 < SampleCount
    ensures index < 0 ==> r.1 == 0 && forall i | 0 <= i < SampleCount :: r.0[i] == x
    ensures index >= 0 ==> r.0 == samples[index := x] && r.1 == (index + 1) % SampleCount
  {
    if index < 0 then (seq(SampleCount, _ => x), 0)
    else (samples[index := x], (index + 1) % SampleCount)
  }

  /** Fifteen samples after the first, every slot holds one of the last fifteen samples. */
  lemma RingOverwritesOldest(samples: seq<real>, index: int, x: real, y: real)
    requires |samples| == SampleCount && 0 <= index < SampleCount
    ensures var (s1, i1) := RecordSample(samples, index, x);
      RecordSample(s1, i1, y).0[index] == x && RecordSample(s1, i1, y).0[i1] == y
  {
  }

  // ------------------------------------------------------------ increments

  /**
   * Whether the mean is trusted: when the trimmed range is under half the
   * mean. A zero mean gives an IEEE NaN or infinity ratio, which compares false.
   */
  function UseAverage(samples: seq<real>): (r: bool)
    requires |samples| == SampleCount
    ensures r ==> TrimmedMean(samples) != 0.0
    ensures TrimmedMean(samples) > 0.0 ==>
      (r <==> MaxOf(Trimmed(samples)) - MinOf(Trimmed(samples)) < 0.5 * TrimmedMean(samples))
  {
    var t := Trimmed(samples);
    var avg := TrimmedMean(samples);
    if avg > 0.0 then
      RatioBelowHalf(MaxOf(t) - MinOf(t), avg);
      (MaxOf(t) - MinOf(t)) / avg < 0.5
    else avg != 0.0 && (MaxOf(t) - MinOf(t)) / avg < 0.5
  }

  /** For a positive mean, the chaos ratio is under a half exactly when the spread is under half the mean. */
  lemma RatioBelowHalf(spread: real, avg: real)
    requires avg > 0.0
    ensures spread / avg < 0.5 <==> spread < 0.5 * avg
  {
    assert spread == (spread / avg) * avg;
  }

  function Abs(x: real): real { if x < 0.0 then -x else x }

  /**
   * The trailing buffer: the increment moves only when `used` is more than
   * 3% of the mean away from it, and then by exactly the excess, towards `used`.
   */
  function Trail(increment: real, used: real, avg: real): (r: real)
    ensures Abs(used - increment) <= avg * 0.03 ==> r == increment
    ensures avg >= 0.0 && Abs(used - increment) > avg * 0.03 ==>
      Abs(used - r) == avg * 0.03 && (used > increment ==> increment < r) && (used < increment ==> r < increment)
  {
    var buffer := avg * 0.03;
    var diff := used - increment;
    var dist := Abs(diff);
    if dist > buffer then increment + (dist - buffer) * (if diff > 0.0 then 1.0 else -1.0)
    else increment
  }

  /** Trailing is idempotent: once it has moved, the same `used` value does not move it again. */
  lemma TrailSettles(increment: real, used: real, avg: real)
    requires avg >= 0.0
    ensures Trail(Trail(increment, used, avg), used, avg) == Trail(increment, used, avg)
  {
  }

  /** `static_cast<int64_t>` of a double: truncation toward zero. */
  function TruncateToInt(x: real): (r: int)
    ensures x >= 0.0 ==> r as real <= x < r as real + 1.0
    ensures x < 0.0 ==> r as real - 1.0 < x <= r as real
  {
    if x >= 0.0 then x.Floor else -((-x).Floor)
  }

  datatype DisplayClock = DisplayClock(
    displayTime: real,
    displayTimeMicros: int,
    increment: real,
    incrementMicros: int,
    lastUpdateAppTime: real,
    samples: seq<real>,
    index: int)

  predicate ClockValid(c: DisplayClock) {
    |c.samples| == SampleCount && -1 <= c.index < SampleCount
  }

  const InitialClock := DisplayClock(0.0, 0, 1.0 / 60.0, 1000000 / 60, -1.0, seq(SampleCount, _ => 0.0), -1)

  /**
   * `UpdateDisplayTimeForFrameDraw` at app time `now` (seconds): the first
   * call only records the time; later ones store the increment since the
   * previous call and trail the display increment toward the trimmed mean
   * (or the raw sample when recent samples are erratic). The increment is
   * then added to display time, and the integer microseconds follow.
   */
  function UpdateDisplayTimeForFrameDraw(c: DisplayClock, now: real): (r: DisplayClock)
    requires ClockValid(c)
    ensures ClockValid(r) && r.lastUpdateAppTime == now
    ensures c.lastUpdateAppTime < 0.0 ==> r.increment == c.increment && r.samples == c.samples && r.index == c.index
    ensures c.lastUpdateAppTime >= 0.0 ==>
      (r.samples, r.index) == RecordSample(c.samples, c.index, now - c.lastUpdateAppTime)
    ensures c.lastUpdateAppTime >= 0.0 ==>
      var used := if UseAverage(r.samples) then TrimmedMean(r.samples) else now - c.lastUpdateAppTime;
      r.increment == Trail(c.increment, used, TrimmedMean(r.samples))
    ensures r.displayTime == c.displayTime + r.increment
    ensures r.displayTimeMicros == TruncateToInt(r.displayTime * 1000000.0)
    ensures r.incrementMicros == r.displayTimeMicros - c.displayTimeMicros
  {
    var d :=
      if c.lastUpdateAppTime < 0.0 then c.(lastUpdateAppTime := now)
      else
        var sample := now - c.lastUpdateAppTime;
        var (samples, index) := RecordSample(c.samples, c.index, sample);
        var avg := TrimmedMean(samples);
        var used := if UseAverage(samples) then avg else sample;
        c.(lastUpdateAppTime := now, samples := samples, index := index, increment := Trail(c.increment, used, avg));
    var t := d.displayTime + d.increment;
    var micros := TruncateToInt(t * 1000000.0);
    d.(displayTime := t, displayTimeMicros := micros, incrementMicros := micros - c.displayTimeMicros)
  }

  /** At a perfectly steady frame rate matching the increment, the increment never moves. */
  lemma SteadyFramesKeepIncrement(c: DisplayClock, now: real)
    requires ClockValid(c) && c.lastUpdateAppTime >= 0.0 && c.index >= 0
    requires forall i | 0 <= i < SampleCount :: c.samples[i] == c.increment
    requires now - c.lastUpdateAppTime == c.increment && c.increment > 0.0
    ensures UpdateDisplayTimeForFrameDraw(c, now).increment == c.increment
  {
    var r := UpdateDisplayTimeForFrameDraw(c, now);
    var samples := RecordSample(c.samples, c.index, c.increment).0;
    assert r.samples == samples;
    assert forall i | 0 <= i < SampleCount :: samples[i] == c.increment;
    SteadyChoiceIsTheSample(samples, c.increment);
    var used := if UseAverage(samples) then TrimmedMean(samples) else now - c.lastUpdateAppTime;
    assert used == c.increment;
    assert r.increment == Trail(c.increment, used, TrimmedMean(samples));
    TrailAtIncrementStays(c.increment, TrimmedMean(samples));
  }

  /** With every sample equal, the increment the clock trails towards is that sample, averaged or not. */
  lemma SteadyChoiceIsTheSample(samples: seq<real>, x: real)
    requires |samples| == SampleCount && forall i | 0 <= i < SampleCount :: samples[i] == x
    ensures TrimmedMean(samples) == x
    ensures (if UseAverage(samples) then TrimmedMean(samples) else x) == x
  {
    SteadySamplesAverageToThemselves(samples, x);
  }

  lemma TrailAtIncrementStays(increment: real, avg: real)
    requires avg >= 0.0
    ensures Trail(increment, increment, avg) == increment
  {
    assert Abs(increment - increment) == 0.0;
  }

  /**
   * `UpdateDisplayTimeForHeadlessMode` at app time `appMicros`: display time
   * is app time, the increment is the step since last time, and the reals
   * follow the integers.
   */
  function UpdateDisplayTimeForHeadlessMode(c: DisplayClock, appMicros: int): (r: DisplayClock)
    ensures r.displayTimeMicros == appMicros
    ensures r.incrementMicros == appMicros - c.displayTimeMicros
    ensures r.displayTime * 1000000.0 == appMicros as real
    ensures r.increment * 1000000.0 == r.incrementMicros as real
    ensures r.samples == c.samples && r.index == c.index && r.lastUpdateAppTime == c.lastUpdateAppTime
  {
    var inc := appMicros - c.displayTimeMicros;
    c.(displayTimeMicros := appMicros, incrementMicros := inc,
       displayTime := appMicros as real / 1000000.0, increment := inc as real / 1000000.0)
  }

  /** Headless increments add up: two steps advance display time by their sum. */
  lemma HeadlessIncrementsTelescope(c: DisplayClock, t1: int, t2: int)
    ensures var c1 := UpdateDisplayTimeForHeadlessMode(c, t1);
      var c2 := UpdateDisplayTimeForHeadlessMode(c1, t2);
      c1.incrementMicros + c2.incrementMicros == t2 - c.displayTimeMicros
  {
  }
}

=== FILE: pcommands2.dfy ===
/**
 * Build-tool commands: the generated header that registers the monolithic
 * build's Python modules, `wsl_path_to_win`'s argument handling and output
 * munging, `update_cmake_prefab_lib`'s validation and copy decision, and
 * the archive names for unstripped Android libraries. Feature sets, the
 * filesystem, file times and `wslpath` are parameters.
 */
module PCommands2 {
  import opened Wrappers
  import Strings

  // --------------------------------------------------- module registration

  /** The init symbol for a module; `_baplus` gets a forwarding wrapper of its own. */
  function InitName(name: string): (r: string)
    ensures name == "_baplus" ==> r == "DoPyInit__baplus"
    ensures name != "_baplus" ==> r == "PyInit_" + name
  {
    if name == "_baplus" then "DoPyInit__baplus" else "PyInit_" + name
  }

  /** No two modules share an init symbol. */
  lemma InitNamesDiffer(a: string, b: string)
    requires a != b
    ensures InitName(a) != InitName(b)
  {
    if a != "_baplus" && b != "_baplus" {
      assert InitName(a)[7..] == a && InitName(b)[7..] == b;
    } else if a == "_baplus" {
      assert InitName(a)[0] == 'D' && InitName(b)[0] == 'P';
    } else {
      assert InitName(b)[0] == 'D' && InitName(a)[0] == 'P';
    }
  }

  function ExternLine(name: string): string {
    "auto " + InitName(name) + "() -> PyObject*;"
  }

  function RegisterLine(name: string): string {
    "PyImport_AppendInittab(\"" + name + "\", &" + InitName(name) + ");"
  }

  /** The forwarding definition emitted when `_baplus` is one of the modules. */
  const InitPlusCode :=
    "\n"
    + "// Slight hack: because we are currently building baplus as a static module\n"
    + "// and linking it in, symbols exported there (namely PyInit__baplus) do not\n"
    + "// seem to be available through us when we are compiled as a dynamic\n"
    + "// library. This leads to Python being unable to load baplus. While I'm sure\n"
    + "// there is some way to get those symbols exported, I'm worried it might be\n"
    + "// a messy platform-specific affair. So instead we're just defining that\n"
    + "// function here when baplus is present and forwarding it through to the\n"
    + "// static library version.\n"
    + "extern \"C\" auto PyInit__baplus() -> PyObject* {\n"
    + "  return DoPyInit__baplus();\n"
    + "}\n"

  /** The template up to the extern declarations (dedented, leading blank line stripped). */
  const HeaderHead :=
    "// Released under the MIT License. See LICENSE for details.\n"
    + "\n"
    + "#ifndef BALLISTICA_CORE_MGEN_PYTHON_MODULES_MONOLITHIC_H_\n"
    + "#define BALLISTICA_CORE_MGEN_PYTHON_MODULES_MONOLITHIC_H_\n"
    + "\n"
    + "// THIS CODE IS AUTOGENERATED BY META BUILD; DO NOT EDIT BY HAND.\n"
    + "\n"
    + "#include \"ballistica/shared/ballistica.h\"\n"
    + "#include \"ballistica/shared/python/python_sys.h\"\n"
    + "\n"
    + "extern \"C\" {\n"

  /** The template between the extern declarations and the register calls. */
  const HeaderMiddle :=
    "\n"
    + "}\n"
    + "\n"
    + "namespace ballistica {\n"
    + "\n"
    + "/// Register init calls for all of our built-in Python modules.\n"
    + "/// Should only be used in monolithic builds. In modular builds\n"
    + "/// binary modules get located as .so files on disk as per regular\n"
    + "/// Python behavior.\n"
    + "void MonolithicRegisterPythonModules() {\n"
    + "  if (g_buildconfig.monolithic_build()) {\n"

  /** The template between the register calls and the `_baplus` forwarder. */
  const HeaderAfterRegister :=
    "\n"
    + "  } else {\n"
    + "    FatalError(\n"
    + "        \"MonolithicRegisterPythonModules should not be called\"\n"
    + "        \" in modular builds.\");\n"
    + "  }\n"
    + "}\n"

  /** The template's end (its trailing blank line stripped, one newline added back). */
  const HeaderTail :=
    "\n"
    + "}  // namespace ballistica\n"
    + "\n"
    + "#endif  // BALLISTICA_CORE_MGEN_PYTHON_MODULES_MONOLITHIC_H_\n"

  function Lines(parts: seq<string>, f: string -> string): (r: seq<string>)
    ensures |r| == |parts| && forall i | 0 <= i < |parts| :: r[i] == f(parts[i])
  {
    seq(|parts|, i requires 0 <= i < |parts| => f(parts[i]))
  }

  function Indent(line: string): string {
    "    " + line
  }

  function SortedModules(modules: seq<string>): (r: seq<string>)
    ensures multiset(r) == multiset(modules)
    ensures forall i, j | 0 <= i < j < |r| :: Strings.LexLe(r[i], r[j])
  {
    Strings.SortBy(modules, m => m)
  }

  /** The extern declarations, one per line. */
  function Externs(names: seq<string>): string {
    Strings.Join(Lines(names, ExternLine), "\n")
  }

  /** The register calls, indented by four spaces, one per line. */
  function Registers(names: seq<string>): string {
    Strings.Join(Lines(Lines(names, RegisterLine), Indent), "\n")
  }

  /** The template's fixed text around the three filled-in sections. */
  datatype Template = Template(head: string, middle: string, afterRegister: string, forwarder: string, tail: string)

  const MonolithicTemplate := Template(HeaderHead, HeaderMiddle, HeaderAfterRegister, InitPlusCode, HeaderTail)

  function Forwarder(t: Template, names: seq<string>): string {
    if "_baplus" in names then t.forwarder else ""
  }

  /** The filled-in template between its fixed head and the forwarder. */
  function Sections(t: Template, names: seq<string>): string {
    Externs(names) + t.middle + Registers(names) + t.afterRegister
  }

  /** The template with its sections filled in for the (sorted) module names. */
  function Generate(t: Template, names: seq<string>): string {
    t.head + (Sections(t, names) + Forwarder(t, names)) + t.tail
  }

  /** An occurrence inside `s` is an occurrence inside any text around it. */
  lemma ContainsWithin(p: string, s: string, q: string, x: string)
    requires Strings.Contains(s, x)
    ensures Strings.Contains(p + s + q, x)
  {
    var i :| 0 <= i <= |s| - |x| && Strings.OccursAt(s, x, i);
    assert (p + s + q)[|p| + i..|p| + i + |x|] == s[i..i + |x|];
    assert Strings.OccursAt(p + s + q, x, |p| + i);
  }

  lemma Regroup(a: string, b: string, c: string, d: string, e: string)
    ensures a + (b + c + d + e) == a + b + (c + d + e)
    ensures a + (b + c + d + e) == (a + b + c) + d + e
  {
  }

  /**
   * `gen_monolithic_register_modules`: `argc` is `len(sys.argv)`, `modules`
   * the binary-module names of the project's feature sets. The text is the
   * dedented template with the three sections filled in, stripped, plus a
   * newline.
   */
  function GenMonolithicRegisterModules(argc: nat, modules: seq<string>): (r: Result<string>)
    ensures r.Failure? <==> argc != 3
    ensures r.Failure? ==> r.error == "Expected 1 arg."
    ensures r.Success? ==> Strings.StartsWith(r.value, HeaderHead) && Strings.EndsWith(r.value, HeaderTail)
  {
    if argc != 3 then Failure("Expected 1 arg.")
    else
      GeneratedFrame(MonolithicTemplate, SortedModules(modules));
      Success(Generate(MonolithicTemplate, SortedModules(modules)))
  }

  /** Whatever the sections hold, the text opens with the head and closes with the tail. */
  lemma GeneratedFrame(t: Template, names: seq<string>)
    ensures Strings.StartsWith(Generate(t, names), t.head)
    ensures Strings.EndsWith(Generate(t, names), t.tail)
  {
    var body := Sections(t, names) + Forwarder(t, names);
    Strings.StartsWithConcat(t.head, body + t.tail);
    Strings.EndsWithConcat(t.head + body, t.tail);
    assert t.head + (body + t.tail) == t.head + body + t.tail;
  }

  /** The generated file ends with exactly one newline. */
  lemma GeneratedEndsWithOneNewline(modules: seq<string>)
    ensures var out := Generate(MonolithicTemplate, SortedModules(modules));
      |out| >= 2 && out[|out| - 1] == '\n' && out[|out| - 2] != '\n'
  {
    HeaderTailEndsWithOneNewline();
    TailFixesLastTwo(MonolithicTemplate, SortedModules(modules));
  }

  lemma HeaderTailEndsWithOneNewline()
    ensures |HeaderTail| >= 2
    ensures HeaderTail[|HeaderTail| - 1] == '\n' && HeaderTail[|HeaderTail| - 2] != '\n'
  {
  }

  lemma TailFixesLastTwo(t: Template, names: seq<string>)
    requires |t.tail| >= 2
    ensures var out := Generate(t, names);
      out[|out| - 1] == t.tail[|t.tail| - 1] && out[|out| - 2] == t.tail[|t.tail| - 2]
  {
    LastTwoOfAppended(t.head + (Sections(t, names) + Forwarder(t, names)), t.tail);
  }

  /** Appending a text of two or more characters fixes the last two characters. */
  lemma LastTwoOfAppended(s: string, suffix: string)
    requires |suffix| >= 2
    ensures var out := s + suffix;
      out[|out| - 1] == suffix[|suffix| - 1] && out[|out| - 2] == suffix[|suffix| - 2]
  {
  }

  /** `x` occurs in `a + x + b`. */
  lemma ContainedIn(a: string, x: string, b: string)
    ensures Strings.Contains(a + x + b, x)
  {
    assert (a + x + b)[|a|..|a| + |x|] == x;
    assert Strings.OccursAt(a + x + b, x, |a|);
  }

  /** Every part of a joined list occurs in the joined text. */
  lemma {:induction false} JoinContainsParts(parts: seq<string>, sep: string, i: nat)
    requires i < |parts|
    ensures exists a, b :: Strings.Join(parts, sep) == a + parts[i] + b
    decreases |parts|
  {
    if |parts| == 1 {
      assert Strings.Join(parts, sep) == "" + parts[0] + "";
    } else if i == 0 {
      var rest := sep + Strings.Join(parts[1..], sep);
      assert Strings.Join(parts, sep) == "" + parts[0] + rest;
    } else {
      JoinContainsParts(parts[1..], sep, i - 1);
      var a, b :| Strings.Join(parts[1..], sep) == a + parts[1..][i - 1] + b;
      assert Strings.Join(parts, sep) == (parts[0] + sep + a) + parts[i] + b;
    }
  }

  /** The `_baplus` forwarder is emitted exactly when `_baplus` is a module. */
  lemma ForwarderIffBaplus(t: Template, modules: seq<string>)
    ensures "_baplus" in modules ==> Strings.Contains(Generate(t, SortedModules(modules)), t.forwarder)
    ensures "_baplus" !in modules ==>
      Generate(t, SortedModules(modules)) == t.head + Sections(t, SortedModules(modules)) + t.tail
  {
    var names := SortedModules(modules);
    assert "_baplus" in modules <==> "_baplus" in multiset(names);
    assert "_baplus" in modules <==> "_baplus" in names;
    ForwarderFrame(t, names);
  }

  lemma ForwarderFrame(t: Template, names: seq<string>)
    ensures "_baplus" in names ==> Strings.Contains(Generate(t, names), t.forwarder)
    ensures "_baplus" !in names ==> Generate(t, names) == t.head + Sections(t, names) + t.tail
  {
    FrameAround(t.head, Sections(t, names), Forwarder(t, names), t.tail);
  }

  /** The piece after the sections occurs in the framed text; an empty one leaves the frame alone. */
  lemma FrameAround(head: string, sec: string, piece: string, tail: string)
    ensures Strings.Contains(head + (sec + piece) + tail, piece)
    ensures piece == "" ==> head + (sec + piece) + tail == head + sec + tail
  {
    assert head + (sec + piece) + tail == (head + sec) + piece + tail;
    ContainedIn(head + sec, piece, tail);
  }

  /** Each part of a joined list occurs in the joined text. */
  lemma JoinContainsPart(parts: seq<string>, sep: string, i: nat)
    requires i < |parts|
    ensures Strings.Contains(Strings.Join(parts, sep), parts[i])
  {
    JoinContainsParts(parts, sep, i);
    var a, b :| Strings.Join(parts, sep) == a + parts[i] + b;
    ContainedIn(a, parts[i], b);
  }

  /** The generated text split around the extern block and around the register block. */
  lemma GeneratedSplits(h: string, e: string, m: string, r: string, a: string, f: string, tl: string)
    ensures h + ((e + m + r + a) + f) + tl == h + e + (m + r + a + f + tl)
    ensures h + ((e + m + r + a) + f) + tl == (h + e + m) + r + (a + f + tl)
  {
  }

  /** Every module gets its extern declaration and its (indented) register call. */
  lemma EveryModuleIsRegistered(t: Template, modules: seq<string>, m: string)
    requires m in modules
    ensures var out := Generate(t, SortedModules(modules));
      Strings.Contains(out, ExternLine(m)) && Strings.Contains(out, "    " + RegisterLine(m))
  {
    var names := SortedModules(modules);
    assert m in multiset(names);
    var i :| 0 <= i < |names| && names[i] == m;
    var externs := Lines(names, ExternLine);
    var registers := Lines(Lines(names, RegisterLine), Indent);
    JoinContainsPart(externs, "\n", i);
    JoinContainsPart(registers, "\n", i);
    var e, r, f := Externs(names), Registers(names), Forwarder(t, names);
    GeneratedSplits(t.head, e, t.middle, r, t.afterRegister, f, t.tail);
    ContainsWithin(t.head, e, t.middle + r + t.afterRegister + f + t.tail, externs[i]);
    ContainsWithin(t.head + e + t.middle, r, t.afterRegister + f + t.tail, registers[i]);
  }

  // ----------------------------------------------------------- wsl paths

  datatype WslArgs = WslArgs(create: bool, escape: bool, path: string)

  /** `wsl_path_to_win`'s argument loop over `sys.argv[2:]`, from `create`, `escape` and `path` so far. */
  function ParseWslArgsFrom(args: seq<string>, create: bool, escape: bool, path: Option<string>): (r: Result<WslArgs>)
    ensures r.Success? ==> ((r.value.create <==> create || "--create" in args)
      && (r.value.escape <==> escape || "--escape" in args))
    ensures r.Failure? ==> r.error in {"More than one path provided.", "No path provided."}
    decreases |args|
  {
    if args == [] then
      if path.None? then Failure("No path provided.") else Success(WslArgs(create, escape, path.value))
    else if args[0] == "--create" then
      var r := ParseWslArgsFrom(args[1..], true, escape, path);
      assert r.Success? ==> "--escape" in args[1..] ==> "--escape" in args;
      r
    else if args[0] == "--escape" then
      var r := ParseWslArgsFrom(args[1..], create, true, path);
      assert r.Success? ==> "--create" in args[1..] ==> "--create" in args;
      r
    else if path.Some? then Failure("More than one path provided.")
    else
      var r := ParseWslArgsFrom(args[1..], create, escape, Some(args[0]));
      assert "--create" in args <==> "--create" in args[1..];
      assert "--escape" in args <==> "--escape" in args[1..];
      r
  }

  predicate IsFlag(a: string) {
    a == "--create" || a == "--escape"
  }

  /** The arguments that are not flags. */
  function Paths(args: seq<string>): seq<string>
    decreases |args|
  {
    if args == [] then [] else (if IsFlag(args[0]) then [] else [args[0]]) + Paths(args[1..])
  }

  /** `wsl_path_to_win`'s parsing: at least one argument, and exactly one of them a path. */
  function ParseWslArgs(args: seq<string>): (r: Result<WslArgs>)
    ensures args == [] ==> r == Failure("Expected at least 1 path arg.")
    ensures r.Success? ==> (r.value.create <==> "--create" in args) && (r.value.escape <==> "--escape" in args)
  {
    if args == [] then Failure("Expected at least 1 path arg.") else ParseWslArgsFrom(args, false, false, None)
  }

  /** Parsing succeeds exactly when one argument is not a flag, and that argument is the path. */
  lemma {:induction false} ParseFindsTheOnePath(args: seq<string>, create: bool, escape: bool, path: Option<string>)
    ensures var r := ParseWslArgsFrom(args, create, escape, path);
      var ps := (if path.Some? then [path.value] else []) + Paths(args);
      (r.Success? <==> |ps| == 1) && (r.Success? ==> r.value.path == ps[0])
    decreases |args|
  {
    if args != [] {
      if IsFlag(args[0]) {
        ParseFindsTheOnePath(args[1..], args[0] == "--create" || create, args[0] == "--escape" || escape, path);
      } else if path.None? {
        ParseFindsTheOnePath(args[1..], create, escape, Some(args[0]));
      } else {
        assert |(if path.Some? then [path.value] else []) + Paths(args)| >= 2;
      }
    }
  }

  const WslErrorMarker := "wsl_to_escaped_win_path_error_occurred"

  /** `out.replace('\\', '\\\\')`. */
  function Escape(s: string): string {
    Strings.ReplaceAll(s, "\\", "\\\\")
  }

  /** Escaping as a character map: each backslash becomes two, everything else stays. */
  lemma {:induction false} EscapeByCharacter(s: string)
    ensures Escape(s) == if s == [] then [] else (if s[0] == '\\' then "\\\\" else [s[0]]) + Escape(s[1..])
  {
    if s != [] {
      assert s[..1] == [s[0]];
      if s[0] != '\\' {
        assert s[..|"\\"|] != "\\";
      }
    }
  }

  /** Halving doubled backslashes: the inverse of `Escape`. */
  function Unescape(s: string): string
    decreases |s|
  {
    if |s| >= 2 && s[0] == '\\' && s[1] == '\\' then "\\" + Unescape(s[2..])
    else if s == [] then [] else [s[0]] + Unescape(s[1..])
  }

  /** Escaping loses nothing: the escaped path reads back as the original. */
  lemma {:induction false} UnescapeEscape(s: string)
    ensures Unescape(Escape(s)) == s
    decreases |s|
  {
    EscapeByCharacter(s);
    if s != [] {
      UnescapeEscape(s[1..]);
      var e := Escape(s);
      if s[0] == '\\' {
        assert e[2..] == Escape(s[1..]);
      } else {
        assert e[1..] == Escape(s[1..]);
      }
    }
  }

  /** A string ending in a backslash still does once escaped. */
  lemma {:induction false} EscapeKeepsTrailingBackslash(s: string)
    requires |s| > 0 && s[|s| - 1] == '\\'
    ensures Strings.EndsWith(Escape(s), "\\")
    decreases |s|
  {
    EscapeByCharacter(s);
    if |s| > 1 {
      EscapeKeepsTrailingBackslash(s[1..]);
    }
  }

  /**
   * `wsl_path_to_win`: what it prints. `makedirs` says whether `--create`'s
   * `os.makedirs` succeeds (the path exists afterwards when it does),
   * `pathExists` whether a path exists beforehand, and `wslpath` is the
   * converter's output, or `None` when it fails. Every error prints the
   * marker instead.
   */
  function WslPathToWin(args: seq<string>, makedirs: string -> bool, pathExists: string -> bool,
                        wslpath: string -> Option<string>): (r: string)
    ensures ParseWslArgs(args).Failure? ==> r == WslErrorMarker
    ensures (ParseWslArgs(args).Success? && !ParseWslArgs(args).value.create
             && !pathExists(ParseWslArgs(args).value.path)) ==> r == WslErrorMarker
    ensures (ParseWslArgs(args).Success? && ParseWslArgs(args).value.create
             && !makedirs(ParseWslArgs(args).value.path)) ==> r == WslErrorMarker
    ensures r != WslErrorMarker && Strings.EndsWith(ParseWslArgs(args).value.path, "/") ==> Strings.EndsWith(r, "\\")
    ensures ParseWslArgs(args).Success? ==> WslOutcome(ParseWslArgs(args).value, makedirs, pathExists, wslpath, r)
  {
    match ParseWslArgs(args)
    case Failure(_) => WslErrorMarker
    case Success(a) =>
      if a.create && !makedirs(a.path) then WslErrorMarker
      else if !a.create && !pathExists(a.path) then WslErrorMarker
      else match wslpath(a.path)
        case None => WslErrorMarker
        case Some(stdout) =>
          var s := Strings.Strip(stdout);
          var out := if Strings.EndsWith(a.path, "/") && !Strings.EndsWith(s, "\\") then s + "\\" else s;
          assert SeparatorAdded(a.path, s, out);
          if a.escape then
            assert Strings.EndsWith(a.path, "/") ==> Strings.EndsWith(Escape(out), "\\") by {
              if Strings.EndsWith(a.path, "/") { EscapeKeepsTrailingBackslash(out); }
            }
            UnescapeEscape(out);
            Escape(out)
          else out
  }

  /**
   * `out` is the converter's stripped output `s`, with a backslash appended
   * exactly when the path asked for a trailing separator and `s` lacked one.
   */
  predicate SeparatorAdded(path: string, s: string, out: string) {
    (out == s || (out == s + "\\" && Strings.EndsWith(path, "/") && !Strings.EndsWith(s, "\\")))
    && (Strings.EndsWith(path, "/") ==> Strings.EndsWith(out, "\\"))
  }

  /** The separator rule leaves no choice: at most one output satisfies it. */
  lemma SeparatorAddedUnique(path: string, s: string, o1: string, o2: string)
    requires SeparatorAdded(path, s, o1) && SeparatorAdded(path, s, o2)
    ensures o1 == o2
  {
  }

  /**
   * What `wsl_path_to_win` prints for parsed arguments `a`: the marker when
   * `--create` cannot make the path, when the path is missing or when the
   * converter fails, otherwise the converted path;
   * with `--escape` that path is printed with every backslash doubled, so
   * the output is an escaped string that reads back through `Unescape`.
   */
  predicate WslOutcome(a: WslArgs, makedirs: string -> bool, pathExists: string -> bool,
                       wslpath: string -> Option<string>, r: string) {
    if a.create && !makedirs(a.path) then r == WslErrorMarker
    else if !a.create && !pathExists(a.path) then r == WslErrorMarker
    else match wslpath(a.path)
      case None => r == WslErrorMarker
      case Some(stdout) =>
        if a.escape then r == Escape(Unescape(r)) && SeparatorAdded(a.path, Strings.Strip(stdout), Unescape(r))
        else SeparatorAdded(a.path, Strings.Strip(stdout), r)
  }

  /** The outcome leaves no choice: for given arguments and environment at most one output satisfies it. */
  lemma WslOutcomeUnique(a: WslArgs, makedirs: string -> bool, pathExists: string -> bool,
                         wslpath: string -> Option<string>, r1: string, r2: string)
    requires WslOutcome(a, makedirs, pathExists, wslpath, r1) && WslOutcome(a, makedirs, pathExists, wslpath, r2)
    ensures r1 == r2
  {
    if (if a.create then makedirs(a.path) else pathExists(a.path)) && wslpath(a.path).Some? {
      var s := Strings.Strip(wslpath(a.path).value);
      if a.escape {
        SeparatorAddedUnique(a.path, s, Unescape(r1), Unescape(r2));
      } else {
        SeparatorAddedUnique(a.path, s, r1, r2);
      }
    }
  }

  // ---------------------------------------------------------- prefab libs

  datatype PrefabUpdate = PrefabUpdate(target: string, copy: bool)

  /**
   * `update_cmake_prefab_lib`: `args` is `sys.argv[2:]`, `platform` the
   * current prefab platform, `targetTime` the built library's mtime and
   * `installedTime` the installed copy's, if there is one. The copy happens
   * unless the installed one is at least as new.
   */
  function UpdateCmakePrefabLib(args: seq<string>, platform: string, targetTime: int,
                                installedTime: Option<int>): (r: Result<PrefabUpdate>)
    ensures r.Success? <==> |args| == 3 && args[0] in {"standard", "server"} && args[1] in {"debug", "release"}
    ensures r.Success? ==> (r.value.copy <==> installedTime.None? || targetTime > installedTime.value)
    ensures r.Success? ==> Strings.EndsWith(r.value.target, "/" + args[1] + "/libballisticaplus.a")
  {
    if |args| != 3 then Failure("Expected 3 args (standard/server, debug/release, build-dir)")
    else if args[0] !in {"standard", "server"} then Failure("Invalid buildtype: " + args[0])
    else if args[1] !in {"debug", "release"} then Failure("Invalid mode: " + args[1])
    else
      var suffix := if args[0] == "server" then "_server" else "_gui";
      var tail := "/" + args[1] + "/libballisticaplus.a";
      var target := "build/prefab/lib/" + platform + suffix + tail;
      assert target[|target| - |tail|..] == tail;
      var update := !(installedTime.Some? && targetTime <= installedTime.value);
      Success(PrefabUpdate(target, update))
  }

  /**
   * Each build type and mode has its own library slot: two accepted command
   * lines for the same platform that differ in either word never target the
   * same file.
   */
  lemma PrefabTargetsDistinct(a1: seq<string>, a2: seq<string>, platform: string, t: int, installed: Option<int>)
    requires UpdateCmakePrefabLib(a1, platform, t, installed).Success?
    requires UpdateCmakePrefabLib(a2, platform, t, installed).Success?
    requires a1[0] != a2[0] || a1[1] != a2[1]
    ensures UpdateCmakePrefabLib(a1, platform, t, installed).value.target
            != UpdateCmakePrefabLib(a2, platform, t, installed).value.target
  {
    var r1 := UpdateCmakePrefabLib(a1, platform, t, installed).value.target;
    var r2 := UpdateCmakePrefabLib(a2, platform, t, installed).value.target;
    assert |r1| == |"build/prefab/lib/"| + |platform| + PrefabSlotWidth(a1[0], a1[1]) + |"/libballisticaplus.a"|;
    assert |r2| == |"build/prefab/lib/"| + |platform| + PrefabSlotWidth(a2[0], a2[1]) + |"/libballisticaplus.a"|;
  }

  /** The length the build type's suffix and the mode's directory add to a target path. */
  function PrefabSlotWidth(buildType: string, mode: string): nat {
    (if buildType == "server" then 7 else 4) + 1 + |mode|
  }

  /** Once the library is copied, the next run with the same build finds it current. */
  lemma PrefabCopySettles(args: seq<string>, platform: string, t: int, installed: Option<int>, copiedAt: int)
    requires UpdateCmakePrefabLib(args, platform, t, installed).Success?
    requires copiedAt >= t
    ensures UpdateCmakePrefabLib(args, platform, t, Some(copiedAt)).Success?
    ensures !UpdateCmakePrefabLib(args, platform, t, Some(copiedAt)).value.copy
    ensures UpdateCmakePrefabLib(args, platform, t, Some(copiedAt)).value.target
            == UpdateCmakePrefabLib(args, platform, t, installed).value.target
  {
  }

  // ------------------------------------------------------- archive names

  /** The Android ABIs archived, with their short names, in order. */
  const AbiShortNames: seq<(string, string)> :=
    [("armeabi-v7a", "arm"), ("arm64-v8a", "arm64"), ("x86", "x86"), ("x86_64", "x86-64")]

  function ArchiveName(abiShort: string): string {
    "libmain_" + abiShort + ".so"
  }

  /** The archive name of entry `k` of an ABI table `t`. */
  function ArchiveOf(t: seq<(string, string)>, k: nat): string
    requires k < |t|
  {
    ArchiveName(t[k].1)
  }

  /** `name` is the archive of a built entry of `t` at `i` or later. */
  predicate BuiltArchive(t: seq<(string, string)>, name: string, built: set<string>, i: nat) {
    exists k | i <= k < |t| :: t[k].0 in built && name == ArchiveOf(t, k)
  }

  /** `a` and `b` are archives of entries of `t` from `i` on, `a`'s entry strictly first. */
  predicate InTableOrder(t: seq<(string, string)>, a: string, b: string, i: nat) {
    exists k1, k2 | i <= k1 < k2 < |t| :: a == ArchiveOf(t, k1) && b == ArchiveOf(t, k2)
  }

  /**
   * `names` lists archives of entries of `t` from `i` on: each one belongs
   * to a built ABI, and they follow the table's order without repeats.
   */
  predicate ListsBuiltInOrder(t: seq<(string, string)>, names: seq<string>, built: set<string>, i: nat) {
    (forall m | 0 <= m < |names| :: BuiltArchive(t, names[m], built, i))
    && (forall m, n | 0 <= m < n < |names| :: InTableOrder(t, names[m], names[n], i))
  }

  const ArchiveArgsError := "Expected 2 args; src-dir and dst-dir"

  /**
   * `android_archive_unstripped_libs` from its command line: `args` is
   * `sys.argv[2:]`, `srcIsDir` whether the source directory exists and
   * `built` the ABIs with a library in it. The argument count is checked
   * first, then the source directory; otherwise the archived names are listed.
   */
  function ArchiveUnstrippedLibs(args: seq<string>, srcIsDir: bool, built: set<string>): (r: Result<seq<string>>)
    ensures |args| != 2 ==> r == Failure(ArchiveArgsError)
    ensures |args| == 2 && !srcIsDir ==> r == Failure("Source dir not found: '" + args[0] + "'")
    ensures r.Success? <==> |args| == 2 && srcIsDir
    ensures r.Success? ==> ListsBuiltInOrder(AbiShortNames, r.value, built, 0)
  {
    if |args| != 2 then Failure(ArchiveArgsError)
    else if !srcIsDir then Failure("Source dir not found: '" + args[0] + "'")
    else Success(ArchivedLibs(built))
  }

  /** `android_archive_unstripped_libs`: the archive names, in table order, of exactly the ABIs built. */
  function ArchivedLibs(built: set<string>): (r: seq<string>)
    ensures |r| <= |AbiShortNames|
    ensures forall k | 0 <= k < |AbiShortNames| :: AbiShortNames[k].0 in built ==> ArchiveOf(AbiShortNames, k) in r
    ensures ListsBuiltInOrder(AbiShortNames, r, built, 0)
  {
    ArchivedFrom(built, 0)
  }

  function ArchivedFrom(built: set<string>, i: nat): (r: seq<string>)
    requires i <= |AbiShortNames|
    ensures |r| <= |AbiShortNames| - i
    ensures forall k | i <= k < |AbiShortNames| :: AbiShortNames[k].0 in built ==> ArchiveOf(AbiShortNames, k) in r
    ensures ListsBuiltInOrder(AbiShortNames, r, built, i)
    decreases |AbiShortNames| - i
  {
    if i == |AbiShortNames| then []
    else
      var rest := ArchivedFrom(built, i + 1);
      var head := if AbiShortNames[i].0 in built then [ArchiveOf(AbiShortNames, i)] else [];
      ArchivedStep(AbiShortNames, built, i, head, rest);
      head + rest
  }

  /** Putting entry `i`'s archive (if built) before the later entries' list keeps the table order. */
  lemma ArchivedStep(t: seq<(string, string)>, built: set<string>, i: nat, head: seq<string>, rest: seq<string>)
    requires i < |t|
    requires head == if t[i].0 in built then [ArchiveOf(t, i)] else []
    requires ListsBuiltInOrder(t, rest, built, i + 1)
    ensures ListsBuiltInOrder(t, head + rest, built, i)
  {
    ArchivedStepMembers(t, built, i, head, rest);
    ArchivedStepOrder(t, built, i, head, rest);
  }

  lemma ArchivedStepMembers(t: seq<(string, string)>, built: set<string>, i: nat, head: seq<string>, rest: seq<string>)
    requires i < |t|
    requires head == if t[i].0 in built then [ArchiveOf(t, i)] else []
    requires forall m | 0 <= m < |rest| :: BuiltArchive(t, rest[m], built, i + 1)
    ensures forall m | 0 <= m < |head + rest| :: BuiltArchive(t, (head + rest)[m], built, i)
  {
    var r := head + rest;
    forall m | 0 <= m < |r|
      ensures BuiltArchive(t, r[m], built, i)
    {
      if m < |head| {
        assert t[i].0 in built && r[m] == ArchiveOf(t, i);
      } else {
        assert BuiltArchive(t, rest[m - |head|], built, i + 1);
        var k :| i + 1 <= k < |t| && t[k].0 in built && rest[m - |head|] == ArchiveOf(t, k);
        assert r[m] == ArchiveOf(t, k);
      }
    }
  }

  lemma ArchivedStepOrder(t: seq<(string, string)>, built: set<string>, i: nat, head: seq<string>, rest: seq<string>)
    requires i < |t|
    requires head == if t[i].0 in built then [ArchiveOf(t, i)] else []
    requires forall m | 0 <= m < |rest| :: BuiltArchive(t, rest[m], built, i + 1)
    requires forall m, n | 0 <= m < n < |rest| :: InTableOrder(t, rest[m], rest[n], i + 1)
    ensures forall m, n | 0 <= m < n < |head + rest| :: InTableOrder(t, (head + rest)[m], (head + rest)[n], i)
  {
    var r := head + rest;
    forall m, n | 0 <= m < n < |r|
      ensures InTableOrder(t, r[m], r[n], i)
    {
      if m < |head| {
        assert BuiltArchive(t, rest[n - |head|], built, i + 1);
        var k2 :| i + 1 <= k2 < |t| && t[k2].0 in built && rest[n - |head|] == ArchiveOf(t, k2);
        assert r[m] == ArchiveOf(t, i) && r[n] == ArchiveOf(t, k2);
      } else {
        assert InTableOrder(t, rest[m - |head|], rest[n - |head|], i + 1);
        var k1, k2 :| i + 1 <= k1 < k2 < |t| && rest[m - |head|] == ArchiveOf(t, k1) && rest[n - |head|] == ArchiveOf(t, k2);
        assert r[m] == ArchiveOf(t, k1) && r[n] == ArchiveOf(t, k2);
      }
    }
  }

  /** Different ABIs never overwrite each other's archive. */
  lemma ArchiveNamesDistinct(i: nat, j: nat)
    requires i < j < |AbiShortNames|
    ensures ArchiveOf(AbiShortNames, i) != ArchiveOf(AbiShortNames, j)
  {
    var a, b := ArchiveName(AbiShortNames[i].1), ArchiveName(AbiShortNames[j].1);
    assert a[8..|a| - 3] == AbiShortNames[i].1;
    assert b[8..|b| - 3] == AbiShortNames[j].1;
  }
}

=== FILE: seqs.dfy ===
/** Sequence helpers for the capped queues the engine keeps (`pop_front` while too long). */
module Seqs {

  /** Pops from the front until at most `cap` elements remain: the newest `cap` survive. */
  function KeepNewest<T>(s: seq<T>, cap: nat): (r: seq<T>)
    ensures |r| == if |s| <= cap then |s| else cap
    ensures r == s[|s| - |r|..]
  {
    if |s| <= cap then s else s[|s| - cap..]
  }

  /** Drops the element at the back while more than `cap` elements are held. */
  function KeepOldest<T>(s: seq<T>, cap: nat): (r: seq<T>)
    ensures |r| == if |s| <= cap then |s| else cap
    ensures r == s[..|r|]
  {
    if |s| <= cap then s else s[..cap]
  }

  /** With room for at least one element, the newest element survives. */
  lemma KeepNewestKeepsLast<T>(s: seq<T>, cap: nat)
    requires |s| > 0 && cap >= 1
    ensures var r := KeepNewest(s, cap); |r| > 0 && r[|r| - 1] == s[|s| - 1]
  {
  }
}

=== FILE: soundtrack_browser.dfy ===
/**
 * The soundtrack browser window's bookkeeping: the listing order, which row
 * a refresh selects, selecting, editing, deleting and duplicating
 * soundtracks, and the saved-selection mapping. Widgets, sounds and the
 * `Lstr` translations are reduced to values; the config's `Soundtracks`
 * dict is a map plus, for the listing, its key order.
 */
module SoundtrackBrowser {
  import opened Wrappers
  import Strings

  /** A soundtrack's contents: music type to entry. A deep copy is the same value. */
  type Soundtrack = map<string, string>

  const DefaultName := "__default__"
  const NamePlaceholder := "${NAME}"

  // --------------------------------------------------------------- listing

  /** `_refresh`'s rows: the default soundtrack first, then the names sorted by `str.lower`. */
  function Listing(names: seq<string>): (r: seq<string>)
    ensures |r| == |names| + 1 && r[0] == DefaultName
    ensures multiset(r[1..]) == multiset(names)
    ensures Strings.SortedBy(r[1..], Strings.Lower)
    ensures forall k :: Strings.WithKey(r[1..], Strings.Lower, k) == Strings.WithKey(names, Strings.Lower, k)
  {
    var sorted := Strings.SortBy(names, Strings.Lower);
    assert |sorted| == |multiset(sorted)| == |multiset(names)| == |names|;
    assert ([DefaultName] + sorted)[1..] == sorted;
    [DefaultName] + sorted
  }

  /** Names that differ only in case (`Rock`, `rock`) are listed in the config's key order. */
  lemma TiesKeepConfigOrder(names: seq<string>, k: string)
    requires forall i | 0 <= i < |names| :: Strings.Lower(names[i]) == k
    ensures Listing(names)[1..] == names
  {
    var rows := Listing(names)[1..];
    forall i | 0 <= i < |rows|
      ensures Strings.Lower(rows[i]) == k
    {
      assert rows[i] in multiset(names);
    }
    AllWithKey(rows, k);
    AllWithKey(names, k);
  }

  lemma {:induction false} AllWithKey(xs: seq<string>, k: string)
    requires forall i | 0 <= i < |xs| :: Strings.Lower(xs[i]) == k
    ensures Strings.WithKey(xs, Strings.Lower, k) == xs
    decreases |xs|
  {
    if |xs| > 0 {
      AllWithKey(xs[1..], k);
      assert xs == [xs[0]] + xs[1..];
    }
  }

  /** The last row named `name` (each match re-selects, so the last one wins). */
  function LastRowNamed(rows: seq<string>, name: string): (r: Option<nat>)
    ensures r.Some? ==> (r.value < |rows| && rows[r.value] == name
      && forall k | r.value < k < |rows| :: rows[k] != name)
    ensures r.None? ==> name !in rows
    decreases |rows|
  {
    if rows == [] then None
    else if rows[|rows| - 1] == name then Some(|rows| - 1)
    else LastRowNamed(rows[..|rows| - 1], name)
  }

  /**
   * The row `_refresh` selects: the requested soundtrack if one is given,
   * else the previously selected index, else the previously selected name.
   */
  function RefreshSelection(rows: seq<string>, request: Option<string>, oldIndex: Option<int>,
                            oldName: Option<string>): (r: Option<nat>)
    ensures request.Some? ==> r == LastRowNamed(rows, request.value)
    ensures request.None? && oldIndex.Some? ==>
      (r.Some? <==> 0 <= oldIndex.value < |rows|) && (r.Some? ==> r.value == oldIndex.value)
    ensures request.None? && oldIndex.None? && oldName.Some? ==> r == LastRowNamed(rows, oldName.value)
    ensures request.None? && oldIndex.None? && oldName.None? ==> r.None?
    ensures r.Some? ==> r.value < |rows|
  {
    if request.Some? then LastRowNamed(rows, request.value)
    else if oldIndex.Some? then
      if 0 <= oldIndex.value < |rows| then Some(oldIndex.value) else None
    else if oldName.Some? then LastRowNamed(rows, oldName.value)
    else None
  }

  /** The default soundtrack is always the first row, and every stored soundtrack has a row. */
  lemma EveryStoredSoundtrackIsListed(names: seq<string>, name: string)
    requires name in names
    ensures LastRowNamed(Listing(names), name).Some?
  {
    var rows := Listing(names);
    assert name in multiset(names);
    assert name in multiset(rows[1..]);
    assert name in rows[1..];
  }

  // ------------------------------------------------------------ selection

  datatype Browser = Browser(
    soundtracks: map<string, Soundtrack>,
    current: Option<string>,
    selected: Option<string>,
    selectedIndex: Option<int>,
    allowChanging: bool,
    commits: nat)

  /**
   * `_select`: remember the row; the config's current soundtrack defaults to
   * the default one, and is changed and committed only when it differs and
   * changing is allowed.
   */
  function Select(b: Browser, name: string, index: int): (r: Browser)
    ensures r.selected == Some(name) && r.selectedIndex == Some(index)
    ensures r.soundtracks == b.soundtracks && r.allowChanging == b.allowChanging
    ensures var cur := b.current.GetOr(DefaultName);
      (r.commits == b.commits + 1 <==> cur != name && b.allowChanging)
      && r.current == Some(if cur != name && b.allowChanging then name else cur)
  {
    var cur := b.current.GetOr(DefaultName);
    var b1 := b.(selected := Some(name), selectedIndex := Some(index), current := Some(cur));
    if cur != name && b.allowChanging then b1.(current := Some(name), commits := b.commits + 1)
    else b1
  }

  /** Selecting the current soundtrack again never commits. */
  lemma ReselectDoesNotCommit(b: Browser, name: string, i: int, j: int)
    ensures var b1 := Select(b, name, i); Select(b1, name, j).commits == b1.commits
  {
  }

  // -------------------------------------------------- edit and delete

  datatype Action =
    | NeedsPro
    | NothingSelected
    | RefuseDefault
    | Proceed(name: string)

  /** `_edit_soundtrack` and `_delete_soundtrack`: which of their branches runs. */
  function EditOrDelete(haveProOptions: bool, selected: Option<string>): (r: Action)
    ensures r.Proceed? <==> haveProOptions && selected.Some? && selected.value != DefaultName
    ensures r.Proceed? ==> r.name == selected.value
    ensures r == RefuseDefault <==> haveProOptions && selected == Some(DefaultName)
  {
    if !haveProOptions then NeedsPro
    else if selected.None? then NothingSelected
    else if selected.value == DefaultName then RefuseDefault
    else Proceed(selected.value)
  }

  /**
   * `_do_delete_soundtrack` after confirmation: remove the soundtrack if
   * present and clamp the selected index to the remaining count (the
   * listing has one more row, for the default).
   */
  function DoDelete(b: Browser): (r: Browser)
    requires b.selected.Some? && b.selectedIndex.Some?
    ensures r.soundtracks == b.soundtracks - {b.selected.value}
    ensures r.selectedIndex.Some? && r.selectedIndex.value <= |r.soundtracks|
    ensures b.selectedIndex.value <= |r.soundtracks| ==> r.selectedIndex == b.selectedIndex
    ensures r.commits == b.commits + 1
  {
    var remaining := b.soundtracks - {b.selected.value};
    var i := b.selectedIndex.value;
    b.(soundtracks := remaining,
       selectedIndex := Some(if i >= |remaining| then |remaining| else i),
       commits := b.commits + 1)
  }

  /** The default soundtrack survives every delete request, confirmed or not. */
  lemma DefaultIsNeverDeleted(b: Browser, haveProOptions: bool)
    requires b.selected == Some(DefaultName)
    ensures !EditOrDelete(haveProOptions, b.selected).Proceed?
  {
  }

  // ------------------------------------------------------------ duplicates

  /** Python's `s[-1].isdigit() or s[-1] == ' '`. */
  predicate DigitOrSpace(c: char) {
    Strings.IsDigit(c) || c == ' '
  }

  /**
   * Strip trailing digits and spaces; `None` when the loop runs off the
   * front of the string (Python raises `IndexError` on `''[-1]`).
   */
  function StripCopyNumber(s: string): (r: Option<string>)
    ensures r.Some? ==> (0 < |r.value| <= |s| && !DigitOrSpace(r.value[|r.value| - 1])
      && r.value == s[..|r.value|] && forall i | |r.value| <= i < |s| :: DigitOrSpace(s[i]))
    ensures r.None? <==> forall i | 0 <= i < |s| :: DigitOrSpace(s[i])
    decreases |s|
  {
    if s == [] then None
    else if DigitOrSpace(s[|s| - 1]) then
      var r := StripCopyNumber(s[..|s| - 1]);
      assert forall i | 0 <= i < |s| - 1 :: s[..|s| - 1][i] == s[i];
      r
    else Some(s)
  }

  /** Candidate name number `n` for a duplicate of `stem`: the stem, with ` n` appended after the first. */
  function Candidate(stem: string, n: nat): string {
    if n > 1 then stem + " " + Strings.NatToString(n) else stem
  }

  /** Different numbers give different candidate names. */
  lemma CandidatesDiffer(stem: string, m: nat, n: nat)
    requires 1 <= m && 1 <= n && Candidate(stem, m) == Candidate(stem, n)
    ensures m == n
  {
    if m > 1 && n > 1 {
      var a, b := Strings.NatToString(m), Strings.NatToString(n);
      assert |a| == |b|;
      assert a == Candidate(stem, m)[|stem| + 1..];
      assert b == Candidate(stem, n)[|stem| + 1..];
      Strings.NatToStringInjective(m, n);
    }
  }

  /**
   * The search loop: the first number from `n` on whose candidate is free.
   * `remaining` is the set of taken names not yet tried.
   */
  function FirstFree(stem: string, names: set<string>, remaining: set<string>, n: nat): (r: nat)
    requires n >= 1
    requires forall x | x in names :: (x in remaining <==> forall j | 1 <= j < n :: x != Candidate(stem, j))
    requires remaining <= names
    requires forall j | 1 <= j < n :: Candidate(stem, j) in names
    ensures r >= n && Candidate(stem, r) !in names
    ensures forall j | 1 <= j < r :: Candidate(stem, j) in names
    decreases |remaining|
  {
    var c := Candidate(stem, n);
    assert c in names ==> c in remaining by {
      forall j | 1 <= j < n ensures c != Candidate(stem, j) {
        if c == Candidate(stem, j) { CandidatesDiffer(stem, n, j); }
      }
    }
    if c !in names then n
    else FirstFree(stem, names, remaining - {c}, n + 1)
  }

  /** The duplicate's name: the first free candidate for `stem`. */
  function DuplicateName(stem: string, names: set<string>): (r: string)
    ensures r !in names
    ensures exists n | n >= 1 :: r == Candidate(stem, n) && forall j | 1 <= j < n :: Candidate(stem, j) in names
  {
    var n := FirstFree(stem, names, names, 1);
    Candidate(stem, n)
  }

  /** With no clash the duplicate is named after its stem, unnumbered. */
  lemma FreshStemIsUsedAsIs(stem: string, names: set<string>)
    requires stem !in names
    ensures DuplicateName(stem, names) == stem
  {
  }

  /** The stem of a duplicate's name, or `None` when stripping raises. */
  function DuplicateStem(displayName: string, copyText: string): (r: Option<string>)
    ensures var copyWord := Strings.Strip(Strings.ReplaceAll(copyText, NamePlaceholder, ""));
      !Strings.Contains(displayName, copyWord) ==> r == Some(Strings.ReplaceAll(copyText, NamePlaceholder, displayName))
    ensures var copyWord := Strings.Strip(Strings.ReplaceAll(copyText, NamePlaceholder, ""));
      Strings.Contains(displayName, copyWord) ==>
        (r.None? <==> StripCopyNumber(displayName).None?)
        && (r.Some? ==> var base := StripCopyNumber(displayName).value;
              r.value == if Strings.Contains(base, copyWord) then base
                         else Strings.ReplaceAll(copyText, NamePlaceholder, base))
  {
    var copyWord := Strings.Strip(Strings.ReplaceAll(copyText, NamePlaceholder, ""));
    if Strings.Contains(displayName, copyWord) then
      match StripCopyNumber(displayName)
      case None => None
      case Some(base) =>
        if Strings.Contains(base, copyWord) then Some(base)
        else Some(Strings.ReplaceAll(copyText, NamePlaceholder, base))
    else Some(Strings.ReplaceAll(copyText, NamePlaceholder, displayName))
  }

  datatype Duplicate =
    | DuplicateNeedsPro
    | DuplicateNothing
    | Duplicated(browser: Browser, name: string)
    | Raised(error: string)

  /**
   * `_duplicate_soundtrack`. `copyText` is the evaluated `copyOfText`
   * translation and `defaultDisplayName` the default soundtrack's shown name.
   * Duplicating the default gives an empty soundtrack; an unknown selection
   * raises `KeyError`, and stripping a name of nothing but digits and spaces
   * raises `IndexError`.
   */
  function DuplicateSoundtrack(b: Browser, haveProOptions: bool, copyText: string,
                               defaultDisplayName: string): (r: Duplicate)
    ensures r.Duplicated? ==>
      b.selected.Some?
      && (b.selected.value == DefaultName || b.selected.value in b.soundtracks)
      && r.name !in b.soundtracks
      && r.browser.soundtracks == b.soundtracks[r.name := if b.selected.value == DefaultName then map[]
                                                         else b.soundtracks[b.selected.value]]
    ensures r.Raised? ==> r.error in {"KeyError", "IndexError"}
    ensures !haveProOptions <==> r == DuplicateNeedsPro
  {
    if !haveProOptions then DuplicateNeedsPro
    else if b.selected.None? then DuplicateNothing
    else
      var sel := b.selected.value;
      if sel != DefaultName && sel !in b.soundtracks then Raised("KeyError")
      else
        var copy: Soundtrack := if sel == DefaultName then map[] else b.soundtracks[sel];
        var display := if sel == DefaultName then defaultDisplayName else sel;
        match DuplicateStem(display, copyText)
        case None => Raised("IndexError")
        case Some(stem) =>
          var name := DuplicateName(stem, b.soundtracks.Keys);
          Duplicated(b.(soundtracks := b.soundtracks[name := copy], commits := b.commits + 1), name)
  }

  /** Duplicating leaves every existing soundtrack, the original included, as it was. */
  lemma DuplicateKeepsOriginals(b: Browser, haveProOptions: bool, copyText: string, defaultDisplayName: string)
    ensures var r := DuplicateSoundtrack(b, haveProOptions, copyText, defaultDisplayName);
      r.Duplicated? ==> forall k | k in b.soundtracks :: k in r.browser.soundtracks && r.browser.soundtracks[k] == b.soundtracks[k]
  {
  }

  // ------------------------------------------------------- saved selection

  datatype Widget = ScrollList | NewButton | EditButton | DuplicateButton | DeleteButton | BackButton

  /** `_save_state`'s names for the selected child. */
  function SaveState(w: Widget): (r: string)
    ensures w != BackButton ==> RestoreState(Some(r)) == w
    ensures w == BackButton ==> RestoreState(Some(r)) == ScrollList
  {
    match w
    case ScrollList => "Scroll"
    case NewButton => "New"
    case EditButton => "Edit"
    case DuplicateButton => "Duplicate"
    case DeleteButton => "Delete"
    case BackButton => "Back"
  }

  /** `_restore_state`: a saved name back to its widget; `Back`, unknown or missing names give the list. */
  function RestoreState(saved: Option<string>): (r: Widget)
    ensures r != BackButton
    ensures saved.None? ==> r == ScrollList
  {
    if saved == Some("New") then NewButton
    else if saved == Some("Edit") then EditButton
    else if saved == Some("Duplicate") then DuplicateButton
    else if saved == Some("Delete") then DeleteButton
    else ScrollList
  }

  /** Saving then restoring gives back every widget except the back button, which becomes the list. */
  lemma SaveRestoreRoundTrip(w: Widget)
    ensures RestoreState(Some(SaveState(w))) == if w == BackButton then ScrollList else w
  {
  }
}

=== FILE: strings.dfy ===
/**
 * String helpers with the meaning the engine's C++ and Python code gives
 * them: decimal formatting (`std::to_string`, `str(int)`), substring tests
 * (`in`), `str.replace`, `str.strip`, ASCII lower-casing and code-point
 * lexicographic ordering (Python's `<` on `str`).
 */
module Strings {

  function DigitChar(d: nat): (c: char)
    requires d < 10
    ensures '0' <= c <= '9'
  {
    (('0' as int) + d) as char
  }

  /** Decimal representation of a natural number, without sign or leading zeros. */
  function NatToString(n: nat): (r: string)
    ensures 1 <= |r|
    ensures forall i :: 0 <= i < |r| ==> '0' <= r[i] <= '9'
    ensures |r| == 1 <==> n < 10
    decreases n
  {
    if n < 10 then [DigitChar(n)] else NatToString(n / 10) + [DigitChar(n % 10)]
  }

  /** Distinct numbers print differently. */
  lemma {:induction false} NatToStringInjective(a: nat, b: nat)
    requires NatToString(a) == NatToString(b)
    ensures a == b
    decreases a
  {
    if a < 10 || b < 10 {
      assert |NatToString(a)| == 1 && |NatToString(b)| == 1;
      assert [DigitChar(a)] == NatToString(a);
    } else {
      var sa, sb := NatToString(a / 10), NatToString(b / 10);
      assert NatToString(a) == sa + [DigitChar(a % 10)];
      assert NatToString(b) == sb + [DigitChar(b % 10)];
      assert |sa| == |sb|;
      assert sa == NatToString(a)[..|sa|];
      assert sb == NatToString(b)[..|sb|];
      NatToStringInjective(a / 10, b / 10);
      assert DigitChar(a % 10) == NatToString(a)[|sa|];
    }
  }

  /** Python's `sub in s` for strings. */
  predicate Contains(s: string, sub: string) {
    exists i | 0 <= i <= |s| - |sub| :: OccursAt(s, sub, i)
  }

  /** `sub` appears in `s` starting at position `i`. */
  predicate OccursAt(s: string, sub: string, i: int) {
    0 <= i && i + |sub| <= |s| && s[i..i + |sub|] == sub
  }

  predicate StartsWith(s: string, prefix: string) {
    |prefix| <= |s| && s[..|prefix|] == prefix
  }

  predicate EndsWith(s: string, suffix: string) {
    |suffix| <= |s| && s[|s| - |suffix|..] == suffix
  }

  lemma StartsWithConcat(a: string, b: string)
    ensures StartsWith(a + b, a)
  {
    assert (a + b)[..|a|] == a;
  }

  lemma EndsWithConcat(a: string, b: string)
    ensures EndsWith(a + b, b)
  {
    assert (a + b)[|a + b| - |b|..] == b;
  }

  /** Python's `str.replace(pat, rep)`: left-to-right, non-overlapping, every occurrence. */
  function ReplaceAll(s: string, pat: string, rep: string): (r: string)
    requires |pat| > 0
    ensures !Contains(s, pat) ==> r == s
    decreases |s|
  {
    if |s| < |pat| then s
    else if s[..|pat|] == pat then
      assert OccursAt(s, pat, 0);
      rep + ReplaceAll(s[|pat|..], pat, rep)
    else
      var tail := ReplaceAll(s[1..], pat, rep);
      assert !Contains(s, pat) ==> !Contains(s[1..], pat) by {
        if Contains(s[1..], pat) {
          var i :| 0 <= i <= |s[1..]| - |pat| && OccursAt(s[1..], pat, i);
          assert s[1..][i..i + |pat|] == pat;
          assert s[i + 1..i + 1 + |pat|] == pat;
          assert OccursAt(s, pat, i + 1);
        }
      }
      [s[0]] + tail
  }

  /** Characters Python's `str.isspace` accepts (the Unicode white-space set). */
  predicate IsSpace(c: char) {
    c == ' ' || ('\t' <= c <= '\r') || ('\U{1C}' <= c <= '\U{1F}') || c == '\U{85}'
    || c == '\U{A0}' || c == '\U{1680}' || ('\U{2000}' <= c <= '\U{200A}')
    || c == '\U{2028}' || c == '\U{2029}' || c == '\U{202F}' || c == '\U{205F}'
    || c == '\U{3000}'
  }

  /** ASCII decimal digits (Python's `str.isdigit` on the characters used here). */
  predicate IsDigit(c: char) {
    '0' <= c <= '9'
  }

  function TrimStart(s: string): (r: string)
    ensures |r| <= |s| && r == s[|s| - |r|..]
    ensures forall i :: 0 <= i < |s| - |r| ==> IsSpace(s[i])
    ensures |r| > 0 ==> !IsSpace(r[0])
    decreases |s|
  {
    if |s| > 0 && IsSpace(s[0]) then TrimStart(s[1..]) else s
  }

  function TrimEnd(s: string): (r: string)
    ensures |r| <= |s| && r == s[..|r|]
    ensures forall i :: |r| <= i < |s| ==> IsSpace(s[i])
    ensures |r| > 0 ==> !IsSpace(r[|r| - 1])
    decreases |s|
  {
    if |s| > 0 && IsSpace(s[|s| - 1]) then TrimEnd(s[..|s| - 1]) else s
  }

  /** Python's `str.strip()` with no argument. */
  function Strip(s: string): (r: string)
    ensures exists a, b :: 0 <= a <= b <= |s| && r == s[a..b]
    ensures |r| > 0 ==> !IsSpace(r[0]) && !IsSpace(r[|r| - 1])
  {
    var t := TrimStart(s);
    var u := TrimEnd(t);
    assert u == s[|s| - |t|..|s| - |t| + |u|];
    u
  }

  /** Python's `str.lower()` restricted to ASCII letters. */
  function LowerChar(c: char): (r: char)
    ensures 'A' <= c <= 'Z' ==> 'a' <= r <= 'z'
    ensures !('A' <= c <= 'Z') ==> r == c
  {
    if 'A' <= c <= 'Z' then (c as int + 32) as char else c
  }

  function Lower(s: string): (r: string)
    ensures |r| == |s|
    ensures forall i :: 0 <= i < |s| ==> r[i] == LowerChar(s[i])
  {
    seq(|s|, i requires 0 <= i < |s| => LowerChar(s[i]))
  }

  /** `'\n'.join(lines)` and friends. */
  function Join(parts: seq<string>, sep: string): string
  {
    if |parts| == 0 then ""
    else if |parts| == 1 then parts[0]
    else parts[0] + sep + Join(parts[1..], sep)
  }

  /** Python's `a <= b` on strings: code-point lexicographic order. */
  predicate LexLe(a: string, b: string)
    decreases |a|
  {
    |a| == 0 || (|b| > 0 && (a[0] < b[0] || (a[0] == b[0] && LexLe(a[1..], b[1..]))))
  }

  lemma {:induction false} LexLeTotal(a: string, b: string)
    ensures LexLe(a, b) || LexLe(b, a)
    decreases |a|
  {
    if |a| > 0 && |b| > 0 && a[0] == b[0] {
      LexLeTotal(a[1..], b[1..]);
    }
  }

  lemma {:induction false} LexLeTransitive(a: string, b: string, c: string)
    requires LexLe(a, b) && LexLe(b, c)
    ensures LexLe(a, c)
    decreases |a|
  {
    if |a| > 0 && a[0] == b[0] && b[0] == c[0] {
      LexLeTransitive(a[1..], b[1..], c[1..]);
    }
  }

  lemma {:induction false} LexLeReflexive(a: string)
    ensures LexLe(a, a)
    decreases |a|
  {
    if |a| > 0 {
      LexLeReflexive(a[1..]);
    }
  }

  /** `xs` is ordered by `key` under Python's string ordering. */
  predicate SortedBy(xs: seq<string>, key: string -> string) {
    forall i, j :: 0 <= i < j < |xs| ==> LexLe(key(xs[i]), key(xs[j]))
  }

  /** Insertion of `x` into a list already ordered by `key`, after the elements with equal keys. */
  function InsertBy(x: string, xs: seq<string>, key: string -> string): (r: seq<string>)
    requires SortedBy(xs, key)
    ensures SortedBy(r, key)
    ensures multiset(r) == multiset(xs) + multiset{x}
    decreases |xs|
  {
    if |xs| == 0 then [x]
    else if LexLe(key(xs[0]), key(x)) then
      var rest := InsertBy(x, xs[1..], key);
      BelowAll(xs[0], x, xs, rest, key);
      assert xs == [xs[0]] + xs[1..];
      ConsSorted(xs[0], rest, key);
      [xs[0]] + rest
    else
      LexLeTotal(key(xs[0]), key(x));
      BelowSorted(x, xs, key);
      ConsSorted(x, xs, key);
      [x] + xs
  }

  /** Every element of `rest` (the tail of `xs` with `x` inserted) is at or above `xs[0]`. */
  lemma BelowAll(y: string, x: string, xs: seq<string>, rest: seq<string>, key: string -> string)
    requires |xs| > 0 && y == xs[0] && SortedBy(xs, key) && LexLe(key(y), key(x))
    requires multiset(rest) == multiset(xs[1..]) + multiset{x}
    ensures forall k :: 0 <= k < |rest| ==> LexLe(key(y), key(rest[k]))
  {
    forall k | 0 <= k < |rest|
      ensures LexLe(key(y), key(rest[k]))
    {
      assert rest[k] in multiset(rest);
      if rest[k] != x {
        assert rest[k] in multiset(xs[1..]);
        var m :| 0 <= m < |xs[1..]| && xs[1..][m] == rest[k];
        assert xs[m + 1] == rest[k];
      }
    }
  }

  /** An element below the head of a sorted list is below all of it. */
  lemma BelowSorted(x: string, xs: seq<string>, key: string -> string)
    requires |xs| > 0 && SortedBy(xs, key) && LexLe(key(x), key(xs[0]))
    ensures forall k :: 0 <= k < |xs| ==> LexLe(key(x), key(xs[k]))
  {
    forall k | 0 < k < |xs|
      ensures LexLe(key(x), key(xs[k]))
    {
      LexLeTransitive(key(x), key(xs[0]), key(xs[k]));
    }
  }

  /** Putting a lower bound in front of a sorted list keeps it sorted. */
  lemma ConsSorted(y: string, rest: seq<string>, key: string -> string)
    requires SortedBy(rest, key)
    requires forall k :: 0 <= k < |rest| ==> LexLe(key(y), key(rest[k]))
    ensures SortedBy([y] + rest, key)
  {
    var r := [y] + rest;
    forall i, j | 0 <= i < j < |r|
      ensures LexLe(key(r[i]), key(r[j]))
    {
      assert r[j] == rest[j - 1];
      if i > 0 {
        assert r[i] == rest[i - 1];
      }
    }
  }

  /** The elements of `xs` whose key is `k`, in their order in `xs`. */
  function WithKey(xs: seq<string>, key: string -> string, k: string): seq<string>
    decreases |xs|
  {
    if |xs| == 0 then []
    else (if key(xs[0]) == k then [xs[0]] else []) + WithKey(xs[1..], key, k)
  }

  lemma {:induction false} WithKeyAppend(a: seq<string>, b: seq<string>, key: string -> string, k: string)
    ensures WithKey(a + b, key, k) == WithKey(a, key, k) + WithKey(b, key, k)
    decreases |a|
  {
    if |a| == 0 {
      assert a + b == b;
    } else {
      assert (a + b)[0] == a[0];
      assert (a + b)[1..] == a[1..] + b;
      WithKeyAppend(a[1..], b, key, k);
    }
  }

  /**
   * Inserting `x` after the keys at or below its own puts it after every
   * element with its key: the elements with any one key keep their order,
   * with `x` last among its own.
   */
  lemma {:induction false} InsertByKeepsTies(x: string, xs: seq<string>, key: string -> string, k: string)
    requires SortedBy(xs, key)
    ensures WithKey(InsertBy(x, xs, key), key, k)
      == WithKey(xs, key, k) + (if key(x) == k then [x] else [])
    decreases |xs|
  {
    if |xs| == 0 {
      assert WithKey([x], key, k) == (if key(x) == k then [x] else []) + WithKey([x][1..], key, k);
    } else if LexLe(key(xs[0]), key(x)) {
      assert SortedBy(xs[1..], key);
      InsertByKeepsTies(x, xs[1..], key, k);
      assert InsertBy(x, xs, key) == [xs[0]] + InsertBy(x, xs[1..], key);
      TiesBehindHead(xs[0], xs[1..], InsertBy(x, xs[1..], key), if key(x) == k then [x] else [], key, k);
      assert [xs[0]] + xs[1..] == xs;
    } else {
      TiesAheadOfAll(x, xs, key, k);
    }
  }

  /** Putting the same element in front of two lists keeps one's tie list the other's plus `tag`. */
  lemma TiesBehindHead(y: string, tail: seq<string>, rest: seq<string>, tag: seq<string>,
                       key: string -> string, k: string)
    requires WithKey(rest, key, k) == WithKey(tail, key, k) + tag
    ensures WithKey([y] + rest, key, k) == WithKey([y] + tail, key, k) + tag
  {
    WithKeyCons(y, rest, key, k);
    WithKeyCons(y, tail, key, k);
  }

  lemma WithKeyCons(y: string, rest: seq<string>, key: string -> string, k: string)
    ensures WithKey([y] + rest, key, k) == (if key(y) == k then [y] else []) + WithKey(rest, key, k)
  {
    assert ([y] + rest)[1..] == rest;
  }

  /** The step of `InsertByKeepsTies` where `x` goes in front: nothing before it shares its key. */
  lemma TiesAheadOfAll(x: string, xs: seq<string>, key: string -> string, k: string)
    requires |xs| > 0 && SortedBy(xs, key) && !LexLe(key(xs[0]), key(x))
    ensures WithKey(InsertBy(x, xs, key), key, k)
      == WithKey(xs, key, k) + (if key(x) == k then [x] else [])
  {
    var tag := if key(x) == k then [x] else [];
    assert InsertBy(x, xs, key) == [x] + xs;
    assert ([x] + xs)[1..] == xs;
    assert WithKey([x] + xs, key, k) == tag + WithKey(xs, key, k);
    if key(x) == k {
      NoneWithKey(xs, key, key(x));
    }
  }

  /** A sorted list whose first key is not at or below `k` holds no element with key `k`. */
  lemma {:induction false} NoneWithKey(xs: seq<string>, key: string -> string, k: string)
    requires |xs| > 0 && SortedBy(xs, key) && !LexLe(key(xs[0]), k)
    ensures WithKey(xs, key, k) == []
    decreases |xs|
  {
    LexLeReflexive(k);
    assert WithKey(xs, key, k) == WithKey(xs[1..], key, k);
    if |xs| > 1 {
      assert xs[1..][0] == xs[1];
      assert !LexLe(key(xs[1]), k) by {
        if LexLe(key(xs[1]), k) {
          LexLeTransitive(key(xs[0]), key(xs[1]), k);
        }
      }
      NoneWithKey(xs[1..], key, k);
    }
  }

  /**
   * Python's stable `sorted(xs, key=key)` on strings: ordered by key, a
   * permutation, and elements with equal keys keep their input order. Each
   * element goes in after the ones before it with keys at or below its own.
   */
  function SortBy(xs: seq<string>, key: string -> string): (r: seq<string>)
    ensures SortedBy(r, key)
    ensures multiset(r) == multiset(xs)
    ensures forall k :: WithKey(r, key, k) == WithKey(xs, key, k)
    decreases |xs|
  {
    if |xs| == 0 then []
    else
      var init := xs[..|xs| - 1];
      var last := xs[|xs| - 1];
      var rest := SortBy(init, key);
      assert xs == init + [last];
      SortByStep(init, last, rest, key);
      InsertBy(last, rest, key)
  }

  lemma SortByStep(init: seq<string>, last: string, rest: seq<string>, key: string -> string)
    requires SortedBy(rest, key)
    requires forall k :: WithKey(rest, key, k) == WithKey(init, key, k)
    ensures forall k :: WithKey(InsertBy(last, rest, key), key, k) == WithKey(init + [last], key, k)
  {
    forall k
      ensures WithKey(InsertBy(last, rest, key), key, k) == WithKey(init + [last], key, k)
    {
      InsertByKeepsTies(last, rest, key, k);
      WithKeyAppend(init, [last], key, k);
      assert WithKey([last], key, k) == (if key(last) == k then [last] else []) + WithKey([last][1..], key, k);
    }
  }
}

=== FILE: ui.dfy ===
/**
 * The base `UI` object: the UI scale chosen at construction, the UI lock
 * count, and arbitration of which input device owns the menu. The widget
 * layer (`ui_v1`) is outside the model: whether it is present, whether its
 * main menu shows and its root widget are parameters.
 */
module UI {
  import opened Wrappers

  datatype UIScale = Small | Medium | Large

  datatype UIState = UIState(
    scale: UIScale,
    forceScale: bool,
    lockCount: int,
    owner: Option<nat>,
    lastInputDeviceUseTime: int,
    lastRejectSoundTime: int)

  const OwnerTimeoutMillisecs := 30000
  const RejectSoundInterval := 5000

  /**
   * The constructor's scale: `BA_UI_SCALE` of small/medium/large forces
   * that scale; otherwise VR and TV use medium and everything else the
   * platform's scale. Returns the scale and whether it was forced.
   */
  function InitialScale(envOverride: Option<string>, vrOrTV: bool, platformScale: UIScale): (r: (UIScale, bool))
    ensures r.1 <==> envOverride.Some? && envOverride.value in {"small", "medium", "large"}
    ensures r.1 ==> r.0 == (if envOverride.value == "small" then Small
                            else if envOverride.value == "medium" then Medium else Large)
    ensures !r.1 ==> r.0 == (if vrOrTV then Medium else platformScale)
  {
    if envOverride == Some("small") then (Small, true)
    else if envOverride == Some("medium") then (Medium, true)
    else if envOverride == Some("large") then (Large, true)
    else if vrOrTV then (Medium, false)
    else (platformScale, false)
  }

  /** The name `BA_UI_SCALE` uses for each scale. */
  function ScaleName(sc: UIScale): string {
    match sc
    case Small => "small"
    case Medium => "medium"
    case Large => "large"
  }

  /** Naming a scale in the override always yields exactly that scale, forced. */
  lemma ScaleOverrideRoundTrip(sc: UIScale, vrOrTV: bool, platformScale: UIScale)
    ensures InitialScale(Some(ScaleName(sc)), vrOrTV, platformScale) == (sc, true)
  {
  }

  /** An override that names no scale is the same as none at all. */
  lemma UnknownOverrideIgnored(x: string, vrOrTV: bool, platformScale: UIScale)
    requires forall sc: UIScale :: x != ScaleName(sc)
    ensures InitialScale(Some(x), vrOrTV, platformScale) == InitialScale(None, vrOrTV, platformScale)
  {
    assert x != ScaleName(Small) && x != ScaleName(Medium) && x != ScaleName(Large);
  }

  /** `MainMenuVisible`: only the widget layer can show a main menu. */
  function MainMenuVisible(haveUIV1: bool, v1MenuVisible: bool): (r: bool)
    ensures r <==> haveUIV1 && v1MenuVisible
  {
    if haveUIV1 then v1MenuVisible else false
  }

  /** `SendWidgetMessage`: the widget layer's answer, or false (0) without it. */
  function SendWidgetMessage(haveUIV1: bool, v1Answer: int): (r: int)
    ensures !haveUIV1 ==> r == 0
    ensures haveUIV1 ==> r == v1Answer
  {
    if haveUIV1 then v1Answer else 0
  }

  /**
   * Without the widget layer the UI is inert: no menu shows, every widget
   * message answers false, and a device asking for the menu gets nothing and
   * changes nothing.
   */
  lemma NoWidgetLayerIsInert(u: UIState, v1MenuVisible: bool, v1Answer: int, root: nat, device: nat,
                             now: int, many: bool, live: set<nat>)
    ensures !MainMenuVisible(false, v1MenuVisible)
    ensures SendWidgetMessage(false, v1Answer) == 0
    ensures GetWidgetForInput(u, false, v1MenuVisible, root, device, now, many, live) == (u, None, false)
  {
  }

  // ----------------------------------------------------------------- locks

  /** `UILock`'s constructor: counts up; a write lock taken while locked is illegal (logged). */
  function AcquireUILock(u: UIState, write: bool): (r: (UIState, bool))
    ensures r.0 == u.(lockCount := u.lockCount + 1)
    ensures r.1 <==> write && u.lockCount != 0
  {
    (u.(lockCount := u.lockCount + 1), write && u.lockCount != 0)
  }

  /** `UILock`'s destructor: counts down, clamped (and logged) at 0. */
  function ReleaseUILock(u: UIState): (r: (UIState, bool))
    ensures u.lockCount >= 1 ==> r == (u.(lockCount := u.lockCount - 1), false)
    ensures u.lockCount < 1 ==> r == (u.(lockCount := 0), true)
  {
    if u.lockCount - 1 < 0 then (u.(lockCount := 0), true) else (u.(lockCount := u.lockCount - 1), false)
  }

  /** Scoped locks nest: a read lock inside a lock is legal, a write lock is not, and releasing restores the count. */
  lemma NestedLocksBalance(u: UIState)
    requires u.lockCount == 0
    ensures var (outer, bad1) := AcquireUILock(u, true);
      var (inner, bad2) := AcquireUILock(outer, false);
      var (_, bad3) := AcquireUILock(outer, true);
      !bad1 && !bad2 && bad3
      && ReleaseUILock(ReleaseUILock(inner).0).0 == u
  {
  }

  // -------------------------------------------------------------- ownership

  /** `SetUIInputDevice`: the owner changes and is protected from stealing from now on. */
  function SetUIInputDevice(u: UIState, device: Option<nat>, now: int): (r: UIState)
    ensures r == u.(owner := device, lastInputDeviceUseTime := now)
  {
    u.(owner := device, lastInputDeviceUseTime := now)
  }

  /** `OnAppResume`: nobody owns the menu after a resume. */
  function OnAppResume(u: UIState, now: int): (r: UIState)
    ensures r.owner.None? && r.lastInputDeviceUseTime == now
  {
    SetUIInputDevice(u, None, now)
  }

  /**
   * The owner as the weak reference reads it: a device that has since been
   * removed (not in `live`, the connected devices) reads as nobody.
   */
  function LiveOwner(u: UIState, live: set<nat>): (r: Option<nat>)
    ensures r.Some? <==> u.owner.Some? && u.owner.value in live
    ensures r.Some? ==> r == u.owner
  {
    if u.owner.Some? && u.owner.value in live then u.owner else None
  }

  /** Whether `device` may drive the menu at app time `now`, given the connected devices `live`. */
  predicate MayOwn(u: UIState, device: nat, now: int, manyLocalActiveDevices: bool, live: set<nat>) {
    LiveOwner(u, live).None? || LiveOwner(u, live) == Some(device)
    || now - u.lastInputDeviceUseTime > OwnerTimeoutMillisecs
    || !manyLocalActiveDevices
  }

  /**
   * `GetWidgetForInput` for `device` at app time `now`: nothing unless a
   * main menu shows; the device gets the root widget (and becomes the
   * owner) when `MayOwn`; otherwise it is refused, with an error sound at
   * most every five seconds. Returns the state, the widget, and whether the
   * error sound played.
   */
  function GetWidgetForInput(u: UIState, haveUIV1: bool, v1MenuVisible: bool, root: nat, device: nat,
                             now: int, manyLocalActiveDevices: bool, live: set<nat>): (r: (UIState, Option<nat>, bool))
    ensures !MainMenuVisible(haveUIV1, v1MenuVisible) ==> r == (u, None, false)
    ensures MainMenuVisible(haveUIV1, v1MenuVisible) && MayOwn(u, device, now, manyLocalActiveDevices, live) ==>
      r == (SetUIInputDevice(u, Some(device), now), Some(root), false)
    ensures MainMenuVisible(haveUIV1, v1MenuVisible) && !MayOwn(u, device, now, manyLocalActiveDevices, live) ==>
      r.1.None? && r.0.owner == u.owner && r.0.lastInputDeviceUseTime == u.lastInputDeviceUseTime
      && (r.2 <==> now - u.lastRejectSoundTime > RejectSoundInterval)
      && (r.2 ==> r.0.lastRejectSoundTime == now) && (!r.2 ==> r.0 == u)
  {
    if !MainMenuVisible(haveUIV1, v1MenuVisible) then (u, None, false)
    else if MayOwn(u, device, now, manyLocalActiveDevices, live) then
      (SetUIInputDevice(u, Some(device), now), Some(root), false)
    else if now - u.lastRejectSoundTime > RejectSoundInterval then
      (u.(lastRejectSoundTime := now), None, true)
    else (u, None, false)
  }

  /**
   * With many local devices active, once a device takes the menu another
   * device is refused until the owner has been idle for 30 seconds or has
   * been disconnected.
   */
  lemma OwnerHoldsMenuForThirtySeconds(u: UIState, root: nat, a: nat, b: nat, t1: int, t2: int,
                                       live1: set<nat>, live2: set<nat>)
    requires a != b && t1 <= t2
    requires MayOwn(u, a, t1, true, live1)
    ensures var (u1, w1, _) := GetWidgetForInput(u, true, true, root, a, t1, true, live1);
      w1 == Some(root) && u1.owner == Some(a)
      && (GetWidgetForInput(u1, true, true, root, b, t2, true, live2).1.Some?
          <==> t2 - t1 > OwnerTimeoutMillisecs || a !in live2)
  {
  }

  /** A disconnected owner holds nothing: the next device to ask gets the menu. */
  lemma DisconnectedOwnerYields(u: UIState, root: nat, d: nat, now: int, many: bool, live: set<nat>)
    requires u.owner.Some? && u.owner.value !in live
    ensures GetWidgetForInput(u, true, true, root, d, now, many, live).1 == Some(root)
    ensures GetWidgetForInput(u, true, true, root, d, now, many, live).0.owner == Some(d)
  {
  }

  /** Two refusals within five seconds sound the error at most once. */
  lemma RejectSoundIsRateLimited(u: UIState, root: nat, d: nat, t1: int, t2: int, live: set<nat>)
    requires !MayOwn(u, d, t1, true, live) && !MayOwn(u, d, t2, true, live)
    requires t1 <= t2 <= t1 + RejectSoundInterval
    ensures var (u1, _, s1) := GetWidgetForInput(u, true, true, root, d, t1, true, live);
      !(s1 && GetWidgetForInput(u1, true, true, root, d, t2, true, live).2)
  {
  }
}

=== FILE: wrappers.dfy ===
/** Optional values and error-carrying results shared by every component model. */
module Wrappers {

  /** A value that may be absent: a null pointer, an empty `Ref`, a Python `None`. */
  datatype Option<+T> = None | Some(value: T) {
    function GetOr(default: T): T {
      match this
      case None => default
      case Some(v) => v
    }
  }

  /** The outcome of an operation that may throw: `Failure` carries the exception text. */
  datatype Result<+T> = Success(value: T) | Failure(error: string) {
    predicate IsFailure() {
      Failure?
    }
  }
}
